=== FILE: README.md ===
# QR symbol encoder (alphanumeric mode, versions 1-10) in Dafny

This project models the core of a small Python QR-code generator. Its three
files are `encoder.py`, `draw.py` and `qr.py`.

`encoder.py` turns an alphanumeric message and an error-correction level
(L, M, Q, H) into the data bitstream of a QR symbol:
- mode indicator, character count, 11-bit pairs and 6-bit singles;
- terminator, zero fill and alternating pad bytes;
- the printed form of that bitstream, one space before every byte;
- the codeword handling of `errorCorrection` that does not involve
  Reed–Solomon arithmetic: the block split, the data interleave and the
  remainder bits.

`draw.py` builds the symbol matrix:
- `base`: finder patterns, alignment patterns, timing patterns, the dark
  module, and the reserved format and version areas;
- `insert_data`: places a bit sequence along the two-column zigzag;
- `apply_mask` and `get_penalty_score` over the eight mask patterns;
- the format and version information, written by
  `get_format_string` / `insert_format_string` and
  `get_version_string` / `insert_version_string`;
- `generate_qr`: chains all of the above.

`qr.py` is an earlier prototype of `base`: an integer grid with only the three
finder patterns.

The layout of a symbol follows ISO/IEC 18004:2006. The model cites its sections
where the code implements them: 6.4 for the data encoding, 6.3 for the function
patterns, 6.7.3 for placement, 6.8 for masking and 6.9-6.10 for format and
version information. It also cites 7.6 for the interleave order.

## How the model is organised

- **Modules.** There is one module per concern:
  - `Tables`: the constant tables of `encoder.py`.
  - `Alphanumeric`: `encode_message`.
  - `Bitstream` and `Codewords`: `get_version`, `format_char_count` and
    `formatReturnString`.
  - `Blocks`: the block split, the interleave and the remainder bits.
  - `Matrix`: `Color`, `Module` and the grid.
  - `Patterns`: `base`.
  - `Masking`, `Penalty` and `Placement`: `apply_mask`, `get_penalty_score` and
    `insert_data`.
  - `FormatInfo` and `Polynomials`: the format and version strings.
  - `Symbol`: `generate_qr`.
  - `Prototype`: `qr.py`.
- **Pure functions.** Every operation is a pure function or a method on
  immutable values. Python's in-place grid updates become functions that return
  the new grid.
- **Grid indexing.** Grids are indexed `g[y][x]`, as in the source: `x` is the
  column, `y` the row.
- **Bits and errors.** Bits are `seq<bool>`. Python exceptions become `Result`
  values: `InvalidCharacter` from `list.index`, `CapacityExceeded` from
  `get_version`, and `IndexOutOfRange` from the block split.
- **Partners.** Each operation has a partner that its contract is checked
  against:
  - a reader that inverts it: `DecodeMessage`, `ReadBitstream`, `ReadFormat`,
    `ReadVersion`, `ReadFormatCopy`;
  - an independent reference definition:
    - `RunPenalty` for the run counter of penalty rule 1;
    - `Path` for the cursor of `insert_data`;
    - `StandardInterleave` for the data interleave;
    - the raw-module count of the standard for the tables;
  - or an invariant the operation keeps: reserved modules, masking twice,
    transposition.

Where the code departs from ISO/IEC 18004:2006, the model follows the code:
- **Placement overflow.** When the cursor of `insert_data` runs past column 0,
  the code prints a warning and returns (draw.py:258-260), keeping the modules
  already written; no error reaches the caller. `Placement.Step` returns `None`
  there, and the loop of `Placement.InsertData` ends.
- **No length check.** Section 6.4.10 of ISO/IEC 18004:2006 fills the data
  capacity of the symbol exactly. `formatReturnString` never compares the
  assembled length with that capacity: only `get_version` raises, for a message
  over the version-10 capacity. `Bitstream.DataBitstream` returns whatever length
  the code assembles; the Findings show two inputs where it is wrong.
- **Error-correction level.** Section 6.9 of ISO/IEC 18004:2006 has the format
  information carry the level the symbol was encoded at. `generate_qr` always
  writes level Q (draw.py:335), and `Symbol.Finish` does the same.
- **Prototype clipping.** `qr.py` clips a finder against `len(data)` for `x` and
  `len(data[0])` for `y`. `base` always builds a square, so both are the side,
  and the model uses the side for both.

## Model

| member | source | states |
|---|---|---|
| Tables.LayoutOf | encoder.py:124-130 | the block counts the split uses are the lengths of the two blocking lists of the (version, level) entry, every listed block of a group has the size the split reads from its first entry, and an empty group two has size 0 |
| Tables.MaxCharsIncreasing | encoder.py:21-26 | at every level the character capacity strictly increases with the version, so the first version that fits is unique |
| Tables.BlockingShape | encoder.py:120-123 | every blocking entry is well formed: group one not empty, equal blocks within a group, group-two blocks one codeword longer, and all blocks together hold exactly the data codewords of `ERROR_CORRECTION_DICT` |
| Tables.BlockingSumsToData | encoder.py:120-123 | the block sizes of both groups add up to the data-codeword count of the symbol |
| Tables.LayoutCoversData | encoder.py:124-130 | the four numbers the split reads describe blocks covering exactly the data codewords, with group two one codeword longer when present |
| Tables.RemainderFillsSymbol | encoder.py:213-214 | the remainder-bit table lists exactly the modules left over after the whole codewords, per the raw-module count of section 6.4.10 of ISO/IEC 18004:2006 |
| Tables.ECTableOverfillsVersion8L | encoder.py:115 | as written, version 8-L needs 246 codewords (data plus 26 per block), more than the 242 the symbol holds |
| Tables.CorrectedECFillsSymbol | encoder.py:115-118 | with the 8-L entry set to 24, data plus error-correction codewords fill every (version, level) exactly; the other 39 entries already did |
| Alphanumeric.IndexOf | encoder.py:29-31 | a character found in the table has a value below 45 that names that character |
| Alphanumeric.TableAgrees | encoder.py:29-31 | the lookup finds a character exactly when the 45-symbol table holds it, and returns its position there |
| Alphanumeric.EncodeMessage | encoder.py:28-49 | packing succeeds exactly when every character is alphanumeric (else `InvalidCharacter`); 11 bits per pair plus 6 for an odd last character |
| Alphanumeric.EncodePair | encoder.py:33-41 | a leading pair becomes the 11-bit field `45 * index(a) + index(b)` ahead of the rest |
| Alphanumeric.DecodeEncode | encoder.py:28-49 | unpacking the packed bits gives the message back |
| Alphanumeric.EncodeInjective | encoder.py:28-49 | two messages with the same packed bits are the same message |
| Bits.Binary | encoder.py:37-40 | `bin(n)` padded to a width has at least that width, exactly that width when `n` fits, and reads back as `n` |
| Bitstream.GetVersion | encoder.py:51-57 | the version returned is the least whose capacity covers the length; it fails with `CapacityExceeded` exactly when version 10 is too small |
| Bitstream.GetVersionLeast | encoder.py:51-57 | any version whose capacity covers the length is at or above the one returned |
| Bitstream.FormatCharCount | encoder.py:59-70 | the count field reads back as the count, is at least 9 bits (11 at version 10), and exactly that wide when the count fits |
| Bitstream.CountFits | encoder.py:59-65 | every count up to the version-10 capacity fits the count field of every version |
| Bitstream.PadBytesAlternate | encoder.py:103-107 | pad byte `i` is `11101100` for even `i` and `00010001` for odd `i` |
| Bitstream.ZeroFill | encoder.py:96-97 | fewer than 8 zeros are added, and they reach a byte boundary |
| Bitstream.Terminator | encoder.py:87-89 | at most 4 terminator bits; never more than the room `requiredBits` leaves after the packed data alone, none when that room is negative, and fewer than 4 only when they use the room up |
| Bitstream.Assemble | encoder.py:95-107 | the assembled string is whole bytes, starts with the mode indicator `0010`, and is the longer of the required length and the aligned content; after the packed data come only zeros up to the byte boundary, then whole pad bytes alternating `11101100` and `00010001`, the first being `11101100` |
| Bitstream.AssembleParts | encoder.py:95 | the count field follows the mode indicator and the packed data follows the count field |
| Bitstream.AssembledTail | encoder.py:95-107 | the assembled bits hold the count field and the packed data after the mode indicator, then zeros through the terminator and the fill, then alternating pad bytes starting with `11101100` |
| Bitstream.DataBitstream | encoder.py:82-107 | on success the bitstream is whole bytes, at least the version-1 data bits long, and starts with the mode indicator |
| Bitstream.DataBitstreamFailure | encoder.py:82-107 | the bitstream fails exactly for a non-alphanumeric character or a message over the version-10 capacity, and reports `InvalidCharacter` first |
| Bitstream.ReadAssembled | encoder.py:95-107 | whatever terminator and padding are chosen, a reader at the same version recovers the message |
| Bitstream.ReadDataBitstream | encoder.py:82-107 | a reader at the version `get_version` chose recovers the message from the bitstream |
| Bitstream.DataBitstreamTail | encoder.py:86-107 | the bitstream `formatReturnString` assembles is mode indicator, count field and packed data, then zeros (a terminator sized against the version-1 length, then fill) up to a byte boundary, then pad bytes alternating `11101100` and `00010001`, the first being `11101100` |
| Bitstream.DataBitstreamLength | encoder.py:83-107 | the length is the larger of the version-1 data bits and the byte-aligned header, data and terminator, whatever version was chosen |
| Bitstream.CapacityTableExact | encoder.py:6-26 | `MAX_CHAR_COUNTS` is the exact capacity of `ERROR_CORRECTION_DICT`: the largest message fits header and data into the data codewords, and one more character would not |
| Bitstream.TerminatorOverflowsVersion1 | encoder.py:87 | as written, a 25-character message at level L (version 1) gets a 160-bit bitstream for a 152-bit symbol |
| Bitstream.RequiredBitsReadBeforeVersion | encoder.py:83-92 | as written, a 26-character message at level L is chosen version 2 but padded only to 160 bits, not the 272 of version 2-L |
| Bitstream.DataBitstreamCorrected | encoder.py:82-107 | the corrected bitstream exists exactly when the as-written one does; it is whole bytes and starts with the mode indicator `0010` |
| Bitstream.FillTo | encoder.py:87-107 | the corrected assembly is whole bytes, starts with the mode indicator `0010`, and reaches exactly the required length whenever header and data leave room for it |
| Bitstream.CorrectedBitstreamFillsVersion | encoder.py:82-107 | the corrected bitstream is exactly the data bits of its version and still reads back as the message |
| Codewords.Spaced | encoder.py:108-111 | the printed string has one space per started byte on top of the bits, and starts with a space |
| Codewords.SpacedBitAt | encoder.py:108-111 | bit `i` is printed at position `i + i / 8 + 1` as `0` or `1` |
| Codewords.SpacedSeparators | encoder.py:108-111 | a space stands every nine characters, one before each byte |
| Codewords.FormatReturnString | encoder.py:82-112 | the returned string exists exactly when the bitstream does, failing with the bitstream's error otherwise; it has nine characters per byte, and splitting it at the spaces as `errorCorrection` does gives the bitstream's bytes in order, as `0`/`1` text |
| Codewords.SplitJoin | encoder.py:131 | `split(" ")` yields pieces without spaces that rejoin to the string |
| Codewords.ChunksOfBytes | encoder.py:131-133 | a whole number of bytes cuts into chunks where chunk `k` is the `0`/`1` text of bits `8k` to `8k+7` |
| Codewords.ReadSpaced | encoder.py:131-133 | splitting the printed bitstream and dropping the leading empty piece gives its codewords in order, eight characters each |
| Blocks.SplitBlocks | encoder.py:138-149 | the split as written succeeds exactly when both groups' reads stay in range (else `IndexOutOfRange`); group-one block `b` is codewords `b*n1` onward, and group-two block `b` is codewords `b*n2` onward, also counted from 0 |
| Blocks.SplitRepeatsGroupOne | encoder.py:145-149 | as written, group-two block 0 starts with the whole of group-one block 0 |
| Blocks.SplitBlocksCorrected | encoder.py:138-149 | the corrected split has the layout's block counts and block sizes |
| Blocks.SplitCorrectedPartitions | encoder.py:138-149 | the corrected split's blocks, concatenated, are exactly the codewords they cover |
| Blocks.SplitCorrectedCoversData | encoder.py:120-149 | a symbol's worth of data codewords always splits, and every codeword lands in exactly one block |
| Blocks.SplitsShaped | encoder.py:138-149 | both splits give blocks of the layout's shape |
| Blocks.InterleaveData | encoder.py:195-204 | as written, the interleave has `b1*n1 + min(b1, b2)*n2` codewords, as many as group one and the group-two blocks whose index is also a group-one index hold |
| Blocks.AlternateBlocks | encoder.py:199-204 | the inner loop visits group-one block `k` at `2k` and group-two block `k` at `2k+1` while both exist, then the remaining group-one blocks in order; no group-two block past the group-one count is visited |
| Blocks.InterleaveDataOrder | encoder.py:195-204 | as written, the interleave is the column-by-column reading of section 7.6 of ISO/IEC 18004:2006 applied to the blocks in the loop's visiting order |
| Blocks.InterleaveDataPairAt | encoder.py:198-204 | as written, codeword `c` (below both block sizes) of group-one block `k` and of group-two block `k`, for `k < m = min(b1, b2)`, sit side by side at `c*(b1+m) + 2k` and `c*(b1+m) + 2k + 1` |
| Blocks.InterleaveDataUnpairedAt | encoder.py:198-204 | as written, codeword `c` (below both block sizes) of a group-one block `k >= m` sits at `c*(b1+m) + m + k`, after the pairs of its row |
| Blocks.InterleaveDataKeepsAll | encoder.py:195-204 | as written, codewords are lost exactly when group two has more blocks than group one |
| Blocks.InterleaveDropsVersion7Q | encoder.py:195-204 | as written, version 7-Q interleaves 58 of its 88 data codewords |
| Blocks.InterleaveDataStart | encoder.py:198-204 | as written, with both groups present the interleave opens with codeword 0 of group-one block 0, then codeword 0 of group-two block 0 |
| Blocks.InterleaveOrderDiffers | encoder.py:198-204 | with two group-one blocks and a group two, the as-written order differs from the standard's at position 1 |
| Blocks.InterleaveDataSingleGroup | encoder.py:195-204 | with a single group the as-written interleave is the standard one |
| Blocks.StandardInterleaveLength | encoder.py:195-204 | the interleave of section 7.6 of ISO/IEC 18004:2006 holds exactly the blocks' codewords |
| Blocks.StandardInterleavePositions | encoder.py:195-204 | in the standard interleave, codeword `c` of block `k` sits at row-major position `c * blocks + k`, and the extra codewords of group two come last |
| Blocks.PositionInjective | encoder.py:195-204 | distinct codewords get distinct positions, so the standard interleave is a rearrangement of the blocks |
| Blocks.AppendRemainder | encoder.py:213-216 | the final message is the codewords followed by the table's number of `0` characters |
| Blocks.RemainderCompletesSymbol | encoder.py:212-216 | all codewords plus the remainder bits fill exactly the symbol's data modules |
| Matrix.Size | draw.py:107 | the side `(version-1)*4+21` is 21 to 57 and 1 modulo 4 |
| Matrix.Blank | draw.py:108 | a fresh grid is square, and every module is unset and unreserved |
| Patterns.AlignmentCentresShape | draw.py:5-16 | each version lists `version / 7 + 2` centres (none for version 1), from 6 to `size - 7`, each keeping its pattern inside the symbol |
| Patterns.AlignmentCentresSpread | draw.py:5-16 | the centres increase by at least 12, so patterns on one line never overlap |
| Patterns.Finder | draw.py:67-76 | the 9x9 footprint, clipped to the symbol, becomes reserved, with rings 2 and 4 white and the rest black; every other module is left alone |
| Patterns.FinderStageCells | draw.py:110-113 | after the three finders each footprint has its finder colours and everything else is still free |
| Patterns.AlignmentCells | draw.py:78-91 | an alignment pattern is drawn only when its whole footprint is unreserved, with ring 1 white; otherwise nothing changes, and nothing outside the footprint changes |
| Patterns.AlignStageCells | draw.py:115-119 | the alignment loop keeps the finders and leaves free everything outside them and the drawn patterns |
| Patterns.AlignStageDraws | draw.py:115-119 | every pair of table centres draws its pattern, except the three pairs that would overlap a finder |
| Patterns.Timing | draw.py:121-128 | every unreserved module of row 6 and column 6 becomes reserved, black at even positions; nothing else changes |
| Patterns.DarkModule | draw.py:130-132 | module (8, size-8) becomes reserved black, and nothing else changes |
| Patterns.Reserve | draw.py:134-145 | marking an area reserved keeps every colour and adds exactly the area to the reserved modules |
| Patterns.PatternStageFinders | draw.py:110-132 | the timing loop and the dark module do not disturb the finders |
| Patterns.PatternStageTiming | draw.py:121-132 | the timing lines alternate between the finders starting black, the dark module is black, and every coloured module is reserved |
| Patterns.PatternStageFreeExactly | draw.py:106-132 | after the patterns a module is free exactly when it lies outside every finder, drawn alignment pattern and timing line |
| Patterns.BaseReserves | draw.py:134-145 | `base` only adds reservations: the format areas, and from version 7 the version areas |
| Patterns.Base | draw.py:106-147 | a module of `base` is unreserved exactly when it lies outside every finder, every drawn alignment pattern, both timing lines, the dark module, the format areas and (from version 7) the version areas, and such a module is still unset |
| Patterns.BaseFinders | draw.py:106-147 | the three finders of `base` are as `finder_pattern` drew them |
| Patterns.BaseTiming | draw.py:106-147 | in `base` every coloured module is reserved, the timing lines alternate, and the dark module is black |
| Patterns.BaseAlignments | draw.py:106-147 | `base` carries an alignment pattern at every non-corner pair of table centres |
| Masking.Invert | draw.py:155-158 | inversion yields a colour, black exactly when the module was not black (unset counts as white) |
| Masking.ApplyMask | draw.py:149-159 | masking inverts exactly the free modules whose condition holds; reserved modules and flags are untouched |
| Masking.MaskInvolution | draw.py:149-159 | masking a grid whose free modules are coloured twice with the same pattern gives the grid back |
| Masking.MaskRespects | draw.py:154 | masking never changes a reserved module |
| Masking.ProductMasks | draw.py:25-26 | mask 5 holds exactly when `row*col` is a multiple of 6, and mask 6 holds wherever mask 5 does |
| Masking.MaskPeriodic | draw.py:19-28 | every mask pattern repeats every 12 modules in both directions |
| Penalty.CountRect | draw.py:185-199 | an empty loop range, such as `range(size-10)` on a small grid, counts nothing |
| Penalty.LineScan | draw.py:166-182 | the counter scan of rule 1 over one line scores exactly `RunPenalty`: `3 + (n - 5)` for every maximal run of `n >= 5` same-coloured modules and nothing else |
| Penalty.ScanIsRunPenalty | draw.py:166-182 | the scan from the start of a line with both counters at 0 equals the run-based score |
| Penalty.MatchedIsPattern | draw.py:197-210 | a window scores exactly when it is the 1:1:3:1:1 pattern with four light modules, forwards or backwards, and never both |
| Penalty.Balance | draw.py:213-223 | the balance term is a multiple of 10, at most 100, and 0 exactly when the dark share is strictly between 45% and 55% |
| Penalty.HalfSteps | draw.py:220-222 | the nearer of floor and ceiling of `20 * dark / total`, as distance from 10, is at most 10 and 0 exactly when that quotient lies strictly between 9 and 11 |
| Penalty.LinesScoreTranspose | draw.py:166-182 | rule 1 on the transposed grid swaps the column pass and the row pass |
| Penalty.Condition2Transpose | draw.py:184-194 | rule 2 does not change when the grid is transposed |
| Penalty.ColumnWindowsTranspose | draw.py:196-210 | the column windows of the transposed grid are the row windows of the grid |
| Penalty.RowWindowsTranspose | draw.py:196-210 | the row windows of the transposed grid are the column windows of the grid |
| Penalty.DarkCountTranspose | draw.py:213-219 | the dark count does not change when the grid is transposed |
| Penalty.PenaltyTranspose | draw.py:161-225 | the penalty of the transposed symbol equals that of the symbol |
| Placement.Step | draw.py:239-264 | a move alternates first and second module of a pair, stays inside the rows and never lands on column 6; from the first module of a pair the cursor keeps its row and direction, and the loop ends there exactly at column 0; from the second module at the top or bottom edge the cursor stays on the edge row and turns |
| Placement.StepAlongPath | draw.py:239-264 | the cursor moves from each module of a column pair to the next, turns into the next pair at the top or bottom edge, steps over column 6, and stops after column 0 |
| Placement.PathCells | draw.py:227-264 | the traversal visits every module of the symbol except those of column 6 |
| Placement.PathDistinct | draw.py:227-264 | the traversal visits no module twice |
| Placement.Fill | draw.py:234-237 | writing bits along a path changes no reserved flag and no reserved module |
| Placement.FillPlaces | draw.py:234-237 | along a path without repeats, the `k`-th free module gets bit `k` when there is one and is untouched otherwise |
| Placement.TraversalPlaces | draw.py:234-237 | along the traversal, the `k`-th free module gets bit `k` of the data, or is untouched once the data runs out |
| Placement.TraversalSkipsTimingColumn | draw.py:262-264 | column 6 is never written |
| Placement.Advance | draw.py:234-260 | the module under the cursor is the next of the traversal and lies in the symbol; the loop ends exactly when the traversal ends |
| Placement.InsertData | draw.py:227-264 | the cursor loop of `insert_data` writes exactly the bits of the traversal fill |
| FormatInfo.CorrectionBitsRoundTrip | draw.py:30-35 | each level has its own two format bits, which read back as that level |
| FormatInfo.FormatCode | draw.py:269-274 | five data bits above ten check bits: the code word fits in 15 bits and its top five bits are the data |
| FormatInfo.FormatCodeDivisible | draw.py:270-274 | the code word is a multiple of the generator `0b10100110111` over GF(2) |
| FormatInfo.GetFormatString | draw.py:266-279 | the format string is 15 bits and reads as the masked code word |
| FormatInfo.FormatStringCode | draw.py:266-279 | unmasked, the format string is a (15, 5) BCH code word carrying the level bits and the mask |
| FormatInfo.FormatRoundTrip | draw.py:266-279 | reading the format string back gives its level and mask, so the 32 strings differ |
| FormatInfo.VersionString | draw.py:299-306 | versions 7 to 10 have an 18-bit version string; a lower version is not in the table |
| FormatInfo.VersionStringData | draw.py:300-305 | each version string starts with its version number in six bits |
| FormatInfo.VersionRoundTrip | draw.py:299-306 | reading a version string back gives its version |
| FormatInfo.FormatBitArea | draw.py:284-297 | the modules carrying format bits are the reserved format areas less the two timing modules and the dark module |
| FormatInfo.InsertFormatString | draw.py:281-297 | each format module takes the colour of its bit of the reversed string; no other module and no reserved flag changes |
| FormatInfo.FormatCopyWritten | draw.py:284-297 | both modules of each bit take that bit's colour |
| FormatInfo.VersionBitArea | draw.py:308-315 | the modules carrying version bits are exactly the two reserved version blocks |
| FormatInfo.InsertVersionString | draw.py:308-315 | each version module takes the colour of its bit; nothing else changes |
| Polynomials.Reduce | draw.py:271-273 | the division loop leaves a remainder shorter than the generator |
| Polynomials.ReduceQuotient | draw.py:271-273 | the remainder differs from the dividend by a GF(2) multiple of the generator |
| Polynomials.CodeWord | draw.py:269-274 | the data shifted by ten bits with the remainder appended is a multiple of the generator |
| Symbol.SelectMaskFirstMinimum | draw.py:325-331 | the mask loop picks the lowest-indexed pattern of lowest penalty |
| Symbol.FirstMinimumUnique | draw.py:325-331 | the choice is determined by the scores alone |
| Symbol.ChooseMask | draw.py:324-331 | the loop over the mask scores, with `-1` for no best yet and replacing the best only on a strictly lower score, returns the lowest index of least score |
| Symbol.Finish | draw.py:332-340 | masking and writing the format and version information keep the side and every reserved flag |
| Symbol.FinishOutsideInformation | draw.py:332-340 | outside the format and version areas, and more precisely at every module that holds no format bit and (from version 7) no version bit, the finished symbol is the masked grid |
| Symbol.FinishFormat | draw.py:334-336 | both copies of the format information read back as the level-Q format string of the chosen mask |
| Symbol.FinishVersion | draw.py:338-340 | from version 7 both version blocks read back as the version string |
| Symbol.FinishKeepsPatterns | draw.py:332-340 | the final steps keep every function pattern module of `base` that holds no format or version bit, the dark module and the timing modules inside the format areas included |
| Symbol.KeptTimingAndDark | draw.py:121-132 | a grid that keeps the patterns has both timing lines whole, alternating from black, and the black dark module at `(8, size-8)` |
| Symbol.FinishDataMasked | draw.py:332-340 | each data module is the filled grid's module under the chosen mask |
| Symbol.FinishStates | draw.py:332-340 | the written information reads back as level Q with the chosen mask, and from version 7 as the version |
| Symbol.FinishCarries | draw.py:334-340 | both format copies read back as the whole 15-bit level-Q format string of the mask, check bits included, and from version 7 both version blocks read back as the whole 18-bit version string |
| Symbol.FinishReserved | draw.py:318-340 | no step after `base` changes a reserved flag: the finished symbol is reserved exactly where `base` is |
| Symbol.GenerateQr | draw.py:318-340 | the symbol keeps every pattern module of `base` that holds no information bit, so both timing lines and the black dark module as `base` drew them; is reserved exactly where `base` is; carries the data under the first least-penalty mask; and carries, check bits included, the level-Q format string of that mask in both copies and, from version 7, the version string in both blocks |
| Prototype.Zeros2 | qr.py:27 | the prototype grid starts square with every cell 0 |
| Prototype.FinderPattern | qr.py:12-20 | inside the clipped 9x9 footprint a cell becomes -1 on rings 2 and 4 and 1 elsewhere; every other cell is unchanged |
| Prototype.RingValueColour | qr.py:16-20 | the prototype's finder value is -1 exactly on rings 2 and 4, and is the integer of draw.py's finder colour |
| Prototype.PrototypeAgrees | qr.py:25-31 | a grid of the three prototype finders holds values in {-1, 0, 1}, 0 exactly outside the finders, and agrees module by module with draw.py's finder stage |
| Prototype.PrototypeBase | qr.py:25-31 | the prototype `base` is square of side `(version-1)*4+21`, cells in {-1, 0, 1}, 0 exactly outside the three footprints, -1 inside exactly on rings 2 and 4, and equal to draw.py's finders |

## Left out

- Reed–Solomon error correction (`generatorPolynomialFinder` and the
  division loops of `errorCorrection`, encoder.py:151-192, 206-210): the
  source's arithmetic is not over GF(256), and its results are not used by
  `generate_qr`. The interleave of the error-correction codewords is left out
  with it. As written these loops also end `errorCorrection` with an
  `IndexError` for many symbols: at lines 172-173 whenever the message has more
  codewords than one block plus its error-correction codewords (5-Q and 7-Q,
  for example), and at line 208 whenever group one has two or more blocks,
  because the `for i` at line 169 reuses the counter of the `while` at lines
  165-176, so the loop runs once and computes one block. The split and
  interleave members model lines 138-149 and 195-204 on their own, as if those
  lines were reached.
- Printing: `display_qr` in draw.py and qr.py, the warning print in
  `insert_data` (draw.py:259), the `display_qr(base(1))` call run when qr.py is
  imported, and the command-line `main` of encoder.py. Only the early return
  after the warning is modelled.
- `wrap_with_border` and the two border calls in `generate_qr`
  (draw.py:93-101, 342-345). They add the quiet zone around a finished symbol,
  so nothing in the symbol itself changes.
- The `mark` debugging field of `Module`, and its write in
  `insert_version_string` (draw.py:316).
- `Encoder` state across calls: `formatReturnString` is modelled on a fresh
  `Encoder` (version 1), as `encoder.py` creates one per message. A second call
  would start from the previous `self.version` and append to the previous
  `returnString`.
- `errorCorrection`'s conversion loop at encoder.py:135-137 has no effect, so it
  is not modelled.
- Penalty.Balance: the source computes `dark_count / total_count * 20` in
  floating point. The model takes floor and ceiling of the exact quotient.
  These differ only where float rounding crosses an integer.
- FormatInfo.VersionString: only the six data bits of each 18-bit table entry
  are proved to be the version; the twelve BCH check bits are taken from the
  table as written.
- FormatInfo.GetFormatString: the 32 format strings are proved to be (15, 5)
  BCH code words under the mask. They are not compared entry by entry with
  Annex C of ISO/IEC 18004:2006.
- FormatInfo.InsertFormatString and FormatInfo.InsertVersionString require a
  side of at least 21, which every version's `base` has. Python's negative
  indexing on smaller grids is not modelled.
- Placement.InsertData requires an odd side of at least 9, which every
  version's `base` has. On other sides the closed-form path would differ.
- Penalty.PenaltyScore requires a non-empty grid, because the source divides
  by the module count.
- Symbol.GenerateQr: requires `input_data_str` to hold only the ASCII digits
  `'0'` to `'9'`. The source's `map(int, ...)` (draw.py:320) also accepts every
  other Unicode decimal digit (`int` of an Arabic-Indic three is 3), and any
  digit other than zero becomes a set bit. The model excludes those
  characters; `Bits.BitString` alone would map each of them, the Arabic-Indic
  zero included, to a set bit. Characters that are not decimal digits raise
  `ValueError` in the source and are outside the model too.
- `generate_qr` hard-codes level Q for the format information (draw.py:335).
  The model keeps that; it does not take the encoder's level.

## Findings

| source | as written | input that shows it | evidently intended | confidence | as-written member | corrected member |
|---|---|---|---|---|---|---|
| encoder.py:87 | the terminator is bounded by `requiredBits - len(encodedMessage)`, ignoring the 4 + 9 header bits, so the assembled string can exceed the symbol | 25 alphanumeric characters at level L: 4 terminator bits, 160 bits for a 152-bit version-1 symbol | the room left after header and data bounds the terminator (section 6.4.10 of ISO/IEC 18004:2006) | not executed | Bitstream.TerminatorOverflowsVersion1 | Bitstream.CorrectedBitstreamFillsVersion |
| encoder.py:83-92 | `requiredBits` is read at line 83 while `self.version` is still 1; `get_version` only runs at line 92 | 26 alphanumeric characters at level L: version 2 is chosen, but the bitstream is padded to 160 bits instead of 272 | the required length of the chosen version | not executed | Bitstream.RequiredBitsReadBeforeVersion | Bitstream.DataBitstreamCorrected |
| encoder.py:115 | `ECTable['L'][8]` is 26 | version 8, level L: 194 data + 2 x 26 = 246 codewords in a 242-codeword symbol | 24, which fills the symbol exactly, as every other entry does | not executed | Tables.ECTableOverfillsVersion8L | Tables.CorrectedECFillsSymbol |
| encoder.py:148 | group-two blocks are read from `block*numDataCodewordsGroupTwo`, i.e. from codeword 0, overlapping group one. No output of `errorCorrection` shows it: every symbol with a group two has at least two group-one blocks, and the method raises `IndexError` later for all of them (see the next row) | version 5-Q: group-two block 0 starts with the 15 codewords of group-one block 0 | group two starts after the last group-one codeword | not executed | Blocks.SplitRepeatsGroupOne | Blocks.SplitCorrectedPartitions |
| encoder.py:198-204 | the interleave takes group-two block `i` only for `i` below the group-one block count, and alternates the groups block by block. No output of `errorCorrection` shows it: the method raises `IndexError` before returning, at lines 172-173 for 5-Q and 7-Q (the division loop indexes `resultPoly` up to the whole message length), and at line 208 for every symbol with two or more group-one blocks (the `for i` at line 169 overwrites the counter of the `while` at lines 165-176, so only one block gets error-correction codewords) | version 7-Q (2 blocks of 14, 4 of 15): 58 of 88 data codewords are interleaved | all blocks, column by column, group one then group two (section 7.6 of ISO/IEC 18004:2006) | not executed | Blocks.InterleaveDropsVersion7Q | Blocks.StandardInterleavePositions |

=== FILE: alphanumeric.dfy ===
/** Alphanumeric-mode packing (`encode_message`): each pair of characters becomes an
    11-bit field holding `45 * index(a) + index(b)`, a trailing single character a
    6-bit field holding `index(c)` (section 6.4.4 of ISO/IEC 18004:2006). */
module Alphanumeric {
  import opened Bits
  import opened Errors

  /** `alphanumericValueTable`: the 45 symbols in value order, written as its
      three runs (digits, capital letters, punctuation). */
  const Table: seq<char> :=
    ['0', '1', '2', '3', '4', '5', '6', '7', '8', '9']
    + ['A', 'B', 'C', 'D', 'E', 'F', 'G', 'H', 'I', 'J', 'K', 'L', 'M',
       'N', 'O', 'P', 'Q', 'R', 'S', 'T', 'U', 'V', 'W', 'X', 'Y', 'Z']
    + [' ', '$', '%', '*', '+', '-', '.', '/', ':']

  /** The symbol of value `v`: digits, then capital letters, then the nine
      punctuation symbols. */
  function CharAt(v: nat): char
    requires v < 45
  {
    if v < 10 then (48 + v) as char
    else if v < 36 then (55 + v) as char
    else if v == 36 then ' ' else if v == 37 then '$' else if v == 38 then '%'
    else if v == 39 then '*' else if v == 40 then '+' else if v == 41 then '-'
    else if v == 42 then '.' else if v == 43 then '/' else ':'
  }

  /** `alphanumericValueTable.index(c)`: the value of `c`; the Python call raises
      when `c` is not in the table. */
  function IndexOf(c: char): (r: Option<nat>)
    ensures r.Some? ==> r.value < 45 && CharAt(r.value) == c
  {
    if '0' <= c <= '9' then Some(c as int - 48)
    else if 'A' <= c <= 'Z' then Some(c as int - 55)
    else if c == ' ' then Some(36) else if c == '$' then Some(37) else if c == '%' then Some(38)
    else if c == '*' then Some(39) else if c == '+' then Some(40) else if c == '-' then Some(41)
    else if c == '.' then Some(42) else if c == '/' then Some(43) else if c == ':' then Some(44)
    else None
  }

  /** Every value names a symbol that maps back to it. */
  lemma IndexOfCharAt(v: nat)
    requires v < 45
    ensures IndexOf(CharAt(v)) == Some(v)
  {
  }

  /** `CharAt` and `IndexOf` agree with the literal table: `CharAt(i)` is entry
      `i`, and `IndexOf` finds a character exactly when the table holds it, at
      its position. */
  lemma TableAgrees(c: char)
    ensures |Table| == 45
    ensures forall i :: 0 <= i < |Table| ==> Table[i] == CharAt(i)
    ensures IndexOf(c).Some? <==> c in Table
    ensures IndexOf(c).Some? ==> Table[IndexOf(c).value] == c
  {
    forall i | 0 <= i < |Table|
      ensures Table[i] == CharAt(i)
    {
      TableEntry(i);
    }
    if c in Table {
      var i :| 0 <= i < |Table| && Table[i] == c;
      IndexOfCharAt(i);
    }
  }

  lemma TableEntry(i: nat)
    requires i < 45
    ensures Table[i] == CharAt(i)
  {
    if i < 15 {
      if i == 0 { } else if i == 1 { } else if i == 2 { } else if i == 3 { } else if i == 4 { }
      else if i == 5 { } else if i == 6 { } else if i == 7 { } else if i == 8 { } else if i == 9 { }
      else if i == 10 { } else if i == 11 { } else if i == 12 { } else if i == 13 { } else { }
    } else if i < 30 {
      if i == 15 { } else if i == 16 { } else if i == 17 { } else if i == 18 { } else if i == 19 { }
      else if i == 20 { } else if i == 21 { } else if i == 22 { } else if i == 23 { } else if i == 24 { }
      else if i == 25 { } else if i == 26 { } else if i == 27 { } else if i == 28 { } else { }
    } else {
      if i == 30 { } else if i == 31 { } else if i == 32 { } else if i == 33 { } else if i == 34 { }
      else if i == 35 { } else if i == 36 { } else if i == 37 { } else if i == 38 { } else if i == 39 { }
      else if i == 40 { } else if i == 41 { } else if i == 42 { } else if i == 43 { } else { }
    }
  }

  predicate IsAlphanumeric(c: char)
  {
    IndexOf(c).Some?
  }

  /** The packed bits of `msg`: pairs first, in order, then the odd character. */
  function EncodeMessage(msg: string): (r: Result<Bits>)
    ensures r.Ok? <==> forall i :: 0 <= i < |msg| ==> IsAlphanumeric(msg[i])
    ensures r.Err? ==> r.error == InvalidCharacter
    ensures r.Ok? ==> |r.value| == 11 * (|msg| / 2) + 6 * (|msg| % 2)
  {
    if |msg| >= 2 then
      var rest := EncodeMessage(msg[2..]);
      assert forall i :: 2 <= i < |msg| ==> msg[i] == msg[2..][i - 2];
      if !IsAlphanumeric(msg[0]) || !IsAlphanumeric(msg[1]) || rest.Err? then
        Err(InvalidCharacter)
      else
        var value := 45 * IndexOf(msg[0]).value + IndexOf(msg[1]).value;
        Pow2Widths();
        DigitsAtMost(value, 11);
        PairLength(|msg|);
        Ok(Binary(value, 11) + rest.value)
    else if |msg| == 1 then
      if !IsAlphanumeric(msg[0]) then Err(InvalidCharacter)
      else
        Pow2Widths();
        DigitsAtMost(IndexOf(msg[0]).value, 6);
        Ok(Binary(IndexOf(msg[0]).value, 6))
    else
      Ok([])
  }

  lemma PairLength(n: nat)
    requires n >= 2
    ensures 11 * (n / 2) + 6 * (n % 2) == 11 + 11 * ((n - 2) / 2) + 6 * ((n - 2) % 2)
  {
  }

  /** What a reader does with the packed bits: 11-bit groups become two characters,
      a final 6-bit group one character; any other shape or an out-of-range value
      is rejected. */
  function DecodeMessage(bits: Bits): Option<string>
  {
    if |bits| == 0 then Some([])
    else if |bits| == 6 then
      var c := FromBinary(bits);
      if c < 45 then Some([CharAt(c)]) else None
    else if |bits| >= 11 then
      var v := FromBinary(bits[..11]);
      if v < 45 * 45 then
        match DecodeMessage(bits[11..])
        case None => None
        case Some(rest) => Some([CharAt(v / 45), CharAt(v % 45)] + rest)
      else None
    else None
  }

  /** Unpacking the packed bits of an alphanumeric message gives the message back. */
  lemma {:induction false} DecodeEncode(msg: string)
    requires EncodeMessage(msg).Ok?
    ensures DecodeMessage(EncodeMessage(msg).value) == Some(msg)
  {
    var bits := EncodeMessage(msg).value;
    if |msg| >= 2 {
      EncodePair(msg);
      var a := IndexOf(msg[0]).value;
      var b := IndexOf(msg[1]).value;
      var rest := EncodeMessage(msg[2..]).value;
      var head := Binary(45 * a + b, 11);
      DigitsAtMost(45 * a + b, 11);
      assert bits[..11] == head;
      assert bits[11..] == rest;
      DecodeEncode(msg[2..]);
      PairValue(a, b);
      var v := FromBinary(bits[..11]);
      assert v == 45 * a + b;
      DecodePair(bits, msg[2..]);
      assert CharAt(v / 45) == msg[0] && CharAt(v % 45) == msg[1];
      assert [msg[0], msg[1]] + msg[2..] == msg;
    } else if |msg| == 1 {
      assert IsAlphanumeric(msg[0]);
      var c := IndexOf(msg[0]).value;
      DigitsAtMost(c, 6);
      assert bits == Binary(c, 6);
      assert |bits| == 6 && FromBinary(bits) == c;
      assert msg == [CharAt(c)];
    } else {
      assert bits == [] && msg == [];
    }
  }

  /** One step of the packing loop: a leading pair becomes 11 bits before the rest. */
  lemma EncodePair(msg: string)
    requires |msg| >= 2 && EncodeMessage(msg).Ok?
    ensures IndexOf(msg[0]).Some? && IndexOf(msg[1]).Some? && EncodeMessage(msg[2..]).Ok?
    ensures EncodeMessage(msg).value
      == Binary(45 * IndexOf(msg[0]).value + IndexOf(msg[1]).value, 11) + EncodeMessage(msg[2..]).value
  {
  }

  lemma DecodePair(bits: Bits, rest: string)
    requires |bits| >= 11 && FromBinary(bits[..11]) < 45 * 45
    requires DecodeMessage(bits[11..]) == Some(rest)
    ensures DecodeMessage(bits)
      == Some([CharAt(FromBinary(bits[..11]) / 45), CharAt(FromBinary(bits[..11]) % 45)] + rest)
  {
  }

  lemma PairValue(a: nat, b: nat)
    requires a < 45 && b < 45
    ensures 45 * a + b < 45 * 45
    ensures (45 * a + b) / 45 == a && (45 * a + b) % 45 == b
  {
  }

  /** Packing is injective: two messages with the same packed bits are equal. */
  lemma EncodeInjective(m1: string, m2: string)
    requires EncodeMessage(m1).Ok? && EncodeMessage(m2).Ok?
    requires EncodeMessage(m1).value == EncodeMessage(m2).value
    ensures m1 == m2
  {
    DecodeEncode(m1);
    DecodeEncode(m2);
  }
}

=== FILE: bits.dfy ===
/** Bit strings. The Python code keeps bits as strings of '0'/'1' built with `bin`,
    `zfill` and explicit zero padding; here a bit string is a `seq<bool>`, most
    significant bit first, `true` for '1'. */
module Bits {

  type Bits = seq<bool>

  function Pow2(n: nat): (r: nat)
    ensures r >= 1
  {
    if n == 0 then 1 else 2 * Pow2(n - 1)
  }

  /** The field widths the encoder uses, evaluated once. */
  lemma Pow2Widths()
    ensures Pow2(6) == 64 && Pow2(9) == 512 && Pow2(11) == 2048
  {
    assert Pow2(6) == 64;
    assert Pow2(9) == 512;
  }

  function Max(a: int, b: int): int { if a >= b then a else b }

  function Min(a: int, b: int): int { if a <= b then a else b }

  /** The `w` low-order bits of `n`, most significant first. */
  function ToBinary(n: nat, w: nat): (r: Bits)
    ensures |r| == w
  {
    if w == 0 then [] else ToBinary(n / 2, w - 1) + [n % 2 == 1]
  }

  /** The value of a most-significant-first bit string. */
  function FromBinary(b: Bits): nat
  {
    if |b| == 0 then 0 else 2 * FromBinary(b[..|b| - 1]) + (if b[|b| - 1] then 1 else 0)
  }

  /** The number of characters of Python's `bin(n)[2:]` (so `Digits(0) == 1`). */
  function Digits(n: nat): (r: nat)
    ensures r >= 1
    ensures n < Pow2(r)
  {
    if n < 2 then 1 else 1 + Digits(n / 2)
  }

  /** `bin(n)[2:]` left-padded with '0' to at least `width` characters: the shape of
      every fixed-width field the encoder builds. Its value is always `n`. */
  function Binary(n: nat, width: nat): (r: Bits)
    ensures |r| == Max(width, Digits(n))
    ensures FromBinary(r) == n
  {
    Pow2Monotone(Digits(n), Max(width, Digits(n)));
    FromToBinary(n, Max(width, Digits(n)));
    ToBinary(n, Max(width, Digits(n)))
  }

  /** `list(reversed(s))`. */
  function Reverse<T>(s: seq<T>): (r: seq<T>)
    ensures |r| == |s| && forall i :: 0 <= i < |s| ==> r[i] == s[|s| - 1 - i]
  {
    seq(|s|, i requires 0 <= i < |s| => s[|s| - 1 - i])
  }

  /** `list(map(bool, map(int, s)))` for a string of decimal digits: '0' is
      false and every other digit true. */
  function BitString(s: string): (r: Bits)
    ensures |r| == |s|
  {
    seq(|s|, i requires 0 <= i < |s| => s[i] != '0')
  }

  lemma BitStringPrefix(t: string, k: nat)
    requires k <= |t|
    ensures BitString(t)[..k] == BitString(t[..k])
  {
  }

  function Zeros(n: nat): (r: Bits)
    ensures |r| == n
    ensures forall i :: 0 <= i < n ==> !r[i]
  {
    seq(n, _ => false)
  }

  lemma {:induction false} Pow2Monotone(a: nat, b: nat)
    requires a <= b
    ensures Pow2(a) <= Pow2(b)
    decreases b
  {
    if a < b {
      Pow2Monotone(a, b - 1);
    }
  }

  lemma {:induction false} FromBinaryBound(b: Bits)
    ensures FromBinary(b) < Pow2(|b|)
  {
    if |b| > 0 {
      FromBinaryBound(b[..|b| - 1]);
    }
  }

  /** Reading back the `w` bits written for `n < 2^w` gives `n`. */
  lemma {:induction false} FromToBinary(n: nat, w: nat)
    requires n < Pow2(w)
    ensures FromBinary(ToBinary(n, w)) == n
  {
    if w > 0 {
      var r := ToBinary(n, w);
      assert r[..w - 1] == ToBinary(n / 2, w - 1);
      FromToBinary(n / 2, w - 1);
    }
  }

  /** Writing back the value of a bit string in as many bits gives the bit string. */
  lemma {:induction false} ToFromBinary(b: Bits)
    ensures ToBinary(FromBinary(b), |b|) == b
  {
    if |b| > 0 {
      var p := b[..|b| - 1];
      ToFromBinary(p);
      assert b == p + [b[|b| - 1]];
    }
  }

  /** A value below `2^w` has at most `w` binary digits, so `Binary(n, w)` is exactly `w` wide. */
  lemma {:induction false} DigitsAtMost(n: nat, w: nat)
    requires w >= 1
    requires n < Pow2(w)
    ensures Digits(n) <= w
  {
    if n >= 2 {
      DigitsAtMost(n / 2, w - 1);
    }
  }
}

=== FILE: bitstream.dfy ===
/** The data bitstream of `Encoder.formatReturnString` (section 6.4.10 of
    ISO/IEC 18004:2006): mode indicator, character-count field, packed data,
    terminator, zero fill to a byte boundary and alternating pad bytes, printed as
    one space-prefixed group of eight '0'/'1' characters per byte. */
module Bitstream {
  import opened Bits
  import opened Errors
  import opened Tables
  import opened Alphanumeric

  /** `get_version`: counts up from version 1 while the capacity is too small. */
  function GetVersion(l: Level, length: nat): (r: Result<Version>)
    ensures r.Ok? ==> MaxChars(l, r.value) >= length
    ensures r.Ok? ==> forall w: Version :: w < r.value ==> MaxChars(l, w) < length
    ensures r.Err? <==> length > MaxChars(l, 10)
    ensures r.Err? ==> r.error == CapacityExceeded
  {
    var r := SearchVersion(l, length, 1);
    if r.Ok? && r.value < 10 then
      MaxCharsIncreasing(l, r.value, 10);
      r
    else r
  }

  /** The `while` loop of `get_version`, entered with `version == from`. */
  function SearchVersion(l: Level, length: nat, from: int): (r: Result<Version>)
    requires 1 <= from <= 11
    requires forall w: Version :: w < from ==> MaxChars(l, w) < length
    ensures r.Ok? ==> from <= r.value && MaxChars(l, r.value) >= length
    ensures r.Ok? ==> forall w: Version :: w < r.value ==> MaxChars(l, w) < length
    ensures r.Err? ==> forall w: Version :: MaxChars(l, w) < length
    ensures r.Err? ==> r.error == CapacityExceeded
    decreases 11 - from
  {
    if from > 10 then Err(CapacityExceeded)
    else if MaxChars(l, from) < length then SearchVersion(l, length, from + 1)
    else Ok(from)
  }

  /** The version is the least one whose capacity covers the length. */
  lemma {:induction false} GetVersionLeast(l: Level, length: nat, v: Version)
    requires MaxChars(l, v) >= length
    ensures GetVersion(l, length).Ok?
    ensures GetVersion(l, length).value <= v
  {
  }

  /** Width of the character-count field: 11 bits for version 10, 9 below. */
  function CountWidth(v: Version): nat
  {
    if v == 10 then 11 else 9
  }

  /** `format_char_count`: `bin(n)` zero-filled to the field width. A count too
      large for the field is not truncated but widens it, as in the source. */
  function FormatCharCount(n: nat, v: Version): (r: Bits)
    ensures FromBinary(r) == n
    ensures |r| >= CountWidth(v)
    ensures n < Pow2(CountWidth(v)) ==> |r| == CountWidth(v)
  {
    if n < Pow2(CountWidth(v)) then DigitsAtMost(n, CountWidth(v)); Binary(n, CountWidth(v))
    else Binary(n, CountWidth(v))
  }

  /** `modeIndicator`: '0010', alphanumeric mode. */
  const ModeIndicator: Bits := [false, false, true, false]

  /** The two pad bytes, '11101100' and '00010001'. */
  const PadByteA: Bits := [true, true, true, false, true, true, false, false]
  const PadByteB: Bits := [false, false, false, true, false, false, false, true]

  /** Pad byte number `i` (from 0): the even ones are '11101100'. */
  function PadByte(i: nat): (r: Bits)
    ensures |r| == 8
  {
    if i % 2 == 0 then PadByteA else PadByteB
  }

  /** The first `count` pad bytes. */
  function PadBytes(count: nat): (r: Bits)
    ensures |r| == 8 * count
  {
    if count == 0 then [] else PadBytes(count - 1) + PadByte(count - 1)
  }

  /** Byte `i` of the padding is the `i`-th pad byte: the two values alternate,
      starting with '11101100'. */
  lemma {:induction false} PadBytesAlternate(count: nat, i: nat)
    requires i < count
    ensures PadBytes(count)[8 * i .. 8 * i + 8] == PadByte(i)
  {
    var prefix, last := PadBytes(count - 1), PadByte(count - 1);
    assert PadBytes(count) == prefix + last;
    assert |prefix| == 8 * count - 8;
    SliceOfAppend(prefix, last, 8 * i, 8 * i + 8);
    if i < count - 1 {
      PadBytesAlternate(count - 1, i);
    }
  }

  /** A slice of `a + b` that lies in `a`, or is exactly `b`. */
  lemma SliceOfAppend<T>(a: seq<T>, b: seq<T>, lo: nat, hi: nat)
    requires lo <= hi <= |a| || (lo == |a| && hi == |a| + |b|)
    ensures hi <= |a| ==> (a + b)[lo .. hi] == a[lo .. hi]
    ensures lo == |a| && hi == |a| + |b| ==> (a + b)[lo .. hi] == b
  {
  }

  /** Number of '0' characters the `while` loop adds to reach a multiple of 8. */
  function ZeroFill(length: nat): (r: nat)
    ensures r < 8 && (length + r) % 8 == 0
  {
    (8 - length % 8) % 8
  }

  /** `terminalBits`: at most four, fewer when `requiredBits` is nearly reached by
      the packed data alone, and none when it is exceeded (`range` of a negative
      number is empty). */
  function Terminator(requiredBits: int, dataLength: nat): (r: nat)
    ensures r <= 4
    ensures dataLength + r <= requiredBits || r == 0
    ensures r < 4 ==> dataLength + r >= requiredBits
  {
    Max(0, Min(4, requiredBits - dataLength))
  }

  /** Length of the packed data of an `n`-character message. */
  function PackedLength(n: nat): nat
  {
    11 * (n / 2) + 6 * (n % 2)
  }

  /** `n` rounded up to a whole number of bytes. */
  function Align(n: nat): (r: nat)
    ensures r % 8 == 0 && n <= r < n + 8
  {
    n + ZeroFill(n)
  }

  /** The bit string built from the packed data once the version is known:
      header, data, `terminator` zero bits, zero fill to a byte boundary, then pad
      bytes while `requiredBits` is not reached. */
  function Assemble(n: nat, encoded: Bits, version: Version, terminator: nat, requiredBits: nat): (r: Bits)
    requires requiredBits % 8 == 0
    ensures |r| == Max(requiredBits, Align(4 + |FormatCharCount(n, version)| + |encoded| + terminator))
    ensures |r| % 8 == 0 && |r| >= 4
    ensures r[..4] == ModeIndicator
    ensures var u := 4 + |FormatCharCount(n, version)| + |encoded|;
            var a := Align(u + terminator);
            (|r| - a) % 8 == 0 && PaddedFrom(r, u, a)
  {
    var count := FormatCharCount(n, version);
    var unaligned := Unaligned(count, encoded, terminator);
    var aligned := Aligned(unaligned);
    var r := Padded(aligned, requiredBits);
    Stages(unaligned, aligned, r, 4 + |count| + |encoded|, requiredBits);
    r
  }

  /** Mode indicator, count field, packed data, then `terminator` zero bits. */
  function Unaligned(count: Bits, encoded: Bits, terminator: nat): (r: Bits)
    ensures |r| == 4 + |count| + |encoded| + terminator
    ensures r[..4] == ModeIndicator && HeaderThenData(r, count, encoded)
    ensures ZerosBetween(r, 4 + |count| + |encoded|, |r|)
  {
    var head := ModeIndicator + count;
    var r := head + (encoded + Zeros(terminator));
    assert r[..4] == head[..4];
    assert r[4 .. 4 + |count|] == head[4 ..];
    assert r[4 + |count| .. 4 + |count| + |encoded|] == encoded;
    r
  }

  /** The `while` loop that appends '0' up to a multiple of 8. */
  function Aligned(x: Bits): (r: Bits)
    ensures |r| == Align(|x|) && r[..|x|] == x
    ensures ZerosBetween(r, |x|, |r|)
  {
    x + Zeros(ZeroFill(|x|))
  }

  /** Whole pad bytes appended while `requiredBits` is not reached. */
  function Padded(x: Bits, requiredBits: nat): (r: Bits)
    requires |x| % 8 == 0 && requiredBits % 8 == 0
    ensures |r| == Max(requiredBits, |x|) && |r| % 8 == 0
    ensures r[..|x|] == x && PadBytesFrom(r, |x|)
  {
    var k := Max(0, (requiredBits - |x|) / 8);
    PadToRequired(|x|, requiredBits);
    PadTail(x, k);
    x + PadBytes(k)
  }

  /** `x` followed by `count` pad bytes starts with `x` and then alternates. */
  lemma PadTail(x: Bits, count: nat)
    ensures var r := x + PadBytes(count);
            r[..|x|] == x && PadBytesFrom(r, |x|)
  {
    var r := x + PadBytes(count);
    WholeBytes(count);
    assert (|r| - |x|) / 8 == count;
    assert r[|x| ..] == PadBytes(count);
    forall k | 0 <= k < count
      ensures r[|x| + 8 * k .. |x| + 8 * k + 8] == PadByte(k)
    {
      PadBytesAlternate(count, k);
      SliceOfDrop(r, |x|, 8 * k, 8 * k + 8);
    }
  }

  /** The three stages of `Assemble` put together: the prefix survives, the
      terminator and the zero fill join up, and the pad bytes follow. */
  lemma Stages(x: Bits, y: Bits, r: Bits, u: nat, requiredBits: nat)
    requires 4 <= |x| && u <= |x| && x[..4] == ModeIndicator && ZerosBetween(x, u, |x|)
    requires |x| <= |y| && |y| % 8 == 0 && y[..|x|] == x && ZerosBetween(y, |x|, |y|)
    requires |y| <= |r| && |r| == Max(requiredBits, |y|) && |r| % 8 == 0
    requires r[..|y|] == y && PadBytesFrom(r, |y|)
    ensures r[..4] == ModeIndicator && (|r| - |y|) % 8 == 0 && PaddedFrom(r, u, |y|)
  {
    assert r[..4] == y[..|x|][..4];
    forall i | u <= i < |y|
      ensures !r[i]
    {
      assert r[i] == y[i];
      if i < |x| {
        assert y[i] == x[i];
      }
    }
  }

  lemma WholeBytes(k: nat)
    ensures (8 * k) % 8 == 0 && (8 * k) / 8 == k
  {
  }

  /** With a count that fits its field, the header is exactly mode indicator
      and field width. */
  lemma AssembleLength(n: nat, encoded: Bits, version: Version, terminator: nat, requiredBits: nat)
    requires n < Pow2(CountWidth(version)) && requiredBits % 8 == 0
    requires |encoded| == PackedLength(n)
    ensures |Assemble(n, encoded, version, terminator, requiredBits)|
      == Max(requiredBits, Align(4 + CountWidth(version) + PackedLength(n) + terminator))
  {
    var w := |FormatCharCount(n, version)|;
    assert w == CountWidth(version);
    assert |Assemble(n, encoded, version, terminator, requiredBits)| == Max(requiredBits, Align(4 + w + |encoded| + terminator));
  }

  /** The header and the packed data of `Assemble`, piece by piece. */
  lemma AssembleParts(n: nat, encoded: Bits, version: Version, terminator: nat, requiredBits: nat)
    requires requiredBits % 8 == 0
    ensures var r := Assemble(n, encoded, version, terminator, requiredBits);
      var w := |FormatCharCount(n, version)|;
      && r[4 .. 4 + w] == FormatCharCount(n, version)
      && r[4 + w .. 4 + w + |encoded|] == encoded
  {
    var count := FormatCharCount(n, version);
    var x := Unaligned(count, encoded, terminator);
    var y := Aligned(x);
    var r := Padded(y, requiredBits);
    assert r == Assemble(n, encoded, version, terminator, requiredBits);
    PrefixSlice(y, x, 4, 4 + |count|);
    PrefixSlice(r, y, 4, 4 + |count|);
    PrefixSlice(y, x, 4 + |count|, 4 + |count| + |encoded|);
    PrefixSlice(r, y, 4 + |count|, 4 + |count| + |encoded|);
  }

  /** A slice inside a prefix of `r` is the same slice of the prefix. */
  lemma PrefixSlice<T>(r: seq<T>, p: seq<T>, lo: nat, hi: nat)
    requires lo <= hi <= |p| <= |r| && r[..|p|] == p
    ensures r[lo .. hi] == p[lo .. hi]
  {
    forall j | 0 <= j < hi - lo
      ensures r[lo .. hi][j] == p[lo .. hi][j]
    {
      assert r[lo + j] == r[..|p|][lo + j];
    }
  }

  /** Both lengths are whole bytes, so whole pad bytes reach `requiredBits` exactly. */
  lemma PadToRequired(length: nat, requiredBits: nat)
    requires length % 8 == 0 && requiredBits % 8 == 0
    ensures length + 8 * Max(0, (requiredBits - length) / 8) == Max(length, requiredBits)
  {
    if length < requiredBits {
      var k := (requiredBits - length) / 8;
      assert requiredBits - length == 8 * k;
    } else {
      assert (requiredBits - length) / 8 <= 0;
    }
  }

  /** Number of data bits of a symbol: whole codewords, so a whole number of bytes. */
  function DataBits(v: Version, l: Level): (r: nat)
    ensures r % 8 == 0
  {
    8 * DataCodewords(v, l)
  }

  /** `formatReturnString` on a fresh `Encoder`, as a bit string. The required
      length is read while `self.version` still holds its initial 1 (line 83): the
      version chosen at line 92 only sets the width of the count field. Packing
      fails before the version search does. */
  function DataBitstream(msg: string, l: Level): (r: Result<Bits>)
    ensures r.Ok? ==> |r.value| % 8 == 0 && |r.value| >= DataBits(1, l) && |r.value| >= 4
    ensures r.Ok? ==> r.value[..4] == ModeIndicator
  {
    match EncodeMessage(msg)
    case Err(e) => Err(e)
    case Ok(encoded) =>
      match GetVersion(l, |msg|)
      case Err(e) => Err(e)
      case Ok(version) =>
        Ok(Assemble(|msg|, encoded, version, Terminator(DataBits(1, l), |encoded|), DataBits(1, l)))
  }

  /** The bitstream fails exactly for a character outside the table or a message
      longer than the version-10 capacity, and reports the first of the two. */
  lemma DataBitstreamFailure(msg: string, l: Level)
    ensures DataBitstream(msg, l).Err?
      <==> (exists i :: 0 <= i < |msg| && !IsAlphanumeric(msg[i])) || |msg| > MaxChars(l, 10)
    ensures DataBitstream(msg, l).Err? ==>
      (DataBitstream(msg, l).error == InvalidCharacter
       <==> exists i :: 0 <= i < |msg| && !IsAlphanumeric(msg[i]))
  {
  }

  /** What a reader of a version-`v` symbol does with the data bits: check the
      mode indicator, read the count field, then unpack exactly that many
      characters; the terminator and padding after them are ignored. */
  function ReadBitstream(bits: Bits, v: Version): Option<string>
  {
    var w := CountWidth(v);
    if |bits| < 4 + w || bits[..4] != ModeIndicator then None
    else
      var n := FromBinary(bits[4 .. 4 + w]);
      var end := 4 + w + PackedLength(n);
      if |bits| < end then None
      else
        match DecodeMessage(bits[4 + w .. end])
        case None => None
        case Some(text) => if |text| == n then Some(text) else None
  }

  /** No version holds more than version 10. */
  lemma CapacityAtMostTop(l: Level, v: Version)
    ensures MaxChars(l, v) <= MaxChars(l, 10)
  {
    if v < 10 {
      MaxCharsIncreasing(l, v, 10);
    }
  }

  /** Every supported message fits the count field of its version. */
  lemma CountFits(l: Level, n: nat, v: Version)
    requires n <= MaxChars(l, 10)
    ensures n < Pow2(CountWidth(v))
  {
    Pow2Widths();
  }

  /** Whatever terminator and padding follow, a reader at the same version
      recovers the message from the assembled bits. */
  lemma {:induction false} ReadAssembled(msg: string, l: Level, v: Version, terminator: nat, requiredBits: nat)
    requires EncodeMessage(msg).Ok? && |msg| <= MaxChars(l, 10)
    requires requiredBits % 8 == 0
    ensures ReadBitstream(Assemble(|msg|, EncodeMessage(msg).value, v, terminator, requiredBits), v) == Some(msg)
  {
    CountFits(l, |msg|, v);
    DecodeEncode(msg);
    ReadAssembledBits(msg, EncodeMessage(msg).value, v, terminator, requiredBits);
  }

  /** The same, for any packed data that decodes to `text`. */
  lemma ReadAssembledBits(text: string, encoded: Bits, v: Version, terminator: nat, requiredBits: nat)
    requires |text| < Pow2(CountWidth(v))
    requires |encoded| == PackedLength(|text|) && DecodeMessage(encoded) == Some(text)
    requires requiredBits % 8 == 0
    ensures ReadBitstream(Assemble(|text|, encoded, v, terminator, requiredBits), v) == Some(text)
  {
    AssembledFields(|text|, encoded, v, terminator, requiredBits);
    ReadBitstreamAccepts(Assemble(|text|, encoded, v, terminator, requiredBits), v, text, encoded);
  }

  /** Where `Assemble` puts the mode indicator, the count and the packed data. */
  lemma AssembledFields(n: nat, encoded: Bits, v: Version, terminator: nat, requiredBits: nat)
    requires n < Pow2(CountWidth(v)) && requiredBits % 8 == 0
    ensures var bits := Assemble(n, encoded, v, terminator, requiredBits);
      var w := CountWidth(v);
      && |bits| >= 4 + w + |encoded|
      && bits[..4] == ModeIndicator
      && FromBinary(bits[4 .. 4 + w]) == n
      && bits[4 + w .. 4 + w + |encoded|] == encoded
  {
    AssembleParts(n, encoded, v, terminator, requiredBits);
  }

  /** The reader's acceptance condition, in the shape the round-trip proofs use. */
  lemma ReadBitstreamAccepts(bits: Bits, v: Version, text: string, payload: Bits)
    requires |payload| == PackedLength(|text|) && DecodeMessage(payload) == Some(text)
    requires |bits| >= 4 + CountWidth(v) + |payload| && bits[..4] == ModeIndicator
    requires FromBinary(bits[4 .. 4 + CountWidth(v)]) == |text|
    requires bits[4 + CountWidth(v) .. 4 + CountWidth(v) + |payload|] == payload
    ensures ReadBitstream(bits, v) == Some(text)
  {
  }

  /** Reading the bitstream back at the chosen version gives the message. */
  lemma {:induction false} ReadDataBitstream(msg: string, l: Level)
    requires DataBitstream(msg, l).Ok?
    ensures GetVersion(l, |msg|).Ok?
    ensures ReadBitstream(DataBitstream(msg, l).value, GetVersion(l, |msg|).value) == Some(msg)
  {
    var encoded := EncodeMessage(msg).value;
    ReadAssembled(msg, l, GetVersion(l, |msg|).value, Terminator(DataBits(1, l), |encoded|), DataBits(1, l));
  }

  /** The length of a bitstream as written for `n` characters at version `v`:
      the header, data and terminator rounded up to a byte, or the version-1
      data length if that is larger. */
  function WrittenSize(n: nat, v: Version, l: Level): nat
  {
    Max(DataBits(1, l), Align(4 + CountWidth(v) + PackedLength(n) + Terminator(DataBits(1, l), PackedLength(n))))
  }

  lemma {:induction false} DataBitstreamLength(msg: string, l: Level)
    requires DataBitstream(msg, l).Ok?
    ensures GetVersion(l, |msg|).Ok?
    ensures |DataBitstream(msg, l).value| == WrittenSize(|msg|, GetVersion(l, |msg|).value, l)
  {
    var encoded := DataBitstreamParts(msg, l);
    var v := GetVersion(l, |msg|).value;
    assert |msg| < Pow2(CountWidth(v)) by {
      CapacityAtMostTop(l, v);
      CountFits(l, |msg|, v);
    }
    WrittenAssemblyLength(|msg|, encoded, v, l, DataBitstream(msg, l).value);
  }

  /** The length of an assembly made the way `DataBitstream` makes it. */
  lemma WrittenAssemblyLength(n: nat, encoded: Bits, v: Version, l: Level, written: Bits)
    requires n < Pow2(CountWidth(v)) && |encoded| == PackedLength(n)
    requires written == Assemble(n, encoded, v, Terminator(DataBits(1, l), |encoded|), DataBits(1, l))
    ensures |written| == WrittenSize(n, v, l)
  {
    AssembleLength(n, encoded, v, Terminator(DataBits(1, l), |encoded|), DataBits(1, l));
  }

  /** The pieces `DataBitstream` assembles when it succeeds. */
  lemma DataBitstreamParts(msg: string, l: Level) returns (encoded: Bits)
    requires DataBitstream(msg, l).Ok?
    ensures EncodeMessage(msg) == Ok(encoded) && |encoded| == PackedLength(|msg|)
    ensures GetVersion(l, |msg|).Ok? && |msg| <= MaxChars(l, GetVersion(l, |msg|).value)
    ensures DataBitstream(msg, l).value
      == Assemble(|msg|, encoded, GetVersion(l, |msg|).value, Terminator(DataBits(1, l), |encoded|), DataBits(1, l))
  {
    encoded := EncodeMessage(msg).value;
  }

  /** Zeros up to `a`, then pad bytes: the tail `Assemble` writes after `u`. */
  ghost predicate PaddedFrom(r: Bits, u: nat, a: nat)
  {
    u <= a <= |r| && ZerosBetween(r, u, a) && PadBytesFrom(r, a)
  }

  /** Every bit from `u` up to `a` is zero. */
  ghost predicate ZerosBetween(r: Bits, u: nat, a: nat)
    requires u <= a <= |r|
  {
    forall i :: u <= i < a ==> !r[i]
  }

  /** From `a` on, whole pad bytes alternating '11101100' and '00010001'. */
  ghost predicate PadBytesFrom(r: Bits, a: nat)
    requires a <= |r|
  {
    forall k :: 0 <= k < (|r| - a) / 8 ==> r[a + 8 * k .. a + 8 * k + 8] == PadByte(k)
  }

  /** A slice of a suffix is a slice of the whole, shifted. */
  lemma SliceOfDrop<T>(s: seq<T>, a: nat, lo: nat, hi: nat)
    requires lo <= hi && a + hi <= |s|
    ensures s[a..][lo .. hi] == s[a + lo .. a + hi]
  {
    forall j | 0 <= j < hi - lo
      ensures s[a..][lo .. hi][j] == s[a + lo .. a + hi][j]
    {
    }
  }

  /** What follows the mode indicator in the bitstream: the count field, the
      packed data, then zeros (terminator and fill, the terminator sized against
      the version-1 length) up to a byte boundary, then pad bytes alternating
      '11101100' and '00010001', the first being '11101100'. */
  lemma DataBitstreamTail(msg: string, l: Level) returns (bits: Bits, count: Bits, encoded: Bits, t: nat, u: nat, a: nat)
    requires DataBitstream(msg, l).Ok?
    ensures DataBitstream(msg, l) == Ok(bits)
    ensures EncodeMessage(msg) == Ok(encoded) && GetVersion(l, |msg|).Ok?
    ensures count == FormatCharCount(|msg|, GetVersion(l, |msg|).value)
    ensures HeaderThenData(bits, count, encoded)
    ensures t == Terminator(DataBits(1, l), |encoded|)
    ensures u == 4 + |count| + |encoded| && a == Align(u + t)
    ensures PaddedFrom(bits, u, a)
  {
    encoded := EncodeMessage(msg).value;
    t := Terminator(DataBits(1, l), |encoded|);
    bits, count, u, a := AssembledTail(|msg|, encoded, GetVersion(l, |msg|).value, t, DataBits(1, l));
  }

  /** The bits `Assemble` writes, split into the count field, the packed data
      and the tail. */
  lemma AssembledTail(n: nat, encoded: Bits, version: Version, terminator: nat, requiredBits: nat)
      returns (bits: Bits, count: Bits, u: nat, a: nat)
    requires requiredBits % 8 == 0
    ensures bits == Assemble(n, encoded, version, terminator, requiredBits)
    ensures count == FormatCharCount(n, version)
    ensures HeaderThenData(bits, count, encoded)
    ensures u == 4 + |count| + |encoded| && a == Align(u + terminator)
    ensures PaddedFrom(bits, u, a)
  {
    bits := Assemble(n, encoded, version, terminator, requiredBits);
    count := FormatCharCount(n, version);
    u, a := 4 + |count| + |encoded|, Align(4 + |count| + |encoded| + terminator);
    AssembleParts(n, encoded, version, terminator, requiredBits);
  }

  /** The count field after the mode indicator, and the packed data after it. */
  ghost predicate HeaderThenData(r: Bits, count: Bits, encoded: Bits)
  {
    4 + |count| + |encoded| <= |r| &&
    r[4 .. 4 + |count|] == count &&
    r[4 + |count| .. 4 + |count| + |encoded|] == encoded
  }

  /** As written, the terminator is bounded by the room left after the packed
      data alone, ignoring the 13 header bits: a full 25-character version-1 message
      at level L gets 4 terminator bits and needs 160 bits, one byte more than
      the 152 data bits of the symbol. */
  lemma {:induction false} TerminatorOverflowsVersion1(msg: string)
    requires |msg| == 25 && forall i :: 0 <= i < |msg| ==> IsAlphanumeric(msg[i])
    ensures GetVersion(L, |msg|) == Ok(1)
    ensures DataBitstream(msg, L).Ok?
    ensures |DataBitstream(msg, L).value| == 160 > DataBits(1, L) == 152
  {
    assert EncodeMessage(msg).Ok?;
    assert GetVersion(L, 25) == Ok(1);
    DataBitstreamLength(msg, L);
    WrittenLength(25, 1, 160);
  }

  /** `WrittenSize` a count `n` at level L. */
  lemma WrittenLength(n: nat, v: Version, length: nat)
    requires (n, v, length) in {(25, 1, 160), (26, 2, 160)}
    ensures WrittenSize(n, v, L) == length
  {
    assert DataBits(1, L) == 152;
    if n == 25 {
      assert PackedLength(n) == 138;
      assert Align(155) == 160;
    } else {
      assert PackedLength(n) == 143;
      assert Align(160) == 160;
    }
  }

  /** As written, a message needing version 2 is padded to the version-1 length:
      26 characters at level L get 160 bits although version 2-L carries 272. */
  lemma {:induction false} RequiredBitsReadBeforeVersion(msg: string)
    requires |msg| == 26 && forall i :: 0 <= i < |msg| ==> IsAlphanumeric(msg[i])
    ensures GetVersion(L, |msg|) == Ok(2)
    ensures DataBitstream(msg, L).Ok?
    ensures |DataBitstream(msg, L).value| == 160 < DataBits(2, L) == 272
  {
    assert EncodeMessage(msg).Ok?;
    assert SearchVersion(L, 26, 2) == Ok(2);
    assert SearchVersion(L, 26, 1) == Ok(2);
    assert GetVersion(L, 26) == Ok(2);
    assert DataBits(2, L) == 272;
    DataBitstreamLength(msg, L);
    WrittenLength(26, 2, 160);
  }

  /** The bitstream with both defects removed: the version is chosen first, the
      required length is that version's, and the terminator is bounded by the
      room left after the header and the data. */
  function DataBitstreamCorrected(msg: string, l: Level): (r: Result<Bits>)
    ensures r.Ok? ==> |r.value| % 8 == 0 && |r.value| >= 4
    ensures r.Ok? ==> r.value[..4] == ModeIndicator
    ensures r.Ok? <==> DataBitstream(msg, l).Ok?
  {
    match EncodeMessage(msg)
    case Err(e) => Err(e)
    case Ok(encoded) =>
      match GetVersion(l, |msg|)
      case Err(e) => Err(e)
      case Ok(version) => Ok(FillTo(|msg|, encoded, version, DataBits(version, l)))
  }

  /** The corrected assembly: the terminator counts the header too, so data that
      leaves room in `requiredBits` is padded to exactly that length. */
  function FillTo(n: nat, encoded: Bits, v: Version, requiredBits: nat): (r: Bits)
    requires requiredBits % 8 == 0
    ensures |r| % 8 == 0 && |r| >= 4
    ensures r[..4] == ModeIndicator
    ensures n < Pow2(CountWidth(v)) && 4 + CountWidth(v) + |encoded| <= requiredBits ==> |r| == requiredBits
  {
    var used := 4 + |FormatCharCount(n, v)| + |encoded|;
    var r := Assemble(n, encoded, v, Terminator(requiredBits, used), requiredBits);
    if used <= requiredBits then
      AlignWithin(used + Terminator(requiredBits, used), requiredBits);
      r
    else r
  }

  /** The corrected bitstream fills the data codewords of its version exactly,
      and still reads back to the message. */
  lemma {:induction false} CorrectedBitstreamFillsVersion(msg: string, l: Level)
    requires DataBitstreamCorrected(msg, l).Ok?
    ensures GetVersion(l, |msg|).Ok?
    ensures |DataBitstreamCorrected(msg, l).value| == DataBits(GetVersion(l, |msg|).value, l)
    ensures ReadBitstream(DataBitstreamCorrected(msg, l).value, GetVersion(l, |msg|).value) == Some(msg)
  {
    var v := GetVersion(l, |msg|).value;
    var encoded := EncodeMessage(msg).value;
    var requiredBits := DataBits(v, l);
    CapacityAtMostTop(l, v);
    CountFits(l, |msg|, v);
    CapacityRoom(|msg|, v, l);
    var t := FillToAssembles(|msg|, encoded, v, requiredBits);
    ReadAssembled(msg, l, v, t, requiredBits);
  }

  /** `FillTo` is `Assemble` with the terminator the header-aware rule picks. */
  lemma FillToAssembles(n: nat, encoded: Bits, v: Version, requiredBits: nat) returns (t: nat)
    requires requiredBits % 8 == 0
    ensures FillTo(n, encoded, v, requiredBits) == Assemble(n, encoded, v, t, requiredBits)
  {
    t := Terminator(requiredBits, 4 + |FormatCharCount(n, v)| + |encoded|);
  }

  /** A count within the capacity of version `v` leaves room for the header
      and the packed data in the data bits. */
  lemma CapacityRoom(n: nat, v: Version, l: Level)
    requires n <= MaxChars(l, v)
    ensures 4 + CountWidth(v) + PackedLength(n) <= DataBits(v, l)
  {
    CapacityTableExact(v, l);
    PackedLengthMonotone(n, MaxChars(l, v));
  }

  /** Rounding up to a byte never passes a byte boundary at or above. */
  lemma AlignWithin(n: nat, bound: nat)
    requires n <= bound && bound % 8 == 0
    ensures Align(n) <= bound
  {
    if n % 8 != 0 {
      assert n / 8 < bound / 8;
      assert Align(n) == 8 * (n / 8) + 8;
    }
  }

  /** `MAX_CHAR_COUNTS` is the exact capacity of the codeword table: at each
      version and level the largest message fits mode indicator, count field and
      packed data into the data codewords, and one more character would not. */
  ghost predicate CapacityExact(v: Version, l: Level)
  {
    var header := 4 + CountWidth(v);
    && header + PackedLength(MaxChars(l, v)) <= 8 * DataCodewords(v, l)
    && header + PackedLength(MaxChars(l, v) + 1) > 8 * DataCodewords(v, l)
  }

  lemma CapacityTableExact(v: Version, l: Level)
    ensures CapacityExact(v, l)
  {
    match l
    case L => CapacityTableExactL(v);
    case M => CapacityTableExactM(v);
    case Q => CapacityTableExactQ(v);
    case H => CapacityTableExactH(v);
  }

  lemma CapacityTableExactL(v: Version)
    ensures CapacityExact(v, L)
  {
    if v == 1 { } else if v == 2 { } else if v == 3 { } else if v == 4 { }
    else if v == 5 { } else if v == 6 { } else if v == 7 { } else if v == 8 { }
    else if v == 9 { } else { }
  }

  lemma CapacityTableExactM(v: Version)
    ensures CapacityExact(v, M)
  {
    if v == 1 { } else if v == 2 { } else if v == 3 { } else if v == 4 { }
    else if v == 5 { } else if v == 6 { } else if v == 7 { } else if v == 8 { }
    else if v == 9 { } else { }
  }

  lemma CapacityTableExactQ(v: Version)
    ensures CapacityExact(v, Q)
  {
    if v == 1 { } else if v == 2 { } else if v == 3 { } else if v == 4 { }
    else if v == 5 { } else if v == 6 { } else if v == 7 { } else if v == 8 { }
    else if v == 9 { } else { }
  }

  lemma CapacityTableExactH(v: Version)
    ensures CapacityExact(v, H)
  {
    if v == 1 { } else if v == 2 { } else if v == 3 { } else if v == 4 { }
    else if v == 5 { } else if v == 6 { } else if v == 7 { } else if v == 8 { }
    else if v == 9 { } else { }
  }

  /** Packing one more character never shortens the packed data. */
  lemma {:induction false} PackedLengthMonotone(a: nat, b: nat)
    requires a <= b
    ensures PackedLength(a) <= PackedLength(b)
  {
    if a < b {
      PackedLengthMonotone(a, b - 1);
      assert PackedLength(b - 1) < PackedLength(b);
    }
  }
}

=== FILE: blocks.dfy ===
/** The codeword handling of `Encoder.errorCorrection` that does not involve the
    Reed-Solomon arithmetic: the split of the data codewords into the blocks of
    the two groups, the interleave of the data codewords and the remainder bits
    (encoder.py). Codewords are kept abstract (`T`): the source passes the
    eight-character strings of the printed bitstream. The as-written split and
    interleave are modelled next to the arrangement of section 7.6 of
    ISO/IEC 18004:2006 they fall short of.

    Products of block counts and sizes are written with the recursive `Mul`, which
    keeps the solver's arithmetic linear; `MulIsProduct` ties it to `*`. */
module Blocks {
  import opened Errors
  import opened Bits
  import opened Tables

  /** `a * b`, as `a` repeated additions of `b`. */
  function Mul(a: nat, b: nat): nat
  {
    if a == 0 then 0 else Mul(a - 1, b) + b
  }

  lemma {:induction false} MulIsProduct(a: nat, b: nat)
    ensures Mul(a, b) == a * b
  {
    if a > 0 {
      MulIsProduct(a - 1, b);
    }
  }

  /** Earlier rows end before later rows start. */
  lemma {:induction false} MulStrictlyBelow(a: nat, c: nat, b: nat)
    requires a < c
    ensures Mul(a, b) + b <= Mul(c, b)
    decreases c
  {
    if a < c - 1 {
      MulStrictlyBelow(a, c - 1, b);
    }
  }

  /** The codeword at column `k` of row `c` in a row-major table with `count`
      columns and `width` rows lies inside the table. */
  lemma RowMajor(c: nat, k: nat, width: nat, count: nat)
    requires c < width && k < count
    ensures Mul(c, count) + k < Mul(width, count)
  {
    MulStrictlyBelow(c, width, count);
  }

  lemma MulCommutes(a: nat, b: nat)
    ensures Mul(a, b) == Mul(b, a)
  {
    MulIsProduct(a, b);
    MulIsProduct(b, a);
  }

  /** The blocks of group one and group two. */
  datatype Groups<T> = Groups(one: seq<seq<T>>, two: seq<seq<T>>)

  /** All blocks, concatenated in order. */
  function Flatten<T>(blocks: seq<seq<T>>): seq<T>
  {
    if |blocks| == 0 then [] else blocks[0] + Flatten(blocks[1..])
  }

  lemma {:induction false} FlattenAppend<T>(a: seq<seq<T>>, b: seq<seq<T>>)
    ensures Flatten(a + b) == Flatten(a) + Flatten(b)
    decreases |a|
  {
    if |a| > 0 {
      FlattenAppend(a[1..], b);
      assert (a + b)[1..] == a[1..] + b;
    } else {
      assert a + b == b;
    }
  }

  /** `count` blocks of `size` codewords each, read one after another from
      `words` starting at position `start`. */
  function Group<T>(words: seq<T>, start: nat, count: nat, size: nat): (blocks: seq<seq<T>>)
    requires start + Mul(count, size) <= |words|
    ensures |blocks| == count
    decreases count
  {
    if count == 0 then []
    else [words[start .. start + size]] + Group(words, start + size, count - 1, size)
  }

  /** Block `b` of a group is the `b`-th run of `size` codewords after `start`. */
  lemma {:induction false} GroupBlock<T>(words: seq<T>, start: nat, count: nat, size: nat, b: nat)
    requires start + Mul(count, size) <= |words| && b < count
    ensures start + Mul(b, size) + size <= |words|
    ensures Group(words, start, count, size)[b] == words[start + Mul(b, size) .. start + Mul(b, size) + size]
    decreases b
  {
    var g := Group(words, start, count, size);
    assert Mul(count, size) == Mul(count - 1, size) + size;
    if b > 0 {
      GroupBlock(words, start + size, count - 1, size, b - 1);
      assert Mul(b, size) == Mul(b - 1, size) + size;
      assert g[b] == Group(words, start + size, count - 1, size)[b - 1];
    } else {
      assert g[0] == words[start .. start + size];
    }
  }

  lemma GroupBlocks<T>(words: seq<T>, start: nat, count: nat, size: nat)
    requires start + Mul(count, size) <= |words|
    ensures forall b :: 0 <= b < count ==>
      && start + Mul(b, size) + size <= |words|
      && Group(words, start, count, size)[b] == words[start + Mul(b, size) .. start + Mul(b, size) + size]
  {
    forall b | 0 <= b < count
      ensures start + Mul(b, size) + size <= |words|
      ensures Group(words, start, count, size)[b] == words[start + Mul(b, size) .. start + Mul(b, size) + size]
    {
      GroupBlock(words, start, count, size, b);
    }
  }

  /** The blocks of a group, concatenated, are the codewords they were read from. */
  lemma {:induction false} FlattenGroup<T>(words: seq<T>, start: nat, count: nat, size: nat)
    requires start + Mul(count, size) <= |words|
    ensures Flatten(Group(words, start, count, size)) == words[start .. start + Mul(count, size)]
    decreases count
  {
    if count > 0 {
      var g := Group(words, start, count, size);
      FlattenGroup(words, start + size, count - 1, size);
      assert g[1..] == Group(words, start + size, count - 1, size);
      assert words[start .. start + Mul(count, size)]
        == words[start .. start + size] + words[start + size .. start + size + Mul(count - 1, size)];
    }
  }

  /** The block split as written (encoder.py:140-149): group-one block `b` is
      codewords `b * n1` to `b * n1 + n1 - 1`, and group-two block `b` is
      codewords `b * n2` to `b * n2 + n2 - 1`, counted from codeword 0 as well.
      Reading past the end of the codewords raises `IndexError`. */
  function SplitBlocks<T>(words: seq<T>, layout: Layout): (r: Result<Groups<T>>)
    ensures r.Ok? <==>
      && Mul(layout.groupOneBlocks, layout.groupOneSize) <= |words|
      && Mul(layout.groupTwoBlocks, layout.groupTwoSize) <= |words|
    ensures r.Err? ==> r.error == IndexOutOfRange
    ensures r.Ok? ==> |r.value.one| == layout.groupOneBlocks && |r.value.two| == layout.groupTwoBlocks
    ensures r.Ok? ==> forall b :: 0 <= b < layout.groupOneBlocks ==>
      && Mul(b, layout.groupOneSize) + layout.groupOneSize <= |words|
      && r.value.one[b] == words[Mul(b, layout.groupOneSize) .. Mul(b, layout.groupOneSize) + layout.groupOneSize]
    ensures r.Ok? ==> forall b :: 0 <= b < layout.groupTwoBlocks ==>
      && Mul(b, layout.groupTwoSize) + layout.groupTwoSize <= |words|
      && r.value.two[b] == words[Mul(b, layout.groupTwoSize) .. Mul(b, layout.groupTwoSize) + layout.groupTwoSize]
  {
    var b1, n1, b2, n2 := layout.groupOneBlocks, layout.groupOneSize, layout.groupTwoBlocks, layout.groupTwoSize;
    if Mul(b1, n1) > |words| || Mul(b2, n2) > |words| then Err(IndexOutOfRange)
    else
      GroupFromStart(words, b1, n1);
      GroupFromStart(words, b2, n2);
      Ok(Groups(Group(words, 0, b1, n1), Group(words, 0, b2, n2)))
  }

  /** The blocks of a group read from codeword 0. */
  lemma GroupFromStart<T>(words: seq<T>, count: nat, size: nat)
    requires Mul(count, size) <= |words|
    ensures |Group(words, 0, count, size)| == count
    ensures forall b :: 0 <= b < count ==>
      && Mul(b, size) + size <= |words|
      && Group(words, 0, count, size)[b] == words[Mul(b, size) .. Mul(b, size) + size]
  {
    GroupBlocks(words, 0, count, size);
  }

  /** As written, a non-empty group two starts over at codeword 0: its first block
      begins with the whole first block of group one. */
  lemma SplitRepeatsGroupOne<T>(words: seq<T>, layout: Layout)
    requires SplitBlocks(words, layout).Ok?
    requires layout.groupOneBlocks > 0 && layout.groupTwoBlocks > 0
    requires layout.groupOneSize <= layout.groupTwoSize
    ensures SplitBlocks(words, layout).value.two[0][..layout.groupOneSize] == SplitBlocks(words, layout).value.one[0]
  {
  }

  /** The split with group two read after group one, as section 7.6 of
      ISO/IEC 18004:2006 arranges the blocks. */
  function SplitBlocksCorrected<T>(words: seq<T>, layout: Layout): (r: Result<Groups<T>>)
    ensures r.Ok? <==>
      Mul(layout.groupOneBlocks, layout.groupOneSize) + Mul(layout.groupTwoBlocks, layout.groupTwoSize) <= |words|
    ensures r.Err? ==> r.error == IndexOutOfRange
    ensures r.Ok? ==> |r.value.one| == layout.groupOneBlocks && |r.value.two| == layout.groupTwoBlocks
    ensures r.Ok? ==> forall b :: 0 <= b < |r.value.one| ==> |r.value.one[b]| == layout.groupOneSize
    ensures r.Ok? ==> forall b :: 0 <= b < |r.value.two| ==> |r.value.two[b]| == layout.groupTwoSize
  {
    var (b1, n1, b2, n2) := (layout.groupOneBlocks, layout.groupOneSize, layout.groupTwoBlocks, layout.groupTwoSize);
    if Mul(b1, n1) + Mul(b2, n2) > |words| then Err(IndexOutOfRange)
    else
      GroupBlocks(words, 0, b1, n1);
      GroupBlocks(words, Mul(b1, n1), b2, n2);
      Ok(Groups(Group(words, 0, b1, n1), Group(words, Mul(b1, n1), b2, n2)))
  }

  /** The corrected split partitions the codewords: the blocks of group one then
      group two, concatenated, give back exactly the codewords they cover. */
  lemma SplitCorrectedPartitions<T>(words: seq<T>, layout: Layout)
    requires SplitBlocksCorrected(words, layout).Ok?
    ensures var g := SplitBlocksCorrected(words, layout).value;
      Flatten(g.one + g.two)
        == words[..Mul(layout.groupOneBlocks, layout.groupOneSize) + Mul(layout.groupTwoBlocks, layout.groupTwoSize)]
  {
    var (b1, n1, b2, n2) := (layout.groupOneBlocks, layout.groupOneSize, layout.groupTwoBlocks, layout.groupTwoSize);
    var g := SplitBlocksCorrected(words, layout).value;
    var e1 := Mul(b1, n1);
    var e2 := Mul(b2, n2);
    assert g == Groups(Group(words, 0, b1, n1), Group(words, e1, b2, n2));
    FlattenAppend(g.one, g.two);
    FlattenGroup(words, 0, b1, n1);
    FlattenGroup(words, e1, b2, n2);
    assert words[..e1 + e2] == words[0 .. e1] + words[e1 .. e1 + e2];
  }

  /** Data codewords of exactly the symbol's count always split, and every
      codeword lands in exactly one block. */
  lemma SplitCorrectedCoversData<T>(words: seq<T>, v: Version, l: Level)
    requires |words| == DataCodewords(v, l)
    ensures SplitBlocksCorrected(words, LayoutOf(v, l)).Ok?
    ensures var g := SplitBlocksCorrected(words, LayoutOf(v, l)).value;
      Flatten(g.one + g.two) == words
  {
    var layout := LayoutOf(v, l);
    LayoutCoversData(v, l);
    MulIsProduct(layout.groupOneBlocks, layout.groupOneSize);
    MulIsProduct(layout.groupTwoBlocks, layout.groupTwoSize);
    SplitCorrectedPartitions(words, layout);
  }

  /** The groups have the block counts and block sizes the layout names. */
  predicate Shaped<T>(g: Groups<T>, layout: Layout)
  {
    && |g.one| == layout.groupOneBlocks && |g.two| == layout.groupTwoBlocks
    && (forall b :: 0 <= b < |g.one| ==> |g.one[b]| == layout.groupOneSize)
    && (forall b :: 0 <= b < |g.two| ==> |g.two[b]| == layout.groupTwoSize)
  }

  /** Both splits produce blocks of the layout's shape. */
  lemma SplitsShaped<T>(words: seq<T>, layout: Layout)
    ensures SplitBlocks(words, layout).Ok? ==> Shaped(SplitBlocks(words, layout).value, layout)
    ensures SplitBlocksCorrected(words, layout).Ok? ==> Shaped(SplitBlocksCorrected(words, layout).value, layout)
  {
  }

  /** One pass of the inner loop of the data interleave (encoder.py:197-203) for
      codeword `j`, from group-one block `i` on: group-one block `i` contributes
      its `j`-th codeword, then group-two block `i` does, but only while `i` is
      also below the group-one block count. */
  function Row<T>(g: Groups<T>, layout: Layout, j: nat, i: nat): seq<T>
    requires Shaped(g, layout)
    decreases layout.groupOneBlocks - i
  {
    if i >= layout.groupOneBlocks then []
    else
      (if j < layout.groupOneSize then [g.one[i][j]] else [])
      + (if j < layout.groupTwoSize && i < layout.groupTwoBlocks then [g.two[i][j]] else [])
      + Row(g, layout, j, i + 1)
  }

  /** The outer loop, from codeword `j` up to the larger block size. */
  function Rows<T>(g: Groups<T>, layout: Layout, j: nat): seq<T>
    requires Shaped(g, layout)
    decreases Max(layout.groupOneSize, layout.groupTwoSize) - j
  {
    if j >= Max(layout.groupOneSize, layout.groupTwoSize) then []
    else Row(g, layout, j, 0) + Rows(g, layout, j + 1)
  }

  /** The interleaved data codewords as written (encoder.py:195-204), one codeword
      per entry; the source concatenates their eight-character strings. It
      keeps every group-one codeword but only the group-two blocks whose index
      is also a group-one block index. */
  function InterleaveData<T>(g: Groups<T>, layout: Layout): (r: seq<T>)
    requires Shaped(g, layout)
    ensures |r| == Mul(layout.groupOneBlocks, layout.groupOneSize)
                 + Mul(Min(layout.groupOneBlocks, layout.groupTwoBlocks), layout.groupTwoSize)
  {
    RowsLength(g, layout, 0);
    MulCommutes(layout.groupOneSize, layout.groupOneBlocks);
    MulCommutes(layout.groupTwoSize, Kept(layout, 0));
    Rows(g, layout, 0)
  }

  /** Group-two blocks taken by one pass of the inner loop from block `i` on. */
  function Kept(layout: Layout, i: nat): nat
  {
    var m := Min(layout.groupOneBlocks, layout.groupTwoBlocks);
    if i < m then m - i else 0
  }

  lemma {:induction false} RowLength<T>(g: Groups<T>, layout: Layout, j: nat, i: nat)
    requires Shaped(g, layout) && i <= layout.groupOneBlocks
    ensures |Row(g, layout, j, i)|
      == (if j < layout.groupOneSize then layout.groupOneBlocks - i else 0)
       + (if j < layout.groupTwoSize then Kept(layout, i) else 0)
    decreases layout.groupOneBlocks - i
  {
    if i < layout.groupOneBlocks {
      RowLength(g, layout, j, i + 1);
    }
  }

  lemma {:induction false} RowsLength<T>(g: Groups<T>, layout: Layout, j: nat)
    requires Shaped(g, layout)
    ensures |Rows(g, layout, j)|
      == (if j < layout.groupOneSize then Mul(layout.groupOneSize - j, layout.groupOneBlocks) else 0)
       + (if j < layout.groupTwoSize then Mul(layout.groupTwoSize - j, Kept(layout, 0)) else 0)
    decreases Max(layout.groupOneSize, layout.groupTwoSize) - j
  {
    var (n1, n2) := (layout.groupOneSize, layout.groupTwoSize);
    if j < Max(n1, n2) {
      RowLength(g, layout, j, 0);
      RowsLength(g, layout, j + 1);
      assert n1 - j - 1 == n1 - (j + 1) && n2 - j - 1 == n2 - (j + 1);
    }
  }

  /** So codewords are lost exactly when group two has more blocks than group
      one (and its blocks are not empty). */
  lemma InterleaveDataKeepsAll<T>(g: Groups<T>, layout: Layout)
    requires Shaped(g, layout) && layout.groupTwoSize > 0
    ensures |InterleaveData(g, layout)|
      == Mul(layout.groupOneBlocks, layout.groupOneSize) + Mul(layout.groupTwoBlocks, layout.groupTwoSize)
      <==> layout.groupTwoBlocks <= layout.groupOneBlocks
  {
    if layout.groupTwoBlocks > layout.groupOneBlocks {
      MulStrictlyBelow(layout.groupOneBlocks, layout.groupTwoBlocks, layout.groupTwoSize);
    }
  }

  /** Version 7-Q has two group-one blocks and four group-two blocks: as written,
      30 of its 88 data codewords never reach the symbol. */
  lemma InterleaveDropsVersion7Q<T>(g: Groups<T>)
    requires Shaped(g, LayoutOf(7, Q))
    ensures LayoutOf(7, Q) == Layout(2, 14, 4, 15)
    ensures |InterleaveData(g, LayoutOf(7, Q))| == 58 < DataCodewords(7, Q) == 88
  {
    assert LayoutOf(7, Q) == Layout(2, 14, 4, 15);
  }

  /** The `j`-th codewords of blocks `k` and later that have one, in block order. */
  function Column<T>(blocks: seq<seq<T>>, j: nat, k: nat): seq<T>
    decreases |blocks| - k
  {
    if k >= |blocks| then []
    else (if j < |blocks[k]| then [blocks[k][j]] else []) + Column(blocks, j, k + 1)
  }

  /** Columns `j` up to `width`, one after another. */
  function Columns<T>(blocks: seq<seq<T>>, j: nat, width: nat): seq<T>
    decreases width - j
  {
    if j >= width then [] else Column(blocks, j, 0) + Columns(blocks, j + 1, width)
  }

  /** The length of the longest block. */
  function Longest<T>(blocks: seq<seq<T>>): (r: nat)
    ensures forall k :: 0 <= k < |blocks| ==> |blocks[k]| <= r
    ensures |blocks| > 0 ==> exists k :: 0 <= k < |blocks| && |blocks[k]| == r
    ensures |blocks| == 0 ==> r == 0
  {
    if |blocks| == 0 then 0
    else
      var rest := Longest(blocks[1..]);
      assert forall k :: 1 <= k < |blocks| ==> blocks[k] == blocks[1..][k - 1];
      Max(|blocks[0]|, rest)
  }

  /** The data interleave of section 7.6 of ISO/IEC 18004:2006: the first codeword
      of every block in block order (all of group one, then all of group two),
      then the second codewords, and so on; shorter blocks drop out of the last
      columns. */
  function StandardInterleave<T>(blocks: seq<seq<T>>): seq<T>
  {
    Columns(blocks, 0, Longest(blocks))
  }

  lemma {:induction false} ColumnFull<T>(blocks: seq<seq<T>>, j: nat, k: nat)
    requires k <= |blocks|
    requires forall m :: k <= m < |blocks| ==> j < |blocks[m]|
    ensures |Column(blocks, j, k)| == |blocks| - k
    ensures forall i :: 0 <= i < |blocks| - k ==> Column(blocks, j, k)[i] == blocks[k + i][j]
    decreases |blocks| - k
  {
    if k < |blocks| {
      ColumnFull(blocks, j, k + 1);
      var rest := Column(blocks, j, k + 1);
      assert Column(blocks, j, k) == [blocks[k][j]] + rest;
      forall i | 0 <= i < |blocks| - k
        ensures Column(blocks, j, k)[i] == blocks[k + i][j]
      {
        if i > 0 {
          assert Column(blocks, j, k)[i] == rest[i - 1];
        }
      }
    }
  }

  lemma {:induction false} ColumnSkip<T>(blocks: seq<seq<T>>, j: nat, k: nat, m: nat)
    requires k <= m <= |blocks|
    requires forall i :: k <= i < m ==> |blocks[i]| <= j
    ensures Column(blocks, j, k) == Column(blocks, j, m)
    decreases m - k
  {
    if k < m {
      ColumnSkip(blocks, j, k + 1, m);
    }
  }

  lemma {:induction false} ColumnsSnoc<T>(blocks: seq<seq<T>>, j: nat, width: nat)
    requires j <= width
    ensures Columns(blocks, j, width + 1) == Columns(blocks, j, width) + Column(blocks, width, 0)
    decreases width - j
  {
    if j < width {
      ColumnsSnoc(blocks, j + 1, width);
    }
  }

  /** While every block is at least `width` long, the first `width` columns hold
      `width` codewords per block. */
  lemma {:induction false} ColumnsFullLength<T>(blocks: seq<seq<T>>, width: nat)
    requires forall k :: 0 <= k < |blocks| ==> width <= |blocks[k]|
    ensures |Columns(blocks, 0, width)| == Mul(width, |blocks|)
    decreases width
  {
    if width > 0 {
      ColumnsFullLength(blocks, width - 1);
      ColumnsSnoc(blocks, 0, width - 1);
      ColumnFull(blocks, width - 1, 0);
    }
  }

  /** ... and hold codeword `c` of block `k` at position `c * |blocks| + k`. */
  lemma {:induction false} ColumnsFullAt<T>(blocks: seq<seq<T>>, width: nat, c: nat, k: nat)
    requires forall k :: 0 <= k < |blocks| ==> width <= |blocks[k]|
    requires c < width && k < |blocks|
    ensures Mul(c, |blocks|) + k < Mul(width, |blocks|) == |Columns(blocks, 0, width)|
    ensures Columns(blocks, 0, width)[Mul(c, |blocks|) + k] == blocks[k][c]
    decreases width
  {
    var w := width - 1;
    RowMajor(c, k, width, |blocks|);
    ColumnsFullLength(blocks, width);
    ColumnsSnoc(blocks, 0, w);
    ColumnsFullLength(blocks, w);
    if c < w {
      ColumnsFullAt(blocks, w, c, k);
    } else {
      ColumnFull(blocks, w, 0);
    }
  }

  /** Where the standard interleave places codeword `c` of block `k` when group
      two's blocks are one codeword longer: row-major over the full columns, and
      the extra codewords of group two last. */
  function Position(layout: Layout, k: nat, c: nat): int
  {
    var blocks := layout.groupOneBlocks + layout.groupTwoBlocks;
    if c < layout.groupOneSize then Mul(c, blocks) + k
    else Mul(layout.groupOneSize, blocks) + k - layout.groupOneBlocks
  }

  /** The blocking of every symbol: group one is not empty, and a non-empty group
      two has blocks one codeword longer than group one. */
  predicate StandardLayout(layout: Layout)
  {
    layout.groupOneBlocks > 0 && (layout.groupTwoBlocks > 0 ==> layout.groupTwoSize == layout.groupOneSize + 1)
  }

  /** Every symbol's blocking is standard. */
  lemma LayoutIsStandard(v: Version, l: Level)
    ensures StandardLayout(LayoutOf(v, l))
  {
    LayoutCoversData(v, l);
  }

  /** Block `k` of group one followed by group two has the size of its group. */
  function BlockSize(layout: Layout, k: nat): nat
  {
    if k < layout.groupOneBlocks then layout.groupOneSize else layout.groupTwoSize
  }

  lemma ShapedBlocks<T>(g: Groups<T>, layout: Layout)
    requires Shaped(g, layout)
    ensures |g.one + g.two| == layout.groupOneBlocks + layout.groupTwoBlocks
    ensures forall k :: 0 <= k < |g.one + g.two| ==> |(g.one + g.two)[k]| == BlockSize(layout, k)
  {
  }

  /** The number of codewords that fit the layout. */
  function Capacity(layout: Layout): nat
  {
    Mul(layout.groupOneBlocks, layout.groupOneSize) + Mul(layout.groupTwoBlocks, layout.groupTwoSize)
  }

  lemma LastColumnCount(b1: nat, b2: nat, n1: nat)
    ensures Mul(n1, b1 + b2) + b2 == Mul(b1, n1) + Mul(b2, n1 + 1)
  {
    MulIsProduct(n1, b1 + b2);
    MulIsProduct(b1, n1);
    MulIsProduct(b2, n1 + 1);
    assert n1 * (b1 + b2) == b1 * n1 + b2 * n1;
    assert b2 * (n1 + 1) == b2 * n1 + b2;
  }

  /** The longest block of a standard layout's blocks. */
  lemma LongestShaped<T>(g: Groups<T>, layout: Layout)
    requires Shaped(g, layout) && StandardLayout(layout)
    ensures Longest(g.one + g.two) == BlockSize(layout, |g.one + g.two| - 1)
  {
    ShapedBlocks(g, layout);
    var blocks := g.one + g.two;
    assert |blocks[|blocks| - 1]| == BlockSize(layout, |blocks| - 1);
  }

  /** Blocks of `n1` codewords followed by `b2 > 0` blocks of `n1 + 1` fill
      `n1 + 1` columns with all their codewords. */
  lemma LongerGroupColumns<T>(blocks: seq<seq<T>>, b1: nat, b2: nat, n1: nat)
    requires |blocks| == b1 + b2 && b2 > 0
    requires forall k :: 0 <= k < |blocks| ==> |blocks[k]| == if k < b1 then n1 else n1 + 1
    ensures |Columns(blocks, 0, n1 + 1)| == Mul(b1, n1) + Mul(b2, n1 + 1)
  {
    ColumnsFullLength(blocks, n1);
    ColumnsSnoc(blocks, 0, n1);
    ColumnSkip(blocks, n1, 0, b1);
    ColumnFull(blocks, n1, b1);
    LastColumnCount(b1, b2, n1);
  }

  /** The standard interleave holds exactly the blocks' codewords. */
  lemma StandardInterleaveLength<T>(g: Groups<T>, layout: Layout)
    requires Shaped(g, layout) && StandardLayout(layout)
    ensures |StandardInterleave(g.one + g.two)| == Capacity(layout)
  {
    var blocks := g.one + g.two;
    var b1, n1, b2 := layout.groupOneBlocks, layout.groupOneSize, layout.groupTwoBlocks;
    ShapedBlocks(g, layout);
    LongestShaped(g, layout);
    if b2 == 0 {
      ColumnsFullLength(blocks, n1);
      MulCommutes(n1, b1);
    } else {
      LongerGroupColumns(blocks, b1, b2, n1);
    }
  }

  /** Codeword `c` of block `k` sits at `Position(layout, k, c)` of the standard
      interleave. */
  lemma StandardInterleaveAt<T>(g: Groups<T>, layout: Layout, k: nat, c: nat)
    requires Shaped(g, layout) && StandardLayout(layout)
    requires k < |g.one + g.two| && c < BlockSize(layout, k)
    ensures 0 <= Position(layout, k, c) < |StandardInterleave(g.one + g.two)|
    ensures StandardInterleave(g.one + g.two)[Position(layout, k, c)] == (g.one + g.two)[k][c]
  {
    ShapedBlocks(g, layout);
    LongestShaped(g, layout);
    StandardInterleaveLength(g, layout);
    if c < layout.groupOneSize {
      AtFullColumn(g.one + g.two, layout, k, c);
    } else {
      AtLastColumn(g.one + g.two, layout, k);
    }
  }

  /** While the longest block has at most one codeword more than `width`, the
      first `width` columns begin the interleaving. */
  lemma FullColumnsFirst<T>(blocks: seq<seq<T>>, width: nat)
    requires Longest(blocks) == width || Longest(blocks) == width + 1
    ensures Columns(blocks, 0, width) <= StandardInterleave(blocks)
  {
    if Longest(blocks) == width + 1 {
      ColumnsSnoc(blocks, 0, width);
    }
  }

  lemma PositionInFullColumn(layout: Layout, k: nat, c: nat)
    requires c < layout.groupOneSize
    ensures Position(layout, k, c) == Mul(c, layout.groupOneBlocks + layout.groupTwoBlocks) + k
  {
  }

  lemma PositionInLastColumn(layout: Layout, k: nat)
    requires layout.groupOneBlocks <= k
    ensures Position(layout, k, layout.groupOneSize)
            == Mul(layout.groupOneSize, layout.groupOneBlocks + layout.groupTwoBlocks) + (k - layout.groupOneBlocks)
  {
  }

  lemma AtFullColumn<T>(blocks: seq<seq<T>>, layout: Layout, k: nat, c: nat)
    requires StandardLayout(layout) && |blocks| == layout.groupOneBlocks + layout.groupTwoBlocks
    requires forall i :: 0 <= i < |blocks| ==> |blocks[i]| == BlockSize(layout, i)
    requires Longest(blocks) == BlockSize(layout, |blocks| - 1)
    requires k < |blocks| && c < layout.groupOneSize
    ensures c < |blocks[k]|
    ensures 0 <= Position(layout, k, c) < |StandardInterleave(blocks)|
    ensures StandardInterleave(blocks)[Position(layout, k, c)] == blocks[k][c]
  {
    var n1 := layout.groupOneSize;
    assert forall i :: 0 <= i < |blocks| ==> n1 <= |blocks[i]|;
    ColumnsFullAt(blocks, n1, c, k);
    PositionInFullColumn(layout, k, c);
    FullColumnsFirst(blocks, n1);
  }

  lemma AtLastColumn<T>(blocks: seq<seq<T>>, layout: Layout, k: nat)
    requires StandardLayout(layout) && |blocks| == layout.groupOneBlocks + layout.groupTwoBlocks
    requires forall i :: 0 <= i < |blocks| ==> |blocks[i]| == BlockSize(layout, i)
    requires Longest(blocks) == BlockSize(layout, |blocks| - 1)
    requires layout.groupOneBlocks <= k < |blocks|
    ensures layout.groupOneSize < |blocks[k]|
    ensures 0 <= Position(layout, k, layout.groupOneSize) < |StandardInterleave(blocks)|
    ensures StandardInterleave(blocks)[Position(layout, k, layout.groupOneSize)] == blocks[k][layout.groupOneSize]
  {
    var b1, n1 := layout.groupOneBlocks, layout.groupOneSize;
    ColumnsFullLength(blocks, n1);
    ColumnsSnoc(blocks, 0, n1);
    ColumnSkip(blocks, n1, 0, b1);
    ColumnFull(blocks, n1, b1);
    var full, last := Columns(blocks, 0, n1), Column(blocks, n1, b1);
    assert StandardInterleave(blocks) == full + last;
    PositionInLastColumn(layout, k);
    assert Position(layout, k, n1) == |full| + (k - b1);
    AppendIndex(full, last, k - b1);
  }

  lemma AppendIndex<T>(a: seq<T>, b: seq<T>, i: nat)
    requires i < |b|
    ensures (a + b)[|a| + i] == b[i]
  {
  }

  /** Every codeword of every block is in the standard interleave, at its
      position. */
  lemma StandardInterleavePositions<T>(g: Groups<T>, layout: Layout)
    requires Shaped(g, layout) && StandardLayout(layout)
    ensures var s := StandardInterleave(g.one + g.two);
      && |s| == Capacity(layout)
      && forall k, c :: 0 <= k < |g.one + g.two| && 0 <= c < BlockSize(layout, k) ==>
           0 <= Position(layout, k, c) < |s| && s[Position(layout, k, c)] == (g.one + g.two)[k][c]
  {
    StandardInterleaveLength(g, layout);
    forall k, c | 0 <= k < |g.one + g.two| && 0 <= c < BlockSize(layout, k)
      ensures 0 <= Position(layout, k, c) < |StandardInterleave(g.one + g.two)|
      ensures StandardInterleave(g.one + g.two)[Position(layout, k, c)] == (g.one + g.two)[k][c]
    {
      StandardInterleaveAt(g, layout, k, c);
    }
  }

  /** Distinct codewords get distinct positions: with the length above, the
      standard interleave is a rearrangement of the blocks' codewords. */
  lemma PositionInjective(layout: Layout, k: nat, c: nat, k': nat, c': nat)
    requires StandardLayout(layout)
    requires k < layout.groupOneBlocks + layout.groupTwoBlocks && c < BlockSize(layout, k)
    requires k' < layout.groupOneBlocks + layout.groupTwoBlocks && c' < BlockSize(layout, k')
    requires Position(layout, k, c) == Position(layout, k', c')
    ensures k == k' && c == c'
  {
    var (b1, n1) := (layout.groupOneBlocks, layout.groupOneSize);
    var count := b1 + layout.groupTwoBlocks;
    if c < n1 && c' < n1 {
      if c < c' {
        RowMajor(c, k, c', count);
      } else if c' < c {
        RowMajor(c', k', c, count);
      }
    } else if c < n1 {
      RowMajor(c, k, n1, count);
    } else if c' < n1 {
      RowMajor(c', k', n1, count);
    }
  }

  lemma {:induction false} RowIsColumn<T>(g: Groups<T>, layout: Layout, j: nat, i: nat)
    requires Shaped(g, layout) && layout.groupTwoBlocks == 0 && layout.groupTwoSize == 0
    requires j < layout.groupOneSize && i <= layout.groupOneBlocks
    ensures Row(g, layout, j, i) == Column(g.one, j, i)
    decreases layout.groupOneBlocks - i
  {
    if i < layout.groupOneBlocks {
      RowIsColumn(g, layout, j, i + 1);
    }
  }

  lemma {:induction false} RowsAreColumns<T>(g: Groups<T>, layout: Layout, j: nat)
    requires Shaped(g, layout) && layout.groupTwoBlocks == 0 && layout.groupTwoSize == 0
    requires j <= layout.groupOneSize
    ensures Rows(g, layout, j) == Columns(g.one, j, layout.groupOneSize)
    decreases layout.groupOneSize - j
  {
    if j < layout.groupOneSize {
      RowIsColumn(g, layout, j, 0);
      RowsAreColumns(g, layout, j + 1);
    }
  }

  /** With a single group the as-written interleave is the standard one. */
  lemma InterleaveDataSingleGroup<T>(g: Groups<T>, layout: Layout)
    requires Shaped(g, layout) && layout.groupOneBlocks > 0
    requires layout.groupTwoBlocks == 0 && layout.groupTwoSize == 0
    ensures InterleaveData(g, layout) == StandardInterleave(g.one + g.two)
  {
    RowsAreColumns(g, layout, 0);
    assert g.one + g.two == g.one;
    assert |g.one[0]| == layout.groupOneSize;
  }

  /** With two groups the order differs even when nothing is lost: once group
      one has two blocks and group two is not empty (version 8-M, say: two blocks
      of 38, two of 39), the second codeword written is the first of group-two
      block 0, where the standard puts the first of group-one block 1. */
  lemma InterleaveOrderDiffers<T>(g: Groups<T>, layout: Layout)
    requires Shaped(g, layout) && StandardLayout(layout)
    requires layout.groupOneBlocks >= 2 && layout.groupTwoBlocks > 0 && layout.groupOneSize > 0
    ensures |InterleaveData(g, layout)| >= 2 && |StandardInterleave(g.one + g.two)| >= 2
    ensures InterleaveData(g, layout)[1] == g.two[0][0]
    ensures StandardInterleave(g.one + g.two)[1] == g.one[1][0]
  {
    InterleaveDataStart(g, layout);
    assert Position(layout, 1, 0) == 1;
    StandardInterleaveAt(g, layout, 1, 0);
  }

  /** When both groups have blocks, the as-written interleave opens with the
      first codeword of group-one block 0, then that of group-two block 0. */
  lemma InterleaveDataStart<T>(g: Groups<T>, layout: Layout)
    requires Shaped(g, layout)
    requires layout.groupOneBlocks > 0 && layout.groupTwoBlocks > 0
    requires layout.groupOneSize > 0 && layout.groupTwoSize > 0
    ensures |InterleaveData(g, layout)| >= 2
    ensures InterleaveData(g, layout)[..2] == [g.one[0][0], g.two[0][0]]
  {
    assert Row(g, layout, 0, 0) == [g.one[0][0]] + [g.two[0][0]] + Row(g, layout, 0, 1);
  }

  /** The blocks in the order the inner loop of the as-written interleave
      (encoder.py:199-204) visits them, from group-one block `i` on: each
      group-one block, then the group-two block of the same index when there is
      one. Group-two blocks at or past the group-one count are never visited. */
  function Alternate<T>(one: seq<seq<T>>, two: seq<seq<T>>, i: nat): seq<seq<T>>
    decreases |one| - i
  {
    if i >= |one| then []
    else [one[i]] + (if i < |two| then [two[i]] else []) + Alternate(one, two, i + 1)
  }

  /** Where `Alternate` puts each block: while both groups have block `k`, the
      pair sits at `2k` and `2k + 1`; the remaining group-one blocks follow in
      order. */
  lemma {:induction false} AlternateAt<T>(one: seq<seq<T>>, two: seq<seq<T>>, i: nat)
    requires i <= |one|
    ensures var m := Min(|one|, |two|); var a := Alternate(one, two, i);
      && |a| == |one| - i + Max(m - i, 0)
      && (forall k :: i <= k < m ==> a[2 * (k - i)] == one[k] && a[2 * (k - i) + 1] == two[k])
      && (forall k :: i <= k < |one| && m <= k ==> a[Max(m - i, 0) + (k - i)] == one[k])
    decreases |one| - i
  {
    if i < |one| {
      AlternateAt(one, two, i + 1);
      var m := Min(|one|, |two|);
      var rest := Alternate(one, two, i + 1);
      var head := [one[i]] + (if i < |two| then [two[i]] else []);
      var a := Alternate(one, two, i);
      assert a == head + rest;
      forall k | i < k < m
        ensures a[2 * (k - i)] == one[k] && a[2 * (k - i) + 1] == two[k]
      {
        assert a[2 * (k - i)] == rest[2 * (k - (i + 1))];
        assert a[2 * (k - i) + 1] == rest[2 * (k - (i + 1)) + 1];
      }
      forall k | i < k < |one| && m <= k
        ensures a[Max(m - i, 0) + (k - i)] == one[k]
      {
        assert a[Max(m - i, 0) + (k - i)] == rest[Max(m - (i + 1), 0) + (k - (i + 1))];
      }
    }
  }

  /** The visiting order from the first block: `b1 + min(b1, b2)` blocks, the
      pairs first, then the group-one blocks that have no partner. */
  lemma AlternateBlocks<T>(one: seq<seq<T>>, two: seq<seq<T>>)
    ensures var m := Min(|one|, |two|); var a := Alternate(one, two, 0);
      && |a| == |one| + m
      && (forall k :: 0 <= k < m ==> a[2 * k] == one[k] && a[2 * k + 1] == two[k])
      && (forall k :: m <= k < |one| ==> a[m + k] == one[k])
  {
    AlternateAt(one, two, 0);
  }

  /** No visited block is longer than the longest of either group. */
  lemma {:induction false} AlternateWidth<T>(one: seq<seq<T>>, two: seq<seq<T>>, i: nat, w: nat)
    requires forall k :: 0 <= k < |one| ==> |one[k]| <= w
    requires forall k :: 0 <= k < |two| ==> |two[k]| <= w
    ensures forall k :: 0 <= k < |Alternate(one, two, i)| ==> |Alternate(one, two, i)[k]| <= w
    decreases |one| - i
  {
    if i < |one| {
      AlternateWidth(one, two, i + 1, w);
    }
  }

  lemma {:induction false} ColumnShift<T>(a: seq<seq<T>>, b: seq<seq<T>>, j: nat, k: nat)
    requires k <= |b|
    ensures Column(a + b, j, |a| + k) == Column(b, j, k)
    decreases |b| - k
  {
    if k < |b| {
      ColumnShift(a, b, j, k + 1);
      assert (a + b)[|a| + k] == b[k];
    }
  }

  lemma {:induction false} ColumnAppend<T>(a: seq<seq<T>>, b: seq<seq<T>>, j: nat, k: nat)
    requires k <= |a|
    ensures Column(a + b, j, k) == Column(a, j, k) + Column(b, j, 0)
    decreases |a| - k
  {
    if k < |a| {
      ColumnAppend(a, b, j, k + 1);
      assert (a + b)[k] == a[k];
    } else {
      ColumnShift(a, b, j, 0);
    }
  }

  /** One pass of the as-written inner loop reads column `j` of the blocks in
      visiting order. */
  lemma {:induction false} RowIsAlternateColumn<T>(g: Groups<T>, layout: Layout, j: nat, i: nat)
    requires Shaped(g, layout)
    ensures Row(g, layout, j, i) == Column(Alternate(g.one, g.two, i), j, 0)
    decreases layout.groupOneBlocks - i
  {
    if i < layout.groupOneBlocks {
      RowIsAlternateColumn(g, layout, j, i + 1);
      var head := [g.one[i]] + (if i < |g.two| then [g.two[i]] else []);
      var rest := Alternate(g.one, g.two, i + 1);
      assert Alternate(g.one, g.two, i) == head + rest;
      ColumnAppend(head, rest, j, 0);
      if i < |g.two| {
        assert Column(head, j, 1) == (if j < |g.two[i]| then [g.two[i][j]] else []) + Column(head, j, 2);
      }
    }
  }

  lemma {:induction false} RowsAreAlternateColumns<T>(g: Groups<T>, layout: Layout, j: nat)
    requires Shaped(g, layout)
    ensures Rows(g, layout, j)
      == Columns(Alternate(g.one, g.two, 0), j, Max(layout.groupOneSize, layout.groupTwoSize))
    decreases Max(layout.groupOneSize, layout.groupTwoSize) - j
  {
    if j < Max(layout.groupOneSize, layout.groupTwoSize) {
      RowIsAlternateColumn(g, layout, j, 0);
      RowsAreAlternateColumns(g, layout, j + 1);
    }
  }

  /** Columns past the longest block are empty. */
  lemma {:induction false} ColumnsPastLongest<T>(blocks: seq<seq<T>>, w: nat)
    requires Longest(blocks) <= w
    ensures Columns(blocks, 0, w) == StandardInterleave(blocks)
    decreases w
  {
    if Longest(blocks) < w {
      ColumnsPastLongest(blocks, w - 1);
      ColumnsSnoc(blocks, 0, w - 1);
      ColumnSkip(blocks, w - 1, 0, |blocks|);
    }
  }

  /** Fewer columns give a prefix of the reading. */
  lemma {:induction false} ColumnsPrefix<T>(blocks: seq<seq<T>>, w: nat, w': nat)
    requires w <= w'
    ensures Columns(blocks, 0, w) <= Columns(blocks, 0, w')
    decreases w' - w
  {
    if w < w' {
      ColumnsPrefix(blocks, w, w' - 1);
      ColumnsSnoc(blocks, 0, w' - 1);
    }
  }

  /** As written, the data interleave is the column-by-column reading of section
      7.6 of ISO/IEC 18004:2006, but of the blocks in the loop's visiting order:
      group-one block `i` then group-two block `i`, block by block, and no
      group-two block past the group-one count. */
  lemma InterleaveDataOrder<T>(g: Groups<T>, layout: Layout)
    requires Shaped(g, layout)
    ensures InterleaveData(g, layout) == StandardInterleave(Alternate(g.one, g.two, 0))
  {
    var w := Max(layout.groupOneSize, layout.groupTwoSize);
    var a := Alternate(g.one, g.two, 0);
    RowsAreAlternateColumns(g, layout, 0);
    AlternateWidth(g.one, g.two, 0, w);
    if |a| > 0 {
      var k :| 0 <= k < |a| && |a[k]| == Longest(a);
    }
    ColumnsPastLongest(a, w);
  }

  /** No visited block is shorter than the shortest of either group. */
  lemma {:induction false} AlternateAtLeast<T>(one: seq<seq<T>>, two: seq<seq<T>>, i: nat, w: nat)
    requires forall k :: 0 <= k < |one| ==> w <= |one[k]|
    requires forall k :: 0 <= k < |two| ==> w <= |two[k]|
    ensures forall k :: 0 <= k < |Alternate(one, two, i)| ==> w <= |Alternate(one, two, i)[k]|
    decreases |one| - i
  {
    if i < |one| {
      AlternateAtLeast(one, two, i + 1, w);
    }
  }

  /** While every block is at least `width` long, any reading of `w >= width`
      columns holds codeword `c < width` of block `k` at `c * |blocks| + k`. */
  lemma ReadingAt<T>(blocks: seq<seq<T>>, width: nat, w: nat, c: nat, k: nat)
    requires forall k :: 0 <= k < |blocks| ==> width <= |blocks[k]|
    requires c < width <= w && k < |blocks|
    ensures Mul(c, |blocks|) + k < |Columns(blocks, 0, w)|
    ensures Columns(blocks, 0, w)[Mul(c, |blocks|) + k] == blocks[k][c]
  {
    ColumnsPrefix(blocks, width, w);
    ColumnsFullAt(blocks, width, c, k);
  }

  /** Codeword `c` of the `k`-th block visited sits in row `c` of the as-written
      interleave, at column `k`. */
  lemma InterleaveDataReads<T>(g: Groups<T>, layout: Layout, c: nat, k: nat)
    requires Shaped(g, layout)
    requires c < layout.groupOneSize && c < layout.groupTwoSize
    requires k < |Alternate(g.one, g.two, 0)|
    ensures var a := Alternate(g.one, g.two, 0);
      && c < |a[k]|
      && Mul(c, |a|) + k < |InterleaveData(g, layout)|
      && InterleaveData(g, layout)[Mul(c, |a|) + k] == a[k][c]
  {
    var n1, n2 := layout.groupOneSize, layout.groupTwoSize;
    AlternateAtLeast(g.one, g.two, 0, Min(n1, n2));
    RowsAreAlternateColumns(g, layout, 0);
    ReadingAt(Alternate(g.one, g.two, 0), Min(n1, n2), Max(n1, n2), c, k);
  }

  /** The group-two blocks the as-written interleave visits: those whose index is
      also a group-one index. */
  function Paired(layout: Layout): nat
  {
    Min(layout.groupOneBlocks, layout.groupTwoBlocks)
  }

  /** Where row `c` of the as-written interleave starts, while `c` is below both
      block sizes: each earlier row holds one codeword per visited block. */
  function RowStart(layout: Layout, c: nat): nat
  {
    Mul(c, layout.groupOneBlocks + Paired(layout))
  }

  /** Where the as-written interleave puts codeword `c`, below both block sizes,
      of group-one block `k` and group-two block `k` when both exist: side by
      side in row `c`, the group-one codeword first. */
  lemma InterleaveDataPairAt<T>(g: Groups<T>, layout: Layout, c: nat, k: nat)
    requires Shaped(g, layout)
    requires c < layout.groupOneSize && c < layout.groupTwoSize && k < Paired(layout)
    ensures RowStart(layout, c) + 2 * k + 1 < |InterleaveData(g, layout)|
    ensures InterleaveData(g, layout)[RowStart(layout, c) + 2 * k] == g.one[k][c]
    ensures InterleaveData(g, layout)[RowStart(layout, c) + 2 * k + 1] == g.two[k][c]
  {
    AlternateBlocks(g.one, g.two);
    assert Mul(c, |Alternate(g.one, g.two, 0)|) == RowStart(layout, c);
    InterleaveDataReads(g, layout, c, 2 * k);
    InterleaveDataReads(g, layout, c, 2 * k + 1);
  }

  /** ... and of a group-one block `k` with no group-two partner: after the
      pairs of row `c`, in block order. */
  lemma InterleaveDataUnpairedAt<T>(g: Groups<T>, layout: Layout, c: nat, k: nat)
    requires Shaped(g, layout)
    requires c < layout.groupOneSize && c < layout.groupTwoSize
    requires Paired(layout) <= k < layout.groupOneBlocks
    ensures RowStart(layout, c) + Paired(layout) + k < |InterleaveData(g, layout)|
    ensures InterleaveData(g, layout)[RowStart(layout, c) + Paired(layout) + k] == g.one[k][c]
  {
    AlternateBlocks(g.one, g.two);
    assert Mul(c, |Alternate(g.one, g.two, 0)|) == RowStart(layout, c);
    InterleaveDataReads(g, layout, c, Paired(layout) + k);
  }

  /** The final message with the remainder bits (encoder.py:213-216): as many zero
      characters as the version's table entry, after the codewords. */
  function AppendRemainder(message: string, v: Version): (r: string)
    ensures |r| == |message| + RemainderBits(v)
    ensures r[..|message|] == message
    ensures forall i :: |message| <= i < |r| ==> r[i] == '0'
  {
    message + seq(RemainderBits(v), _ => '0')
  }

  /** A message of all the symbol's codewords, eight characters each, plus the
      remainder bits covers exactly the symbol's data modules. */
  lemma RemainderCompletesSymbol(message: string, v: Version)
    requires |message| == 8 * TotalCodewords(v)
    ensures |AppendRemainder(message, v)| == RawDataModules(v)
  {
    RemainderFillsSymbol(v);
  }
}

=== FILE: codewords.dfy ===
/** The printed form of the data bitstream and its reading by the
    error-correction step: `formatReturnString` writes a space before every
    group of eight bits, and `errorCorrection` splits that string at the spaces
    into codewords (encoder.py). */
module Codewords {
  import opened Bits
  import opened Errors
  import opened Tables
  import opened Bitstream

  function BitChar(b: bool): char
  {
    if b then '1' else '0'
  }

  /** The '0'/'1' characters of a bit string. */
  function BitChars(bits: Bits): (s: string)
    ensures |s| == |bits|
    ensures forall i :: 0 <= i < |bits| ==> s[i] == BitChar(bits[i])
  {
    seq(|bits|, i requires 0 <= i < |bits| => BitChar(bits[i]))
  }

  /** The final loop of `formatReturnString`: a space before every bit whose
      position is a multiple of eight, then the bit itself. */
  function Spaced(bits: Bits): (s: string)
    ensures |s| == |bits| + (|bits| + 7) / 8
    ensures |bits| > 0 ==> s[0] == ' '
    decreases |bits|
  {
    if |bits| == 0 then []
    else if |bits| <= 8 then [' '] + BitChars(bits)
    else [' '] + BitChars(bits[..8]) + Spaced(bits[8..])
  }

  /** Where everything lands: bit `i` is preceded by `i / 8 + 1` spaces. */
  lemma {:induction false} SpacedBitAt(bits: Bits, i: nat)
    requires i < |bits|
    ensures i + i / 8 + 1 < |Spaced(bits)| && Spaced(bits)[i + i / 8 + 1] == BitChar(bits[i])
    decreases i
  {
    if i >= 8 {
      var rest := bits[8..];
      SpacedBitAt(rest, i - 8);
      assert Spaced(bits) == [' '] + BitChars(bits[..8]) + Spaced(rest);
      assert (i - 8) / 8 + 1 == i / 8;
      assert rest[i - 8] == bits[i];
    } else if |bits| > 8 {
      assert Spaced(bits) == [' '] + BitChars(bits[..8]) + Spaced(bits[8..]);
    }
  }

  /** The spaces sit every nine characters, one per group of eight bits. */
  lemma {:induction false} SpacedSeparators(bits: Bits)
    ensures forall k :: 0 <= k < (|bits| + 7) / 8 ==> 9 * k < |Spaced(bits)| && Spaced(bits)[9 * k] == ' '
    decreases |bits|
  {
    if 8 < |bits| {
      var rest := bits[8..];
      SpacedSeparators(rest);
      var s := Spaced(bits);
      var tail := Spaced(rest);
      assert s == [' '] + BitChars(bits[..8]) + tail;
      forall k | 0 <= k < (|bits| + 7) / 8
        ensures 9 * k < |s| && s[9 * k] == ' '
      {
        if k >= 1 {
          assert (|rest| + 7) / 8 == (|bits| + 7) / 8 - 1;
          assert s[9 * k] == tail[9 * (k - 1)];
        }
      }
    }
  }

  /** `formatReturnString` on a fresh `Encoder`: the string `errorCorrection`
      splits into one eight-character codeword per byte of the bitstream. */
  function FormatReturnString(msg: string, l: Level): (r: Result<string>)
    ensures r.Ok? <==> DataBitstream(msg, l).Ok?
    ensures r.Err? ==> r.error == DataBitstream(msg, l).error
    ensures r.Ok? ==> |r.value| == 9 * (|DataBitstream(msg, l).value| / 8)
    ensures r.Ok? ==> MessagePolynomial(r.value) == Chunks(DataBitstream(msg, l).value)
  {
    match DataBitstream(msg, l)
    case Err(e) => Err(e)
    case Ok(bits) =>
      ReadSpaced(bits);
      Ok(Spaced(bits))
  }

  /** A whole number of bytes cuts into full eight-character chunks. */
  lemma {:induction false} ChunksOfBytes(bits: Bits)
    requires |bits| % 8 == 0
    ensures forall k :: 0 <= k < |Chunks(bits)| ==> Chunks(bits)[k] == BitChars(bits[8 * k .. 8 * k + 8])
    decreases |bits|
  {
    if |bits| == 8 {
      assert bits[0 .. 8] == bits;
    } else if |bits| > 8 {
      var rest := bits[8..];
      ChunksOfBytes(rest);
      var chunks := Chunks(bits);
      assert chunks == [BitChars(bits[..8])] + Chunks(rest);
      forall k | 0 <= k < |chunks|
        ensures chunks[k] == BitChars(bits[8 * k .. 8 * k + 8])
      {
        if k > 0 {
          assert chunks[k] == Chunks(rest)[k - 1];
          assert rest[8 * (k - 1) .. 8 * (k - 1) + 8] == bits[8 * k .. 8 * k + 8];
        }
      }
    }
  }

  /** Python's `s.split(" ")`: the pieces between spaces, empty ones included, so
      one more piece than there are spaces. */
  function Split(s: string): (parts: seq<string>)
    ensures |parts| >= 1
  {
    if |s| == 0 then [[]]
    else
      var rest := Split(s[1..]);
      if s[0] == ' ' then [[]] + rest
      else [[s[0]] + rest[0]] + rest[1..]
  }

  /** The pieces contain no spaces, and joining them back with spaces gives `s`. */
  lemma {:induction false} SplitJoin(s: string)
    ensures forall p :: p in Split(s) ==> ' ' !in p
    ensures Join(Split(s)) == s
  {
    if |s| > 0 {
      SplitJoin(s[1..]);
      var rest := Split(s[1..]);
      if s[0] != ' ' {
        assert Join(rest) == rest[0] + JoinTail(rest[1..]);
        assert Join(Split(s)) == [s[0]] + rest[0] + JoinTail(rest[1..]);
        assert s == [s[0]] + s[1..];
      } else {
        assert s == [' '] + s[1..];
      }
    }
  }

  /** `parts` joined with a space between consecutive pieces. */
  function Join(parts: seq<string>): string
    requires |parts| >= 1
  {
    parts[0] + JoinTail(parts[1..])
  }

  function JoinTail(parts: seq<string>): string
  {
    if |parts| == 0 then [] else [' '] + parts[0] + JoinTail(parts[1..])
  }

  /** `messagePolynomial` in `errorCorrection`: the pieces of the string with a
      leading empty piece dropped. */
  function MessagePolynomial(s: string): seq<string>
  {
    var parts := Split(s);
    if parts[0] == [] then parts[1..] else parts
  }

  /** The bit string cut into groups of eight, the last one possibly shorter. */
  function Chunks(bits: Bits): (r: seq<string>)
    ensures |r| == (|bits| + 7) / 8
    decreases |bits|
  {
    if |bits| == 0 then []
    else if |bits| <= 8 then [BitChars(bits)]
    else [BitChars(bits[..8])] + Chunks(bits[8..])
  }

  /** Reading the printed bitstream back gives one eight-character codeword per
      byte, in order. */
  lemma {:induction false} ReadSpaced(bits: Bits)
    ensures Split(Spaced(bits)) == [[]] + Chunks(bits)
    ensures MessagePolynomial(Spaced(bits)) == Chunks(bits)
    decreases |bits|
  {
    if |bits| > 0 {
      var head := if |bits| <= 8 then bits else bits[..8];
      var tail := if |bits| <= 8 then [] else Spaced(bits[8..]);
      var chunksTail := if |bits| <= 8 then [] else Chunks(bits[8..]);
      if |bits| > 8 {
        ReadSpaced(bits[8..]);
      }
      assert Split(tail) == [[]] + chunksTail;
      assert Spaced(bits) == [' '] + (BitChars(head) + tail);
      SplitWord(BitChars(head), tail);
      assert Split(Spaced(bits)) == [[]] + Split(BitChars(head) + tail);
      assert BitChars(head) + [] == BitChars(head);
      assert Split(tail)[1..] == chunksTail;
      assert Split(BitChars(head) + tail) == [BitChars(head)] + chunksTail;
    }
    var parts: seq<string> := [[]] + Chunks(bits);
    assert parts[1..] == Chunks(bits);
  }

  /** A leading word without spaces extends the first piece. */
  lemma {:induction false} SplitWord(word: string, t: string)
    requires forall i :: 0 <= i < |word| ==> word[i] != ' '
    ensures Split(word + t) == [word + Split(t)[0]] + Split(t)[1..]
    decreases |word|
  {
    if |word| > 0 {
      SplitWord(word[1..], t);
      var rest := Split(word[1..] + t);
      assert (word + t)[1..] == word[1..] + t;
      assert (word + t)[0] == word[0] != ' ';
      assert Split(word + t) == [[word[0]] + rest[0]] + rest[1..];
      assert rest[0] == word[1..] + Split(t)[0] && rest[1..] == Split(t)[1..];
      assert [word[0]] + (word[1..] + Split(t)[0]) == word + Split(t)[0];
    } else {
      assert word + t == t && word + Split(t)[0] == Split(t)[0];
      assert Split(t) == [Split(t)[0]] + Split(t)[1..];
    }
  }
}

=== FILE: errors.dfy ===
/** Failure-compatible result types shared by the encoder and the matrix builder.
    The Python code reports failure by raising; each raise site becomes an `Err`. */
module Errors {

  /** The exceptions the modelled code can raise. */
  datatype Error =
    | InvalidCharacter   // `list.index` fails on a character outside the 45-symbol table
    | CapacityExceeded   // `get_version` finds no version in 1..10
    | IndexOutOfRange    // a list subscript past the end (block split on too few codewords)

  datatype Result<+T> = Ok(value: T) | Err(error: Error) {
    predicate IsFailure() { Err? }

    function PropagateFailure<U>(): Result<U>
      requires Err?
    {
      Err(error)
    }

    function Extract(): T
      requires Ok?
    {
      value
    }
  }

  datatype Option<+T> = None | Some(value: T) {
    predicate IsFailure() { None? }

    function PropagateFailure<U>(): Option<U>
      requires None?
    {
      None
    }

    function Extract(): T
      requires Some?
    {
      value
    }
  }
}

=== FILE: formatinfo.dfy ===
/** The format and version information of draw.py: `get_format_string`,
    `insert_format_string`, `get_version_string` and `insert_version_string`.
    The format information is the level and mask reference protected by the
    (15, 5) BCH code and xor-ed with a fixed mask (section 6.9 of ISO/IEC
    18004:2006); the version information of versions 7 and up is the version
    number protected by the (18, 6) BCH code (section 6.10). */
module FormatInfo {
  import opened Bits
  import opened Errors
  import opened Tables
  import opened Matrix
  import opened Patterns
  import opened Masking
  import opened Placement
  import opened Polynomials

  // --------------------------------------------------------- format string

  /** `CORRECTION_INT_TABLE`: the two level bits of the format information
      (table 12 of ISO/IEC 18004:2006). */
  function CorrectionBits(l: Level): nat
  {
    match l
    case L => 1
    case M => 0
    case Q => 3
    case H => 2
  }

  /** The level two format bits stand for. */
  function LevelOf(bits: nat): Level
  {
    if bits == 1 then L else if bits == 0 then M else if bits == 3 then Q else H
  }

  /** Every level has its own two bits, and they read back as that level. */
  lemma CorrectionBitsRoundTrip(l: Level)
    ensures CorrectionBits(l) < 4 && LevelOf(CorrectionBits(l)) == l
  {
  }

  /** `gen_poly`, x^10 + x^8 + x^5 + x^4 + x^2 + x + 1. */
  const FormatGenerator: nat := 0x537

  /** `mask_string`, 101010000010010. */
  const FormatMask: nat := 0x5412

  lemma FormatConstants()
    ensures Digits(FormatGenerator) == 11
    ensures Pow2(2) == 4 && Pow2(3) == 8 && Pow2(5) == 32 && Pow2(10) == 1024 && Pow2(15) == 32768
    ensures FormatMask < Pow2(15)
  {
    assert Pow2(5) == 32;
    assert Pow2(10) == 1024;
  }

  /** `msg_bits`: the level bits followed by the three mask bits. */
  function FormatData(l: Level, m: MaskId): nat
  {
    Or(Shl(CorrectionBits(l), 3), m)
  }

  /** The five data bits followed by the ten check bits the division loop of
      `get_format_string` leaves: `(msg_bits << 10) | error_bits`. */
  function FormatCode(msg: nat): (w: nat)
    ensures msg < 32 ==> w < 32768 && Shr(w, 10) == msg
  {
    FormatConstants();
    var e := Reduce(Shl(msg, 10), FormatGenerator, 10);
    OrDisjoint(msg, e, 10);
    if msg < 32 then
      DataOverCheck(msg, e);
      Or(Shl(msg, 10), e)
    else
      Or(Shl(msg, 10), e)
  }

  /** The integer `get_format_string` converts to bits: the code word under the
      mask. */
  function FormatWord(l: Level, m: MaskId): nat
  {
    Xor(FormatCode(FormatData(l, m)), FormatMask)
  }

  /** The data bits are the level bits times 8 plus the mask. */
  lemma FormatDataValue(l: Level, m: MaskId)
    ensures FormatData(l, m) == 8 * CorrectionBits(l) + m < 32
  {
    FormatConstants();
    var c := CorrectionBits(l);
    OrDisjoint(c, m, 3);
    ShlIsProduct(c, 3);
  }

  /** Ten check bits under five data bits: fifteen bits in all, and shifting
      the check bits out leaves the data. */
  lemma DataOverCheck(msg: nat, e: nat)
    requires msg < 32 && e < 1024
    ensures Shl(msg, 10) + e < 32768 && Shr(Shl(msg, 10) + e, 10) == msg
  {
    FormatConstants();
    ShlBound(msg, e, 5, 10);
    ShrShl(msg, e, 10);
  }

  /** Every code word is a multiple of the generator. */
  lemma FormatCodeDivisible(msg: nat)
    ensures Divisible(FormatCode(msg), FormatGenerator)
  {
    FormatConstants();
    CodeWord(msg, FormatGenerator, 10);
  }

  /** The masked word still fits in 15 bits. */
  lemma FormatWordBound(l: Level, m: MaskId)
    ensures FormatWord(l, m) < Pow2(15)
  {
    FormatConstants();
    FormatDataValue(l, m);
    XorBelow(FormatCode(FormatData(l, m)), FormatMask, 15);
  }

  /** `get_format_string(correction_level, mask_pattern)`: `bin` of the word,
      left-padded with zeros to 15 bits. */
  function GetFormatString(l: Level, m: MaskId): (s: Bits)
    ensures |s| == 15
    ensures FromBinary(s) == FormatWord(l, m)
  {
    FormatWordBound(l, m);
    DigitsAtMost(FormatWord(l, m), 15);
    Binary(FormatWord(l, m), 15)
  }

  /** Reading format information back: unmask, keep the five data bits, split
      them into level and mask. */
  function ReadFormat(s: Bits): (Level, MaskId)
  {
    var data := Shr(Xor(FromBinary(s), FormatMask), 10);
    (LevelOf(data / 8 % 4), data % 8)
  }

  /** Once unmasked, the format string is a code word of the (15, 5) BCH code:
      the level bits and the mask in the top five bits, and the whole a
      multiple of the generator polynomial. */
  lemma FormatStringCode(l: Level, m: MaskId)
    ensures var u := Xor(FromBinary(GetFormatString(l, m)), FormatMask);
            Shr(u, 10) == 8 * CorrectionBits(l) + m && Divisible(u, FormatGenerator)
  {
    FormatDataValue(l, m);
    FormatCodeDivisible(FormatData(l, m));
    XorCancel(FormatCode(FormatData(l, m)), FormatMask);
  }

  /** Splitting five data bits into the level's two and the mask's three. */
  lemma ReadFormatSplit(d: nat, c: nat, m: MaskId)
    requires c < 4 && d == 8 * c + m
    ensures d / 8 % 4 == c && d % 8 == m
  {
  }

  /** A string whose unmasked data bits are `8 * c + m` reads as level
      `LevelOf(c)` and mask `m`. */
  lemma ReadFormatData(s: Bits, c: nat, m: MaskId)
    requires c < 4 && Shr(Xor(FromBinary(s), FormatMask), 10) == 8 * c + m
    ensures ReadFormat(s) == (LevelOf(c), m)
  {
    ReadFormatSplit(Shr(Xor(FromBinary(s), FormatMask), 10), c, m);
  }

  /** The format string carries its level and mask: reading it back gives
      them, so the 32 strings are all different. */
  lemma FormatRoundTrip(l: Level, m: MaskId)
    ensures ReadFormat(GetFormatString(l, m)) == (l, m)
  {
    FormatStringCode(l, m);
    CorrectionBitsRoundTrip(l);
    ReadFormatData(GetFormatString(l, m), CorrectionBits(l), m);
  }

  // -------------------------------------------------------- version string

  /** The table of `get_version_string`, versions 7 to 10. */
  function VersionEntry(v: Version): string
    requires v >= 7
  {
    if v == 7 then "000111110010010100"
    else if v == 8 then "001000010110111100"
    else if v == 9 then "001001101010011001"
    else "001010010011010011"
  }

  /** `get_version_string(version)`; a version below 7 is not in the table
      (the lookup raises `KeyError`). */
  function VersionString(v: Version): (r: Option<Bits>)
    ensures r.Some? <==> v >= 7
    ensures r.Some? ==> |r.value| == 18
  {
    if v >= 7 then Some(BitString(VersionEntry(v))) else None
  }

  /** The version a version string states: its first six bits. */
  function ReadVersion(s: Bits): nat
    requires |s| >= 6
  {
    FromBinary(s[..6])
  }

  /** The six-bit binary numerals of the table's versions. */
  function VersionNumeral(v: Version): string
    requires v >= 7
  {
    if v == 7 then "000111" else if v == 8 then "001000" else if v == 9 then "001001" else "001010"
  }

  lemma VersionEntryHead(v: Version)
    requires v >= 7
    ensures VersionEntry(v)[..6] == VersionNumeral(v)
  {
  }

  lemma VersionNumeralBits(v: Version)
    requires v >= 7
    ensures BitString(VersionNumeral(v)) == ToBinary(v, 6)
  {
    if v == 7 {
      Numeral7();
    } else if v == 8 {
      Numeral8();
    } else if v == 9 {
      Numeral9();
    } else {
      Numeral10();
    }
  }

  lemma Numeral7()
    ensures BitString(VersionNumeral(7)) == ToBinary(7, 6)
  {
    assert BitString("000111") == [false, false, false, true, true, true];
    assert ToBinary(7, 6) == [false, false, false, true, true, true];
  }

  lemma Numeral8()
    ensures BitString(VersionNumeral(8)) == ToBinary(8, 6)
  {
    assert BitString("001000") == [false, false, true, false, false, false];
    assert ToBinary(8, 6) == [false, false, true, false, false, false];
  }

  lemma Numeral9()
    ensures BitString(VersionNumeral(9)) == ToBinary(9, 6)
  {
    assert BitString("001001") == [false, false, true, false, false, true];
    assert ToBinary(9, 6) == [false, false, true, false, false, true];
  }

  lemma Numeral10()
    ensures BitString(VersionNumeral(10)) == ToBinary(10, 6)
  {
    assert BitString("001010") == [false, false, true, false, true, false];
    assert ToBinary(10, 6) == [false, false, true, false, true, false];
  }

  /** Each table entry starts with its version number in six bits, as
      section 6.10 of ISO/IEC 18004:2006 lays the version information out. */
  lemma VersionStringData(v: Version)
    requires v >= 7
    ensures VersionString(v).value[..6] == ToBinary(v, 6)
  {
    BitStringPrefix(VersionEntry(v), 6);
    VersionEntryHead(v);
    VersionNumeralBits(v);
  }

  /** Reading a version string back gives its version. */
  lemma VersionRoundTrip(v: Version)
    requires v >= 7
    ensures ReadVersion(VersionString(v).value) == v
  {
    VersionStringData(v);
    Pow2Widths();
    FromToBinary(v, 6);
  }

  // ----------------------------------------------------- writing cell pairs

  /** Writes bit `i` of `bits` into both modules of `cells[i]`, colour only,
      for `i` from `from` on in order: the loop of `insert_format_string` and
      of `insert_version_string`. */
  function WritePairs(g: Grid, size: nat, cells: seq<(Pos, Pos)>, bits: Bits, from: nat): (r: Grid)
    requires IsGrid(g, size) && |bits| >= |cells| && from <= |cells|
    requires forall i :: 0 <= i < |cells| ==>
               InGrid(size, cells[i].0.0, cells[i].0.1) && InGrid(size, cells[i].1.0, cells[i].1.1)
    ensures IsGrid(r, size)
    decreases |cells| - from
  {
    if from == |cells| then g
    else
      var (a, b) := cells[from];
      var h := Paint(Paint(g, size, a.0, a.1, bits[from]), size, b.0, b.1, bits[from]);
      WritePairs(h, size, cells, bits, from + 1)
  }

  /** When `index` names, for every module, the pair it belongs to, the
      modules of pairs from `from` on take their pair's bit as colour and
      every other module, and every reserved flag, is left as it was. */
  lemma {:induction false} WritePairsCells(g: Grid, size: nat, cells: seq<(Pos, Pos)>, bits: Bits, from: nat,
                                           index: (int, int) -> Option<nat>)
    requires IsGrid(g, size) && |bits| >= |cells| && from <= |cells|
    requires forall i :: 0 <= i < |cells| ==>
               InGrid(size, cells[i].0.0, cells[i].0.1) && InGrid(size, cells[i].1.0, cells[i].1.1)
    requires forall i :: 0 <= i < |cells| ==> index(cells[i].0.0, cells[i].0.1) == Some(i) &&
                                              index(cells[i].1.0, cells[i].1.1) == Some(i)
    requires forall y, x :: index(x, y).Some? ==>
               index(x, y).value < |cells| &&
               ((x, y) == cells[index(x, y).value].0 || (x, y) == cells[index(x, y).value].1)
    ensures forall y, x :: InGrid(size, x, y) ==>
              WritePairs(g, size, cells, bits, from)[y][x] ==
                (if index(x, y).Some? && from <= index(x, y).value
                 then g[y][x].(color := DataColor(bits[index(x, y).value]))
                 else g[y][x])
    decreases |cells| - from
  {
    if from < |cells| {
      var (a, b) := cells[from];
      var h := Paint(Paint(g, size, a.0, a.1, bits[from]), size, b.0, b.1, bits[from]);
      var r := WritePairs(h, size, cells, bits, from + 1);
      assert WritePairs(g, size, cells, bits, from) == r;
      WritePairsCells(h, size, cells, bits, from + 1, index);
      forall y, x | InGrid(size, x, y)
        ensures r[y][x] == (if index(x, y).Some? && from <= index(x, y).value
                            then g[y][x].(color := DataColor(bits[index(x, y).value]))
                            else g[y][x])
      {
        PaintPair(g, size, a, b, bits[from], x, y);
        if (x, y) == a || (x, y) == b {
          assert index(x, y) == Some(from);
        }
      }
    }
  }

  /** Painting both modules of a pair changes the colour of those two only. */
  lemma PaintPair(g: Grid, size: nat, a: Pos, b: Pos, bit: bool, x: int, y: int)
    requires IsGrid(g, size) && InGrid(size, a.0, a.1) && InGrid(size, b.0, b.1) && InGrid(size, x, y)
    ensures Paint(Paint(g, size, a.0, a.1, bit), size, b.0, b.1, bit)[y][x] ==
              if (x, y) == a || (x, y) == b then g[y][x].(color := DataColor(bit)) else g[y][x]
  {
  }

  // -------------------------------------------------------- format writing

  /** The two modules `insert_format_string` colours with bit `i` of the
      reversed format string, as (column, row): one next to the top-left
      finder, skipping the timing pattern, and one along the bottom-left or
      top-right finder. */
  function FormatCells(size: nat, i: nat): (Pos, Pos)
  {
    if i <= 7 then ((size - i - 1, 8), if i >= 6 then (8, i + 1) else (8, i))
    else ((8, i + size - 7 - 8), if i == 8 then (7, 8) else (5 + 9 - i, 8))
  }

  function FormatCellList(size: nat): (cs: seq<(Pos, Pos)>)
    requires size >= 21
    ensures |cs| == 15
    ensures forall i :: 0 <= i < 15 ==>
              cs[i] == FormatCells(size, i) && InGrid(size, cs[i].0.0, cs[i].0.1) && InGrid(size, cs[i].1.0, cs[i].1.1)
  {
    FormatCellsIndexed(size);
    seq(15, i requires 0 <= i < 15 => FormatCells(size, i))
  }

  /** Which bit of the reversed format string a module carries, if any: the
      inverse of `FormatCells`. */
  function FormatBitAt(size: nat, x: int, y: int): Option<nat>
  {
    if y == 8 && size - 8 <= x < size then Some(size - 1 - x)
    else if x == 8 && 0 <= y <= 5 then Some(y)
    else if x == 8 && (y == 7 || y == 8) then Some(y - 1)
    else if x == 8 && size - 7 <= y < size then Some(y - size + 15)
    else if y == 8 && x == 7 then Some(8)
    else if y == 8 && 0 <= x <= 5 then Some(14 - x)
    else None
  }

  lemma FormatCellsAt(size: nat, i: nat)
    requires size >= 21 && i < 15
    ensures var (a, b) := FormatCells(size, i);
            InGrid(size, a.0, a.1) && InGrid(size, b.0, b.1) &&
            FormatBitAt(size, a.0, a.1) == Some(i) && FormatBitAt(size, b.0, b.1) == Some(i)
  {
  }

  lemma FormatBitAtCells(size: nat, x: int, y: int)
    requires size >= 21 && FormatBitAt(size, x, y).Some?
    ensures var i := FormatBitAt(size, x, y).value;
            i < 15 && ((x, y) == FormatCells(size, i).0 || (x, y) == FormatCells(size, i).1)
  {
  }

  /** Every bit goes to two modules inside the symbol that carry that bit. */
  lemma FormatCellsIndexed(size: nat)
    requires size >= 21
    ensures forall i :: 0 <= i < 15 ==>
              InGrid(size, FormatCells(size, i).0.0, FormatCells(size, i).0.1) &&
              InGrid(size, FormatCells(size, i).1.0, FormatCells(size, i).1.1) &&
              FormatBitAt(size, FormatCells(size, i).0.0, FormatCells(size, i).0.1) == Some(i) &&
              FormatBitAt(size, FormatCells(size, i).1.0, FormatCells(size, i).1.1) == Some(i)
    ensures forall y, x :: FormatBitAt(size, x, y).Some? ==>
              FormatBitAt(size, x, y).value < 15 &&
              ((x, y) == FormatCells(size, FormatBitAt(size, x, y).value).0 ||
               (x, y) == FormatCells(size, FormatBitAt(size, x, y).value).1)
  {
    forall i | 0 <= i < 15
      ensures InGrid(size, FormatCells(size, i).0.0, FormatCells(size, i).0.1) &&
              InGrid(size, FormatCells(size, i).1.0, FormatCells(size, i).1.1) &&
              FormatBitAt(size, FormatCells(size, i).0.0, FormatCells(size, i).0.1) == Some(i) &&
              FormatBitAt(size, FormatCells(size, i).1.0, FormatCells(size, i).1.1) == Some(i)
    {
      FormatCellsAt(size, i);
    }
    forall y, x | FormatBitAt(size, x, y).Some?
      ensures FormatBitAt(size, x, y).value < 15 &&
              ((x, y) == FormatCells(size, FormatBitAt(size, x, y).value).0 ||
               (x, y) == FormatCells(size, FormatBitAt(size, x, y).value).1)
    {
      FormatBitAtCells(size, x, y);
    }
  }

  /** The module of one of the two copies that carries bit `i` of the
      reversed format string. */
  function FormatCopyCell(size: nat, i: nat, second: bool): (p: Pos)
    requires size >= 21 && i < 15
    ensures InGrid(size, p.0, p.1) && FormatBitAt(size, p.0, p.1) == Some(i)
  {
    FormatCellsAt(size, i);
    if second then FormatCells(size, i).1 else FormatCells(size, i).0
  }

  /** The modules carrying format bits are exactly the format areas `base`
      reserves, less the two timing modules and the dark module; each carries
      one of the 15 bits. */
  lemma FormatBitArea(size: nat, x: int, y: int)
    requires size >= 21
    ensures FormatBitAt(size, x, y).Some? <==>
              InGrid(size, x, y) && FormatArea(size, x, y) &&
              (x, y) != (6, 8) && (x, y) != (8, 6) && (x, y) != (8, size - 8)
    ensures FormatBitAt(size, x, y).Some? ==> FormatBitAt(size, x, y).value < 15
  {
  }

  /** Each format module of `r` has the colour of its bit, counted from the
      end of the string, and otherwise is the module of `g`; every other
      module is that of `g`. */
  ghost predicate FormatWritten(g: Grid, size: nat, fs: Bits, r: Grid)
    requires IsGrid(g, size) && IsGrid(r, size) && size >= 21 && |fs| >= 15
  {
    FormatCellsIndexed(size);
    forall y, x :: InGrid(size, x, y) ==>
      r[y][x] ==
        match FormatBitAt(size, x, y)
        case Some(i) => g[y][x].(color := DataColor(fs[|fs| - 1 - i]))
        case None => g[y][x]
  }

  /** `insert_format_string(qr, format_str)`: each format module takes the
      colour of its bit, counted from the end of the string; nothing else
      changes, and no reserved flag. */
  function InsertFormatString(g: Grid, size: nat, fs: Bits): (r: Grid)
    requires IsGrid(g, size) && size >= 21 && |fs| >= 15
    ensures IsGrid(r, size)
    ensures FormatWritten(g, size, fs, r)
  {
    FormatCellsIndexed(size);
    WriteFormatCells(g, size, fs);
    WritePairs(g, size, FormatCellList(size), Reverse(fs), 0)
  }

  lemma WriteFormatCells(g: Grid, size: nat, fs: Bits)
    requires IsGrid(g, size) && size >= 21 && |fs| >= 15
    ensures FormatWritten(g, size, fs, WritePairs(g, size, FormatCellList(size), Reverse(fs), 0))
  {
    FormatCellsIndexed(size);
    var rev := Reverse(fs);
    WritePairsCells(g, size, FormatCellList(size), rev, 0, (x: int, y: int) => FormatBitAt(size, x, y));
    forall y, x | InGrid(size, x, y) && FormatBitAt(size, x, y).Some?
      ensures rev[FormatBitAt(size, x, y).value] == fs[|fs| - 1 - FormatBitAt(size, x, y).value]
    {
    }
  }

  /** Both modules of bit `i` of the reversed string take its colour. */
  lemma FormatCopyWritten(g: Grid, size: nat, fs: Bits, i: nat, second: bool)
    requires IsGrid(g, size) && size >= 21 && |fs| >= 15 && i < 15
    ensures var p := FormatCopyCell(size, i, second);
            InsertFormatString(g, size, fs)[p.1][p.0] == g[p.1][p.0].(color := DataColor(fs[|fs| - 1 - i]))
  {
  }

  // ------------------------------------------------------- version writing

  /** The two modules `insert_version_string` colours with bit `i`: row
      `5 - i / 3` of the block above the bottom-left finder... */
  function VersionCells(size: nat, i: nat): (Pos, Pos)
  {
    var j, k := i % 3, i / 3;
    ((size - 9 - j, 5 - k), (5 - k, size - 9 - j))
  }

  function VersionCellList(size: nat): (cs: seq<(Pos, Pos)>)
    requires size >= 21
    ensures |cs| == 18
    ensures forall i :: 0 <= i < 18 ==>
              cs[i] == VersionCells(size, i) && InGrid(size, cs[i].0.0, cs[i].0.1) && InGrid(size, cs[i].1.0, cs[i].1.1)
  {
    VersionCellsIndexed(size);
    seq(18, i requires 0 <= i < 18 => VersionCells(size, i))
  }

  /** Which bit of the version string a module carries, if any. */
  function VersionBitAt(size: nat, x: int, y: int): Option<nat>
  {
    if 0 <= y <= 5 && size - 11 <= x <= size - 9 then Some(3 * (5 - y) + (size - 9 - x))
    else if 0 <= x <= 5 && size - 11 <= y <= size - 9 then Some(3 * (5 - x) + (size - 9 - y))
    else None
  }

  lemma VersionCellsAt(size: nat, i: nat)
    requires size >= 21 && i < 18
    ensures var (a, b) := VersionCells(size, i);
            InGrid(size, a.0, a.1) && InGrid(size, b.0, b.1) &&
            VersionBitAt(size, a.0, a.1) == Some(i) && VersionBitAt(size, b.0, b.1) == Some(i)
  {
    assert i == 3 * (i / 3) + i % 3;
  }

  lemma VersionBitAtCells(size: nat, x: int, y: int)
    requires size >= 21 && VersionBitAt(size, x, y).Some?
    ensures var i := VersionBitAt(size, x, y).value;
            i < 18 && ((x, y) == VersionCells(size, i).0 || (x, y) == VersionCells(size, i).1)
  {
    var i := VersionBitAt(size, x, y).value;
    if 0 <= y <= 5 && size - 11 <= x <= size - 9 {
      assert i / 3 == 5 - y && i % 3 == size - 9 - x;
    } else {
      assert i / 3 == 5 - x && i % 3 == size - 9 - y;
    }
  }

  lemma VersionCellsIndexed(size: nat)
    requires size >= 21
    ensures forall i :: 0 <= i < 18 ==>
              InGrid(size, VersionCells(size, i).0.0, VersionCells(size, i).0.1) &&
              InGrid(size, VersionCells(size, i).1.0, VersionCells(size, i).1.1) &&
              VersionBitAt(size, VersionCells(size, i).0.0, VersionCells(size, i).0.1) == Some(i) &&
              VersionBitAt(size, VersionCells(size, i).1.0, VersionCells(size, i).1.1) == Some(i)
    ensures forall y, x :: VersionBitAt(size, x, y).Some? ==>
              VersionBitAt(size, x, y).value < 18 &&
              ((x, y) == VersionCells(size, VersionBitAt(size, x, y).value).0 ||
               (x, y) == VersionCells(size, VersionBitAt(size, x, y).value).1)
  {
    forall i | 0 <= i < 18
      ensures InGrid(size, VersionCells(size, i).0.0, VersionCells(size, i).0.1) &&
              InGrid(size, VersionCells(size, i).1.0, VersionCells(size, i).1.1) &&
              VersionBitAt(size, VersionCells(size, i).0.0, VersionCells(size, i).0.1) == Some(i) &&
              VersionBitAt(size, VersionCells(size, i).1.0, VersionCells(size, i).1.1) == Some(i)
    {
      VersionCellsAt(size, i);
    }
    forall y, x | VersionBitAt(size, x, y).Some?
      ensures VersionBitAt(size, x, y).value < 18 &&
              ((x, y) == VersionCells(size, VersionBitAt(size, x, y).value).0 ||
               (x, y) == VersionCells(size, VersionBitAt(size, x, y).value).1)
    {
      VersionBitAtCells(size, x, y);
    }
  }

  /** The modules carrying version bits are exactly the version areas. */
  lemma VersionBitArea(size: nat, x: int, y: int)
    requires size >= 21
    ensures VersionBitAt(size, x, y).Some? <==> InGrid(size, x, y) && VersionArea(size, x, y)
    ensures VersionBitAt(size, x, y).Some? ==> VersionBitAt(size, x, y).value < 18
  {
  }

  /** Each version module of `r` has the colour of its bit, and otherwise is
      the module of `g`; every other module is that of `g`. */
  /** Either module of bit `i` carries `vs[i]` once the version string is written. */
  lemma VersionCellWritten(g: Grid, size: nat, vs: Bits, i: nat, second: bool)
    requires IsGrid(g, size) && size >= 21 && |vs| >= 18 && i < 18
    ensures var p := if second then VersionCells(size, i).1 else VersionCells(size, i).0;
            InGrid(size, p.0, p.1) &&
            InsertVersionString(g, size, vs)[p.1][p.0] == g[p.1][p.0].(color := DataColor(vs[i]))
  {
    VersionCellsAt(size, i);
  }

  ghost predicate VersionWritten(g: Grid, size: nat, vs: Bits, r: Grid)
    requires IsGrid(g, size) && IsGrid(r, size) && size >= 21 && |vs| >= 18
  {
    VersionCellsIndexed(size);
    forall y, x :: InGrid(size, x, y) ==>
      r[y][x] ==
        match VersionBitAt(size, x, y)
        case Some(i) => g[y][x].(color := DataColor(vs[i]))
        case None => g[y][x]
  }

  /** `insert_version_string(qr, version_str)`, without the debugging marks. */
  function InsertVersionString(g: Grid, size: nat, vs: Bits): (r: Grid)
    requires IsGrid(g, size) && size >= 21 && |vs| >= 18
    ensures IsGrid(r, size)
    ensures VersionWritten(g, size, vs, r)
  {
    VersionCellsIndexed(size);
    WriteVersionCells(g, size, vs);
    WritePairs(g, size, VersionCellList(size), vs, 0)
  }

  lemma WriteVersionCells(g: Grid, size: nat, vs: Bits)
    requires IsGrid(g, size) && size >= 21 && |vs| >= 18
    ensures VersionWritten(g, size, vs, WritePairs(g, size, VersionCellList(size), vs, 0))
  {
    VersionCellsIndexed(size);
    WritePairsCells(g, size, VersionCellList(size), vs, 0, (x: int, y: int) => VersionBitAt(size, x, y));
  }
}

=== FILE: masking.dfy ===
/** The eight data masks of draw.py and `apply_mask`. A mask is a condition on
    a module's column and row; masking inverts every free (unreserved) module
    where its condition holds. The conditions are those of section 6.8.1 of
    ISO/IEC 18004:2006 (table 10), with `row` for i and `col` for j. */
module Masking {
  import opened Matrix

  /** A mask pattern reference, `0` to `7`: the index into `MASKS`. */
  type MaskId = m: int | 0 <= m < 8

  /** `MASKS[m](col, row)`. Columns and rows are never negative, so Python's
      floor division and remainder agree with Dafny's. */
  predicate Mask(m: MaskId, col: nat, row: nat)
  {
    match m
    case 0 => (row + col) % 2 == 0
    case 1 => row % 2 == 0
    case 2 => col % 3 == 0
    case 3 => (row + col) % 3 == 0
    case 4 => (row / 2 + col / 3) % 2 == 0
    case 5 => (row * col) % 2 + (row * col) % 3 == 0
    case 6 => ((row * col) % 2 + (row * col) % 3) % 2 == 0
    case 7 => ((row + col) % 2 + (row * col) % 3) % 2 == 0
  }

  /** The inversion `apply_mask` performs: black becomes white, and white or
      unset becomes black. */
  function Invert(c: Color): (r: Color)
    ensures r != Unset
    ensures r == Black <==> c != Black
  {
    if c == Black then White else Black
  }

  /** `apply_mask(qr, MASKS[m])`: a new grid, the input left as it was. */
  function ApplyMask(g: Grid, size: nat, m: MaskId): (r: Grid)
    requires IsGrid(g, size)
    ensures IsGrid(r, size)
    ensures forall y, x :: InGrid(size, x, y) ==> r[y][x].reserved == g[y][x].reserved
    ensures forall y, x :: InGrid(size, x, y) && (g[y][x].reserved || !Mask(m, x, y)) ==> r[y][x] == g[y][x]
    ensures forall y, x :: InGrid(size, x, y) && !g[y][x].reserved && Mask(m, x, y) ==>
              r[y][x].color != Unset && (r[y][x].color == Black <==> g[y][x].color != Black)
  {
    Redraw(g, (x: int, y: int, cell: Module) =>
      if 0 <= x && 0 <= y && Mask(m, x, y) && !cell.reserved then Module(Invert(cell.color), false) else cell)
  }

  /** Every free module has been given a colour: true of the grid after data
      placement fills the whole symbol. */
  ghost predicate FreeColoured(g: Grid, size: nat)
    requires IsGrid(g, size)
  {
    forall y, x :: InGrid(size, x, y) && !g[y][x].reserved ==> g[y][x].color != Unset
  }

  /** Masking a grid whose free modules are all coloured keeps them coloured,
      and masking twice with the same pattern gives the grid back: the reader
      unmasks by applying the same mask again. */
  lemma MaskInvolution(g: Grid, size: nat, m: MaskId)
    requires IsGrid(g, size) && FreeColoured(g, size)
    ensures FreeColoured(ApplyMask(g, size, m), size)
    ensures ApplyMask(ApplyMask(g, size, m), size, m) == g
  {
    var h := ApplyMask(g, size, m);
    var r := ApplyMask(h, size, m);
    forall y, x | InGrid(size, x, y)
      ensures r[y][x] == g[y][x]
    {
      if !g[y][x].reserved && Mask(m, x, y) {
        assert g[y][x].color != Unset;
      }
    }
    forall y | 0 <= y < size
      ensures r[y] == g[y]
    {
    }
  }

  /** A mask touches only free modules, so every function pattern and every
      reserved area survives masking with any pattern. */
  lemma MaskRespects(g: Grid, size: nat, m: MaskId)
    requires IsGrid(g, size)
    ensures Respects(g, ApplyMask(g, size, m), size)
    ensures Respects(ApplyMask(g, size, m), g, size)
  {
  }

  /** Masks 5 and 6 look only at `row * col` modulo 6: mask 5 holds exactly
      where the product is a multiple of 6, and mask 6 holds wherever mask 5
      does. */
  lemma ProductMasks(col: nat, row: nat)
    ensures Mask(5, col, row) <==> (row * col) % 6 == 0
    ensures Mask(5, col, row) ==> Mask(6, col, row)
  {
    var n := row * col;
    assert n % 6 == 0 <==> n % 2 == 0 && n % 3 == 0;
  }

  /** Adding a multiple of 12 changes neither remainder modulo 2 nor modulo 3. */
  lemma TwelveShift(n: nat, k: nat)
    ensures (n + 12 * k) % 2 == n % 2 && (n + 12 * k) % 3 == n % 3
  {
  }

  /** Moving 12 columns or 12 rows moves `row * col` by a multiple of 12. */
  lemma ProductShift(col: nat, row: nat)
    ensures (row * (col + 12)) % 2 == (row * col) % 2 && (row * (col + 12)) % 3 == (row * col) % 3
    ensures ((row + 12) * col) % 2 == (row * col) % 2 && ((row + 12) * col) % 3 == (row * col) % 3
  {
    assert row * (col + 12) == row * col + 12 * row;
    assert (row + 12) * col == row * col + 12 * col;
    TwelveShift(row * col, row);
    TwelveShift(row * col, col);
  }

  /** Every mask repeats every 12 modules in both directions, so its pattern
      does not depend on the symbol's size. */
  lemma MaskPeriodic(m: MaskId, col: nat, row: nat)
    ensures Mask(m, col + 12, row) == Mask(m, col, row)
    ensures Mask(m, col, row + 12) == Mask(m, col, row)
  {
    if m >= 5 {
      ProductShift(col, row);
    } else if m == 4 {
      assert (col + 12) / 3 == col / 3 + 4;
      assert (row + 12) / 2 == row / 2 + 6;
    }
  }
}

=== FILE: matrix.dfy ===
/** The symbol matrix of draw.py: a square grid of modules, each with a colour
    and a `reserved` flag that marks it as part of a function pattern or of the
    format and version areas. Grids are indexed as the source indexes them,
    `g[y][x]` with `x` the column and `y` the row. */
module Matrix {
  import opened Bits
  import opened Tables

  /** `Color`: a module is white, black or not yet set. */
  datatype Color = White | Black | Unset

  /** `Module`, without the debugging `mark`. */
  datatype Module = Module(color: Color, reserved: bool)

  type Grid = seq<seq<Module>>

  /** A freshly built `Module()`: unset and free for data. */
  const Free: Module := Module(Unset, false)

  /** Modules per side of a version-`v` symbol, `(version-1)*4+21` (draw.py:107);
      section 6.3.1 of ISO/IEC 18004:2006 gives the same 21 to 57 for versions
      1 to 10. */
  function Size(v: Version): (size: nat)
    ensures 21 <= size <= 57 && size % 4 == 1
    ensures v == 1 ==> size == 21
    ensures v == 10 ==> size == 57
  {
    (v - 1) * 4 + 21
  }

  predicate IsGrid(g: Grid, size: nat)
  {
    |g| == size && forall y :: 0 <= y < size ==> |g[y]| == size
  }

  predicate InGrid(size: nat, x: int, y: int)
  {
    0 <= x < size && 0 <= y < size
  }

  /** `[[Module() for i in range(size)] for j in range(size)]`. */
  function Blank(size: nat): (g: Grid)
    ensures IsGrid(g, size)
    ensures forall y, x :: InGrid(size, x, y) ==> g[y][x] == Free
  {
    seq(size, _ => seq(size, _ => Free))
  }

  /** Every module replaced by `f` of its column, row and old value; the drawing
      functions below are all of this form. */
  function Redraw(g: Grid, f: (int, int, Module) -> Module): (r: Grid)
    ensures |r| == |g|
    ensures forall y :: 0 <= y < |g| ==> |r[y]| == |g[y]|
    ensures forall y, x :: 0 <= y < |g| && 0 <= x < |g[y]| ==> r[y][x] == f(x, y, g[y][x])
  {
    seq(|g|, y requires 0 <= y < |g| => seq(|g[y]|, x requires 0 <= x < |g[y]| => f(x, y, g[y][x])))
  }

  function Abs(n: int): nat
  {
    if n < 0 then -n else n
  }

  /** `max(abs(x - cx), abs(y - cy))`: the ring of a pattern a module lies on. */
  function Chebyshev(x: int, y: int, cx: int, cy: int): nat
  {
    Max(Abs(x - cx), Abs(y - cy))
  }

  /** Every module that has a colour is reserved: nothing but the data placement
      colours a free module. */
  ghost predicate ColouredReserved(g: Grid, size: nat)
    requires IsGrid(g, size)
  {
    forall y, x :: InGrid(size, x, y) && g[y][x].color != Unset ==> g[y][x].reserved
  }

  /** `h` leaves every module that is reserved in `g` as it was. */
  ghost predicate Respects(g: Grid, h: Grid, size: nat)
    requires IsGrid(g, size) && IsGrid(h, size)
  {
    forall y, x :: InGrid(size, x, y) && g[y][x].reserved ==> h[y][x] == g[y][x]
  }
}

=== FILE: patterns.dfy ===
/** The function patterns of draw.py's `base`: the three finder patterns with
    their separators, the alignment patterns, the timing patterns, the dark
    module and the reserved format and version areas (section 6.3 of
    ISO/IEC 18004:2006). */
module Patterns {
  import opened Bits
  import opened Tables
  import opened Matrix

  /** `ALIGNMENT_TABLE`: the row and column coordinates of alignment centres. */
  function AlignmentCentres(v: Version): seq<int>
  {
    Pick(v, [], [6, 18], [6, 22], [6, 26], [6, 30], [6, 34],
         [6, 22, 38], [6, 24, 42], [6, 26, 46], [6, 28, 50])
  }

  /** A centre coordinate keeps the 5x5 pattern inside the symbol, and off the
      timing line unless it sits on it: it is even, and it is 6 or at least 10. */
  predicate Placed(size: nat, c: int)
  {
    2 <= c && c + 3 <= size && c % 2 == 0 && (c == 6 || c >= 10)
  }

  predicate AllPlaced(size: nat, cs: seq<int>)
  {
    forall i :: 0 <= i < |cs| ==> Placed(size, cs[i])
  }

  /** The table lists `version / 7 + 2` centres from 6 up to `size - 7`, the
      count the raw-module formula of the standard assumes, all well placed. */
  lemma AlignmentCentresShape(v: Version)
    ensures |AlignmentCentres(v)| == if v == 1 then 0 else v / 7 + 2
    ensures v >= 2 ==> AlignmentCentres(v)[0] == 6
    ensures v >= 2 ==> AlignmentCentres(v)[|AlignmentCentres(v)| - 1] == Size(v) - 7
    ensures AllPlaced(Size(v), AlignmentCentres(v))
  {
    if v == 1 { } else if v == 2 { } else if v == 3 { } else if v == 4 { }
    else if v == 5 { } else if v == 6 { } else if v == 7 { } else if v == 8 { }
    else if v == 9 { } else { }
  }

  // ---------------------------------------------------------------- finders

  predicate InFinder(xs: int, ys: int, x: int, y: int)
  {
    xs <= x < xs + 9 && ys <= y < ys + 9
  }

  /** Rings 2 and 4 around the centre are white: the light ring of the finder
      and the separator. */
  function FinderColor(xs: int, ys: int, x: int, y: int): Color
  {
    var d := Chebyshev(x, y, xs + 4, ys + 4);
    if d == 2 || d == 4 then White else Black
  }

  /** `finder_pattern`: the 9x9 footprint at `(xs, ys)`, clipped to the symbol,
      becomes reserved and coloured, whatever was there before. */
  function Finder(g: Grid, size: nat, xs: int, ys: int): (r: Grid)
    requires IsGrid(g, size)
    ensures IsGrid(r, size)
    ensures forall y, x :: InGrid(size, x, y) && InFinder(xs, ys, x, y) ==>
              r[y][x] == Module(FinderColor(xs, ys, x, y), true)
    ensures forall y, x :: InGrid(size, x, y) && !InFinder(xs, ys, x, y) ==> r[y][x] == g[y][x]
  {
    Redraw(g, (x: int, y: int, m: Module) => if InFinder(xs, ys, x, y) then Module(FinderColor(xs, ys, x, y), true) else m)
  }

  /** The three finders sit at the top-left, bottom-left and top-right corners,
      starting one module off the symbol so that the separator is clipped. */
  predicate InFinders(size: nat, x: int, y: int)
  {
    InFinder(-1, -1, x, y) || InFinder(-1, size - 8, x, y) || InFinder(size - 8, -1, x, y)
  }

  function FinderStage(size: nat): (g: Grid)
    requires size >= 21
    ensures IsGrid(g, size)
  {
    Finder(Finder(Finder(Blank(size), size, -1, -1), size, -1, size - 8), size, size - 8, -1)
  }

  /** After the finders every module of the three footprints has its finder
      colour and is reserved, and every other module is still free. */
  lemma FinderStageCells(size: nat)
    requires size >= 21
    ensures forall y, x :: InGrid(size, x, y) && InFinder(-1, -1, x, y) ==>
              FinderStage(size)[y][x] == Module(FinderColor(-1, -1, x, y), true)
    ensures forall y, x :: InGrid(size, x, y) && InFinder(-1, size - 8, x, y) ==>
              FinderStage(size)[y][x] == Module(FinderColor(-1, size - 8, x, y), true)
    ensures forall y, x :: InGrid(size, x, y) && InFinder(size - 8, -1, x, y) ==>
              FinderStage(size)[y][x] == Module(FinderColor(size - 8, -1, x, y), true)
    ensures forall y, x :: InGrid(size, x, y) && !InFinders(size, x, y) ==> FinderStage(size)[y][x] == Free
  {
  }

  // ------------------------------------------------------------- alignments

  predicate InAlignment(xs: int, ys: int, x: int, y: int)
  {
    xs <= x < xs + 5 && ys <= y < ys + 5
  }

  /** Only ring 1 around the centre is white. */
  function AlignmentColor(xs: int, ys: int, x: int, y: int): Color
  {
    if Chebyshev(x, y, xs + 2, ys + 2) == 1 then White else Black
  }

  /** No module of the 5x5 footprint at `(xs, ys)` that lies in the symbol is
      reserved. */
  predicate FootprintFree(g: Grid, size: nat, xs: int, ys: int)
    requires IsGrid(g, size)
  {
    forall y, x :: ys <= y < ys + 5 && xs <= x < xs + 5 && 0 <= y < size && 0 <= x < size ==> !g[y][x].reserved
  }

  /** `alignment_pattern`: draws the 5x5 pattern at `(xs, ys)` only when none of
      its modules is reserved yet, and otherwise leaves the matrix alone. The
      source indexes the footprint without clipping, so it must lie inside. */
  function Alignment(g: Grid, size: nat, xs: int, ys: int): (r: Grid)
    requires IsGrid(g, size) && 0 <= xs && xs + 5 <= size && 0 <= ys && ys + 5 <= size
    ensures IsGrid(r, size)
  {
    if !FootprintFree(g, size, xs, ys) then g
    else Redraw(g, (x: int, y: int, m: Module) => if InAlignment(xs, ys, x, y) then Module(AlignmentColor(xs, ys, x, y), true) else m)
  }

  /** What `alignment_pattern` does, module by module: nothing when a module of
      the footprint is reserved; otherwise the footprint becomes reserved with
      ring 1 white, and nothing outside it changes. */
  lemma AlignmentCells(g: Grid, size: nat, xs: int, ys: int)
    requires IsGrid(g, size) && 0 <= xs && xs + 5 <= size && 0 <= ys && ys + 5 <= size
    ensures Respects(g, Alignment(g, size, xs, ys), size)
    ensures !FootprintFree(g, size, xs, ys) ==> Alignment(g, size, xs, ys) == g
    ensures FootprintFree(g, size, xs, ys) ==>
              forall y, x :: InGrid(size, x, y) && InAlignment(xs, ys, x, y) ==>
                Alignment(g, size, xs, ys)[y][x] == Module(AlignmentColor(xs, ys, x, y), true)
    ensures forall y, x :: InGrid(size, x, y) && !InAlignment(xs, ys, x, y) ==>
              Alignment(g, size, xs, ys)[y][x] == g[y][x]
  {
  }

  /** The inner loop of `base` over `align_b` for one `align_a`. */
  function AlignRow(g: Grid, size: nat, a: int, inner: seq<int>): (r: Grid)
    requires IsGrid(g, size) && Placed(size, a) && AllPlaced(size, inner)
    ensures IsGrid(r, size)
    decreases |inner|
  {
    if |inner| == 0 then g
    else AlignRow(Alignment(g, size, a - 2, inner[0] - 2), size, a, inner[1..])
  }

  /** Both loops of `base` over the alignment table, in the source's order. */
  function AlignAll(g: Grid, size: nat, outer: seq<int>, inner: seq<int>): (r: Grid)
    requires IsGrid(g, size) && AllPlaced(size, outer) && AllPlaced(size, inner)
    ensures IsGrid(r, size)
    decreases |outer|
  {
    if |outer| == 0 then g
    else AlignAll(AlignRow(g, size, outer[0], inner), size, outer[1..], inner)
  }

  // ----------------------------------------------------------------- timing

  /** Even positions on the timing lines are black. */
  function TimingColor(i: int): Color
  {
    if i % 2 == 0 then Black else White
  }

  /** The three centre pairs whose pattern would overlap a finder: (6, 6) and
      the two pairs of 6 with the last centre, `size - 7`. */
  predicate Corner(size: nat, a: int, b: int)
  {
    (a == 6 && b == 6) || (a == 6 && b == size - 7) || (a == size - 7 && b == 6)
  }

  /** A finder module inside the footprint of each corner pair is reserved, so
      `alignment_pattern` skips those pairs. */
  ghost predicate CornersBlocked(g: Grid, size: nat)
    requires IsGrid(g, size) && size >= 21
  {
    g[4][4].reserved && g[size - 5][4].reserved && g[4][size - 5].reserved
  }

  /** Row `y` is within two modules of some centre `b` of `inner` for which the
      pair `(a, b)` is drawn. */
  predicate NearDrawn(size: nat, a: int, inner: seq<int>, y: int)
  {
    exists j :: 0 <= j < |inner| && !Corner(size, a, inner[j]) && -2 <= y - inner[j] <= 2
  }

  /** Module (x, y) lies in the footprint of a drawn pair of `outer` x `inner`. */
  predicate InDrawn(size: nat, outer: seq<int>, inner: seq<int>, x: int, y: int)
  {
    exists i :: 0 <= i < |outer| && -2 <= x - outer[i] <= 2 && NearDrawn(size, outer[i], inner, y)
  }

  /** A drawn pair of the tail of `inner` is a drawn pair of `inner`; with
      spaced centres its rows lie beyond the first footprint. */
  lemma NearDrawnTail(size: nat, a: int, inner: seq<int>, y: int)
    requires |inner| > 0
    ensures !Corner(size, a, inner[0]) && -2 <= y - inner[0] <= 2 ==> NearDrawn(size, a, inner, y)
    ensures NearDrawn(size, a, inner[1..], y) ==> NearDrawn(size, a, inner, y)
    ensures NearDrawn(size, a, inner[1..], y) && CentresApart(inner) ==> y >= inner[0] + 3
  {
    if !Corner(size, a, inner[0]) && -2 <= y - inner[0] <= 2 {
      assert 0 < |inner| && !Corner(size, a, inner[0]) && -2 <= y - inner[0] <= 2;
    }
    if NearDrawn(size, a, inner[1..], y) {
      var j :| 0 <= j < |inner[1..]| && !Corner(size, a, inner[1..][j]) && -2 <= y - inner[1..][j] <= 2;
      assert inner[1..][j] == inner[j + 1];
    }
  }

  /** A drawn pair of the tail of `outer` is a drawn pair of `outer`; with
      spaced centres its columns lie beyond the first footprint. */
  lemma InDrawnTail(size: nat, outer: seq<int>, inner: seq<int>, x: int, y: int)
    requires |outer| > 0
    ensures -2 <= x - outer[0] <= 2 && NearDrawn(size, outer[0], inner, y) ==> InDrawn(size, outer, inner, x, y)
    ensures InDrawn(size, outer[1..], inner, x, y) ==> InDrawn(size, outer, inner, x, y)
    ensures InDrawn(size, outer[1..], inner, x, y) && CentresApart(outer) ==> x >= outer[0] + 3
  {
    if -2 <= x - outer[0] <= 2 && NearDrawn(size, outer[0], inner, y) {
      assert 0 < |outer| && -2 <= x - outer[0] <= 2 && NearDrawn(size, outer[0], inner, y);
    }
    if InDrawn(size, outer[1..], inner, x, y) {
      var i :| 0 <= i < |outer[1..]| && -2 <= x - outer[1..][i] <= 2 && NearDrawn(size, outer[1..][i], inner, y);
      assert outer[1..][i] == outer[i + 1];
    }
  }

  /** Every reserved module of row 6 and column 6 between the finders already
      carries its timing colour. */
  ghost predicate TimingConsistent(g: Grid, size: nat)
    requires IsGrid(g, size)
  {
    forall i :: 8 <= i < size - 8 ==>
      (g[i][6].reserved ==> g[i][6] == Module(TimingColor(i), true)) &&
      (g[6][i].reserved ==> g[6][i] == Module(TimingColor(i), true))
  }

  /** What the alignment loop needs to skip the corner pairs. */
  ghost predicate Blocked(g: Grid, size: nat)
  {
    size >= 21 && IsGrid(g, size) && CornersBlocked(g, size)
  }

  /** The invariants of the alignment loop. */
  ghost predicate AlignInvariant(g: Grid, size: nat)
  {
    Blocked(g, size) && ColouredReserved(g, size) && TimingConsistent(g, size)
  }

  /** A corner pair leaves the matrix as it was, and no pattern unreserves the
      finder modules the corner pairs run into. */
  lemma AlignmentFrame(g: Grid, size: nat, a: int, b: int)
    requires Blocked(g, size) && Placed(size, a) && Placed(size, b)
    ensures Blocked(Alignment(g, size, a - 2, b - 2), size)
    ensures Corner(size, a, b) ==> Alignment(g, size, a - 2, b - 2) == g
  {
    AlignmentCells(g, size, a - 2, b - 2);
    if a == 6 && b == 6 {
      assert g[4][4].reserved;
    } else if a == 6 && b == size - 7 {
      assert g[size - 5][4].reserved;
    } else if a == size - 7 && b == 6 {
      assert g[4][size - 5].reserved;
    }
  }

  /** On row or column 6 a pattern centred on that line is black exactly at even
      positions when its other centre coordinate is even. */
  lemma AlignmentColorOnLine(b: int, i: int)
    requires b % 2 == 0 && -2 <= i - b <= 2
    ensures AlignmentColor(4, b - 2, 6, i) == TimingColor(i)
    ensures AlignmentColor(b - 2, 4, i, 6) == TimingColor(i)
  {
  }

  /** One alignment pattern keeps the invariants: its modules on row or column 6
      are black exactly at even positions, because a placed centre on that line
      is even. */
  lemma AlignmentKeeps(g: Grid, size: nat, a: int, b: int)
    requires AlignInvariant(g, size) && Placed(size, a) && Placed(size, b)
    ensures AlignInvariant(Alignment(g, size, a - 2, b - 2), size)
  {
    AlignmentFrame(g, size, a, b);
    AlignmentCells(g, size, a - 2, b - 2);
    if FootprintFree(g, size, a - 2, b - 2) {
      var r: Grid := Alignment(g, size, a - 2, b - 2);
      forall i | 8 <= i < size - 8
        ensures r[i][6].reserved ==> r[i][6] == Module(TimingColor(i), true)
      {
        if InAlignment(a - 2, b - 2, 6, i) {
          assert a == 6;
          AlignmentColorOnLine(b, i);
        }
      }
      forall i | 8 <= i < size - 8
        ensures r[6][i].reserved ==> r[6][i] == Module(TimingColor(i), true)
      {
        if InAlignment(a - 2, b - 2, i, 6) {
          assert b == 6;
          AlignmentColorOnLine(a, i);
        }
      }
    }
  }

  /** The inner loop leaves reserved modules alone and changes nothing outside
      the footprints of the pairs it draws. */
  lemma {:induction false} AlignRowFrame(g: Grid, size: nat, a: int, inner: seq<int>)
    requires Blocked(g, size) && Placed(size, a) && AllPlaced(size, inner)
    ensures Blocked(AlignRow(g, size, a, inner), size)
    ensures Respects(g, AlignRow(g, size, a, inner), size)
    ensures forall y, x :: InGrid(size, x, y) && !(-2 <= x - a <= 2 && NearDrawn(size, a, inner, y)) ==>
              AlignRow(g, size, a, inner)[y][x] == g[y][x]
    decreases |inner|
  {
    if |inner| > 0 {
      var h := Alignment(g, size, a - 2, inner[0] - 2);
      AlignmentFrame(g, size, a, inner[0]);
      AlignmentCells(g, size, a - 2, inner[0] - 2);
      AlignRowStep(g, size, a, inner);
      AlignRowFrame(h, size, a, inner[1..]);
      var r := AlignRow(h, size, a, inner[1..]);
      forall y, x | InGrid(size, x, y) && !(-2 <= x - a <= 2 && NearDrawn(size, a, inner, y))
        ensures r[y][x] == g[y][x]
      {
        NearDrawnTail(size, a, inner, y);
        assert h[y][x] == g[y][x];
      }
    }
  }

  /** The inner loop keeps the invariants. */
  lemma {:induction false} AlignRowKeeps(g: Grid, size: nat, a: int, inner: seq<int>)
    requires AlignInvariant(g, size) && Placed(size, a) && AllPlaced(size, inner)
    ensures AlignInvariant(AlignRow(g, size, a, inner), size)
    decreases |inner|
  {
    if |inner| > 0 {
      AlignmentKeeps(g, size, a, inner[0]);
      AlignRowKeeps(Alignment(g, size, a - 2, inner[0] - 2), size, a, inner[1..]);
    }
  }

  /** The outer loop leaves reserved modules alone and changes nothing outside
      the footprints of the pairs it draws. */
  lemma {:induction false} AlignAllFrame(g: Grid, size: nat, outer: seq<int>, inner: seq<int>)
    requires Blocked(g, size) && AllPlaced(size, outer) && AllPlaced(size, inner)
    ensures Blocked(AlignAll(g, size, outer, inner), size)
    ensures Respects(g, AlignAll(g, size, outer, inner), size)
    ensures forall y, x :: InGrid(size, x, y) && !InDrawn(size, outer, inner, x, y) ==>
              AlignAll(g, size, outer, inner)[y][x] == g[y][x]
    decreases |outer|
  {
    if |outer| > 0 {
      var h := AlignRow(g, size, outer[0], inner);
      AlignRowFrame(g, size, outer[0], inner);
      AlignAllFrame(h, size, outer[1..], inner);
      var r := AlignAll(h, size, outer[1..], inner);
      forall y, x | InGrid(size, x, y) && !InDrawn(size, outer, inner, x, y)
        ensures r[y][x] == g[y][x]
      {
        InDrawnTail(size, outer, inner, x, y);
      }
    }
  }

  /** The outer loop keeps the invariants. */
  lemma {:induction false} AlignAllKeeps(g: Grid, size: nat, outer: seq<int>, inner: seq<int>)
    requires AlignInvariant(g, size) && AllPlaced(size, outer) && AllPlaced(size, inner)
    ensures AlignInvariant(AlignAll(g, size, outer, inner), size)
    decreases |outer|
  {
    if |outer| > 0 {
      AlignRowKeeps(g, size, outer[0], inner);
      AlignAllKeeps(AlignRow(g, size, outer[0], inner), size, outer[1..], inner);
    }
  }

  /** The timing loop of `base`: every free module of row 6 or column 6 becomes
      reserved, black at even positions. Position `i` of column 6 is row `i` and
      position `i` of row 6 is column `i`; module (6, 6) belongs to both, with the
      same position. */
  function Timing(g: Grid, size: nat): (r: Grid)
    requires IsGrid(g, size) && size > 6
    ensures IsGrid(r, size)
    ensures Respects(g, r, size)
    ensures forall y, x :: InGrid(size, x, y) && x != 6 && y != 6 ==> r[y][x] == g[y][x]
    ensures forall i :: 0 <= i < size && !g[i][6].reserved ==> r[i][6] == Module(TimingColor(i), true)
    ensures forall i :: 0 <= i < size && !g[6][i].reserved ==> r[6][i] == Module(TimingColor(i), true)
  {
    Redraw(g, (x: int, y: int, m: Module) =>
      if (x == 6 || y == 6) && !m.reserved then Module(TimingColor(if x == 6 then y else x), true) else m)
  }

  // ------------------------------------------------- dark module and areas

  /** The dark module, at column 8 of row `size - 8`. */
  function DarkModule(g: Grid, size: nat): (r: Grid)
    requires IsGrid(g, size) && size > 8
    ensures IsGrid(r, size)
    ensures r[size - 8][8] == Module(Black, true)
    ensures forall y, x :: InGrid(size, x, y) && !(x == 8 && y == size - 8) ==> r[y][x] == g[y][x]
  {
    Redraw(g, (x: int, y: int, m: Module) => if x == 8 && y == size - 8 then Module(Black, true) else m)
  }

  /** The format information areas: row 8 and column 8 next to the top-left
      finder (including (8, 8)), the last 8 modules of row 8 and the last 8 of
      column 8. */
  predicate FormatArea(size: nat, x: int, y: int)
  {
    (x == 8 && (0 <= y <= 8 || size - 8 <= y < size)) ||
    (y == 8 && (0 <= x <= 8 || size - 8 <= x < size))
  }

  /** The two 6x3 version information blocks of versions 7 and up. */
  predicate VersionArea(size: nat, x: int, y: int)
  {
    (0 <= x < 6 && size - 11 <= y <= size - 9) || (0 <= y < 6 && size - 11 <= x <= size - 9)
  }

  /** Marks the modules `area` selects as reserved without colouring them. */
  function Reserve(g: Grid, size: nat, area: (int, int) -> bool): (r: Grid)
    requires IsGrid(g, size)
    ensures IsGrid(r, size)
    ensures Respects(g, r, size)
    ensures forall y, x :: InGrid(size, x, y) ==>
              r[y][x].color == g[y][x].color && r[y][x].reserved == (g[y][x].reserved || area(x, y))
  {
    Redraw(g, (x: int, y: int, m: Module) => if area(x, y) then m.(reserved := true) else m)
  }

  // ------------------------------------------------------------------- base

  /** The finders and then every alignment pattern of the table. */
  function AlignStage(v: Version): (g: Grid)
    ensures IsGrid(g, Size(v))
  {
    AlignmentCentresShape(v);
    AlignAll(FinderStage(Size(v)), Size(v), AlignmentCentres(v), AlignmentCentres(v))
  }

  /** Finders, alignments, timing lines and the dark module. */
  function PatternStage(v: Version): (g: Grid)
    ensures IsGrid(g, Size(v))
  {
    DarkModule(Timing(AlignStage(v), Size(v)), Size(v))
  }

  /** `base`: the pattern stage with the format areas, and from version 7 the
      version areas, reserved. What is left unreserved, and still unset, is
      exactly the modules outside every pattern and information area. */
  function Base(v: Version): (g: Grid)
    ensures IsGrid(g, Size(v))
    ensures forall y, x :: InGrid(Size(v), x, y) ==> (!g[y][x].reserved <==> DataModule(v, x, y))
    ensures forall y, x :: InGrid(Size(v), x, y) && DataModule(v, x, y) ==> g[y][x] == Free
  {
    var size := Size(v);
    var formats := Reserve(PatternStage(v), size, (x, y) => FormatArea(size, x, y));
    var g := if v >= 7 then Reserve(formats, size, (x, y) => VersionArea(size, x, y)) else formats;
    var p := PatternStage(v);
    PatternStageFreeExactly(v);
    PatternStageFree(v);
    ReservedAreasLeaveData(v, p, formats, g);
    g
  }

  /** Reserving the information areas on top of the pattern stage leaves
      exactly the data modules free. */
  lemma ReservedAreasLeaveData(v: Version, p: Grid, formats: Grid, g: Grid)
    requires IsGrid(p, Size(v)) && IsGrid(formats, Size(v)) && IsGrid(g, Size(v))
    requires forall y, x :: InGrid(Size(v), x, y) ==> (!p[y][x].reserved <==> OutsidePatterns(v, x, y))
    requires forall y, x :: InGrid(Size(v), x, y) && OutsidePatterns(v, x, y) ==> p[y][x] == Free
    requires forall y, x :: InGrid(Size(v), x, y) ==>
               formats[y][x].color == p[y][x].color &&
               formats[y][x].reserved == (p[y][x].reserved || FormatArea(Size(v), x, y))
    requires v < 7 ==> g == formats
    requires v >= 7 ==> forall y, x :: InGrid(Size(v), x, y) ==>
               g[y][x].color == formats[y][x].color &&
               g[y][x].reserved == (formats[y][x].reserved || VersionArea(Size(v), x, y))
    ensures forall y, x :: InGrid(Size(v), x, y) ==> (!g[y][x].reserved <==> DataModule(v, x, y))
    ensures forall y, x :: InGrid(Size(v), x, y) && DataModule(v, x, y) ==> g[y][x] == Free
  {
    forall y, x | InGrid(Size(v), x, y) && DataModule(v, x, y)
      ensures g[y][x] == Free
    {
      assert g[y][x] == Module(g[y][x].color, g[y][x].reserved);
    }
  }

  /** Centres listed in increasing order, far enough apart that no two
      patterns on one line overlap. */
  predicate CentresApart(cs: seq<int>)
  {
    forall i, j :: 0 <= i < j < |cs| ==> cs[i] + 5 <= cs[j]
  }

  /** The table's centres increase by at least 12, every centre but the last is
      at least 12 before the last, and apart from 6 none is below 18. */
  lemma AlignmentCentresSpread(v: Version)
    ensures CentresApart(AlignmentCentres(v))
    ensures forall i :: 0 <= i < |AlignmentCentres(v)| ==>
              AlignmentCentres(v)[i] == 6 || AlignmentCentres(v)[i] >= 18
    ensures forall i :: 0 <= i < |AlignmentCentres(v)| - 1 ==> AlignmentCentres(v)[i] + 12 <= Size(v) - 7
  {
    if v == 1 { } else if v == 2 { } else if v == 3 { } else if v == 4 { }
    else if v == 5 { } else if v == 6 { } else if v == 7 { } else if v == 8 { }
    else if v == 9 { } else { }
  }

  /** Drawing one alignment pattern leaves a disjoint footprint as free as it
      was. */
  lemma FreeAfterAlignment(g: Grid, size: nat, xs: int, ys: int, xt: int, yt: int)
    requires IsGrid(g, size) && 0 <= xs && xs + 5 <= size && 0 <= ys && ys + 5 <= size
    requires 0 <= xt && xt + 5 <= size && 0 <= yt && yt + 5 <= size
    requires xs + 5 <= xt || ys + 5 <= yt
    requires FootprintFree(g, size, xt, yt)
    ensures FootprintFree(Alignment(g, size, xs, ys), size, xt, yt)
  {
    var r: Grid := Alignment(g, size, xs, ys);
    AlignmentCells(g, size, xs, ys);
    forall y, x | yt <= y < yt + 5 && xt <= x < xt + 5 && 0 <= y < size && 0 <= x < size
      ensures !r[y][x].reserved
    {
      assert !InAlignment(xs, ys, x, y);
    }
  }

  /** One step of the inner loop. */
  lemma AlignRowStep(g: Grid, size: nat, a: int, inner: seq<int>)
    requires IsGrid(g, size) && Placed(size, a) && AllPlaced(size, inner) && |inner| > 0
    ensures AllPlaced(size, inner[1..])
    ensures AlignRow(g, size, a, inner) == AlignRow(Alignment(g, size, a - 2, inner[0] - 2), size, a, inner[1..])
  {
    PlacedTail(size, inner);
  }

  /** Dropping the first centre keeps the rest placed. */
  lemma PlacedTail(size: nat, cs: seq<int>)
    requires AllPlaced(size, cs) && |cs| > 0
    ensures Placed(size, cs[0]) && AllPlaced(size, cs[1..])
  {
    forall i | 0 <= i < |cs| - 1
      ensures Placed(size, cs[1..][i])
    {
      assert cs[1..][i] == cs[i + 1];
    }
  }

  /** The first pair of the inner loop, when its footprint is free, is drawn
      and stays drawn. */
  lemma AlignRowDrawsFirst(g: Grid, size: nat, a: int, inner: seq<int>)
    requires Blocked(g, size) && Placed(size, a) && AllPlaced(size, inner) && CentresApart(inner)
    requires 0 < |inner| && FootprintFree(g, size, a - 2, inner[0] - 2)
    ensures forall y, x :: InGrid(size, x, y) && InAlignment(a - 2, inner[0] - 2, x, y) ==>
              AlignRow(g, size, a, inner)[y][x] == Module(AlignmentColor(a - 2, inner[0] - 2, x, y), true)
  {
    var h := Alignment(g, size, a - 2, inner[0] - 2);
    AlignmentFrame(g, size, a, inner[0]);
    AlignmentCells(g, size, a - 2, inner[0] - 2);
    AlignRowStep(g, size, a, inner);
    AlignRowFrame(h, size, a, inner[1..]);
    forall y, x | InGrid(size, x, y) && InAlignment(a - 2, inner[0] - 2, x, y)
      ensures AlignRow(h, size, a, inner[1..])[y][x] == Module(AlignmentColor(a - 2, inner[0] - 2, x, y), true)
    {
      NearDrawnTail(size, a, inner, y);
    }
  }

  /** After the first pair of the inner loop, a later pair `(a, b)` whose
      footprint was free is still free, and the rest of the loop starts from a
      grid that keeps the invariants. */
  lemma AlignRowTail(g: Grid, size: nat, a: int, inner: seq<int>, j: int, b: int)
    requires Blocked(g, size) && Placed(size, a) && AllPlaced(size, inner) && CentresApart(inner)
    requires 0 < j < |inner| && inner[j] == b && FootprintFree(g, size, a - 2, b - 2)
    ensures var h := Alignment(g, size, a - 2, inner[0] - 2);
            && Blocked(h, size) && AllPlaced(size, inner[1..]) && CentresApart(inner[1..])
            && inner[1..][j - 1] == b && FootprintFree(h, size, a - 2, b - 2)
            && AlignRow(g, size, a, inner) == AlignRow(h, size, a, inner[1..])
  {
    AlignmentFrame(g, size, a, inner[0]);
    AlignRowStep(g, size, a, inner);
    SpacedTail(inner);
    assert inner[0] + 5 <= b;
    FreeAfterAlignment(g, size, a - 2, inner[0] - 2, a - 2, b - 2);
  }

  /** Dropping the first centre keeps the centres spaced. */
  lemma SpacedTail(cs: seq<int>)
    requires |cs| > 0 && CentresApart(cs)
    ensures CentresApart(cs[1..])
  {
    forall i, j | 0 <= i < j < |cs| - 1
      ensures cs[1..][i] + 5 <= cs[1..][j]
    {
      assert cs[1..][i] == cs[i + 1] && cs[1..][j] == cs[j + 1];
    }
  }

  /** If the footprint of pair `(a, b)`, with `b == inner[j]`, is free when the
      inner loop starts, the loop draws that pattern and nothing after it
      covers it. */
  lemma {:induction false} AlignRowDraws(g: Grid, size: nat, a: int, inner: seq<int>, j: int, b: int)
    requires Blocked(g, size) && Placed(size, a) && AllPlaced(size, inner) && CentresApart(inner)
    requires 0 <= j < |inner| && inner[j] == b && FootprintFree(g, size, a - 2, b - 2)
    ensures forall y, x :: InGrid(size, x, y) && InAlignment(a - 2, b - 2, x, y) ==>
              AlignRow(g, size, a, inner)[y][x] == Module(AlignmentColor(a - 2, b - 2, x, y), true)
    decreases |inner|
  {
    if j == 0 {
      AlignRowDrawsFirst(g, size, a, inner);
    } else {
      AlignRowTail(g, size, a, inner, j, b);
      AlignRowDraws(Alignment(g, size, a - 2, inner[0] - 2), size, a, inner[1..], j - 1, b);
    }
  }

  /** If the footprint of pair `(outer[i], inner[j])` is free when the loops
      start, they draw that pattern and nothing after it covers it. */
  lemma {:induction false} AlignAllDraws(g: Grid, size: nat, outer: seq<int>, inner: seq<int>, i: int, j: int)
    requires Blocked(g, size) && AllPlaced(size, outer) && AllPlaced(size, inner)
    requires CentresApart(outer) && CentresApart(inner)
    requires 0 <= i < |outer| && 0 <= j < |inner| && FootprintFree(g, size, outer[i] - 2, inner[j] - 2)
    ensures forall y, x :: InGrid(size, x, y) && InAlignment(outer[i] - 2, inner[j] - 2, x, y) ==>
              AlignAll(g, size, outer, inner)[y][x] ==
              Module(AlignmentColor(outer[i] - 2, inner[j] - 2, x, y), true)
    decreases |outer|
  {
    var h := AlignRow(g, size, outer[0], inner);
    AlignRowFrame(g, size, outer[0], inner);
    if i == 0 {
      AlignRowDraws(g, size, outer[0], inner, j, inner[j]);
      AlignAllFrame(h, size, outer[1..], inner);
      forall y, x | InGrid(size, x, y) && InAlignment(outer[0] - 2, inner[j] - 2, x, y)
        ensures !InDrawn(size, outer[1..], inner, x, y)
      {
        InDrawnTail(size, outer, inner, x, y);
      }
    } else {
      assert outer[0] + 5 <= outer[i];
      forall y, x | inner[j] - 2 <= y < inner[j] + 3 && outer[i] - 2 <= x < outer[i] + 3 && 0 <= y < size && 0 <= x < size
        ensures !h[y][x].reserved
      {
        assert !(-2 <= x - outer[0] <= 2);
      }
      assert outer[1..][i - 1] == outer[i];
      AlignAllDraws(h, size, outer[1..], inner, i - 1, j);
    }
  }

  /** Module (x, y) lies in none of the patterns drawn before the reserved areas:
      outside the finders, off the timing lines, not the dark module, and not in
      a drawn alignment pattern. */
  predicate OutsidePatterns(v: Version, x: int, y: int)
  {
    var size := Size(v);
    !InFinders(size, x, y) && x != 6 && y != 6 && !(x == 8 && y == size - 8) &&
    !InDrawn(size, AlignmentCentres(v), AlignmentCentres(v), x, y)
  }

  /** The finder stage meets the invariants the alignment loop keeps. */
  lemma FinderStageInvariants(size: nat)
    requires size >= 21
    ensures AlignInvariant(FinderStage(size), size)
    ensures forall y, x :: InGrid(size, x, y) && InFinders(size, x, y) ==> FinderStage(size)[y][x].reserved
  {
    FinderStageCells(size);
    var g: Grid := FinderStage(size);
    forall i | 8 <= i < size - 8
      ensures !g[i][6].reserved && !g[6][i].reserved
    {
      assert !InFinders(size, 6, i) && !InFinders(size, i, 6);
    }
    assert InFinder(-1, -1, 4, 4) && InFinder(-1, size - 8, 4, size - 5) && InFinder(size - 8, -1, size - 5, 4);
  }

  /** The alignment loop over any well-placed centres, run on the finder stage. */
  lemma AlignedFinderStage(size: nat, cs: seq<int>)
    requires size >= 21 && AllPlaced(size, cs)
    ensures AlignInvariant(AlignAll(FinderStage(size), size, cs, cs), size)
    ensures forall y, x :: InGrid(size, x, y) && InFinders(size, x, y) ==>
              AlignAll(FinderStage(size), size, cs, cs)[y][x] == FinderStage(size)[y][x]
    ensures forall y, x ::
              InGrid(size, x, y) && !InFinders(size, x, y) && !InDrawn(size, cs, cs, x, y) ==>
              AlignAll(FinderStage(size), size, cs, cs)[y][x] == Free
  {
    FinderStageInvariants(size);
    FinderStageCells(size);
    AlignAllFrame(FinderStage(size), size, cs, cs);
    AlignAllKeeps(FinderStage(size), size, cs, cs);
  }

  /** After the alignments the finders are intact, every reserved module of the
      timing lines has its timing colour, and the rest of the symbol outside the
      drawn alignment patterns is free. */
  lemma AlignStageCells(v: Version)
    ensures AlignInvariant(AlignStage(v), Size(v))
    ensures forall y, x :: InGrid(Size(v), x, y) && InFinders(Size(v), x, y) ==>
              AlignStage(v)[y][x] == FinderStage(Size(v))[y][x]
    ensures forall y, x ::
              InGrid(Size(v), x, y) && !InFinders(Size(v), x, y) &&
              !InDrawn(Size(v), AlignmentCentres(v), AlignmentCentres(v), x, y) ==>
              AlignStage(v)[y][x] == Free
  {
    AlignmentCentresShape(v);
    AlignedFinderStage(Size(v), AlignmentCentres(v));
  }

  /** The footprint of a pair of table centres other than the corner pairs lies
      clear of the finders. */
  lemma FootprintClearOfFinders(v: Version, i: int, j: int)
    requires 0 <= i < |AlignmentCentres(v)| && 0 <= j < |AlignmentCentres(v)|
    requires !Corner(Size(v), AlignmentCentres(v)[i], AlignmentCentres(v)[j])
    ensures forall y, x :: InAlignment(AlignmentCentres(v)[i] - 2, AlignmentCentres(v)[j] - 2, x, y) ==>
              !InFinders(Size(v), x, y) && !(x == 8 && y == Size(v) - 8)
  {
    AlignmentCentresShape(v);
    AlignmentCentresSpread(v);
    var size, cs := Size(v), AlignmentCentres(v);
    var a, b := cs[i], cs[j];
    assert a == 6 || (18 <= a && (a == size - 7 || a + 12 <= size - 7)) by {
      if i < |cs| - 1 { assert cs[i] + 12 <= size - 7; }
    }
    assert b == 6 || (18 <= b && (b == size - 7 || b + 12 <= size - 7)) by {
      if j < |cs| - 1 { assert cs[j] + 12 <= size - 7; }
    }
    forall y, x | InAlignment(AlignmentCentres(v)[i] - 2, AlignmentCentres(v)[j] - 2, x, y)
      ensures !InFinders(Size(v), x, y) && !(x == 8 && y == Size(v) - 8)
    {
      assert a - 2 <= x <= a + 2 && b - 2 <= y <= b + 2;
    }
  }

  /** Hence such a footprint is free once the finders are drawn. */
  lemma FinderStageFootprintFree(v: Version, i: int, j: int)
    requires 0 <= i < |AlignmentCentres(v)| && 0 <= j < |AlignmentCentres(v)|
    requires !Corner(Size(v), AlignmentCentres(v)[i], AlignmentCentres(v)[j])
    ensures FootprintFree(FinderStage(Size(v)), Size(v), AlignmentCentres(v)[i] - 2, AlignmentCentres(v)[j] - 2)
  {
    AlignmentCentresShape(v);
    FootprintClearOfFinders(v, i, j);
    FinderStageCells(Size(v));
  }

  /** The alignment loop over spaced, well-placed centres draws every pair
      whose footprint is free of finders. */
  lemma AlignedFinderStageDraws(size: nat, cs: seq<int>, i: int, j: int)
    requires size >= 21 && AllPlaced(size, cs) && CentresApart(cs)
    requires 0 <= i < |cs| && 0 <= j < |cs| && FootprintFree(FinderStage(size), size, cs[i] - 2, cs[j] - 2)
    ensures forall y, x :: InGrid(size, x, y) && InAlignment(cs[i] - 2, cs[j] - 2, x, y) ==>
              AlignAll(FinderStage(size), size, cs, cs)[y][x] == Module(AlignmentColor(cs[i] - 2, cs[j] - 2, x, y), true)
  {
    FinderStageInvariants(size);
    AlignAllDraws(FinderStage(size), size, cs, cs, i, j);
  }

  /** Every pair of table centres other than the three corner pairs gets its
      alignment pattern, which nothing later in the loop covers. */
  lemma AlignStageDraws(v: Version, i: int, j: int)
    requires 0 <= i < |AlignmentCentres(v)| && 0 <= j < |AlignmentCentres(v)|
    requires !Corner(Size(v), AlignmentCentres(v)[i], AlignmentCentres(v)[j])
    ensures forall y, x ::
              InGrid(Size(v), x, y) && InAlignment(AlignmentCentres(v)[i] - 2, AlignmentCentres(v)[j] - 2, x, y) ==>
              AlignStage(v)[y][x] ==
              Module(AlignmentColor(AlignmentCentres(v)[i] - 2, AlignmentCentres(v)[j] - 2, x, y), true)
  {
    AlignmentCentresShape(v);
    AlignmentCentresSpread(v);
    FinderStageFootprintFree(v, i, j);
    AlignedFinderStageDraws(Size(v), AlignmentCentres(v), i, j);
  }

  /** The timing loop and the dark module, run on any matrix the alignment loop
      can leave behind. */
  lemma TimedCells(g: Grid, size: nat)
    requires IsGrid(g, size) && size >= 21
    requires ColouredReserved(g, size) && TimingConsistent(g, size)
    ensures ColouredReserved(DarkModule(Timing(g, size), size), size)
    ensures forall i :: 8 <= i < size - 8 ==>
              DarkModule(Timing(g, size), size)[i][6] == Module(TimingColor(i), true) &&
              DarkModule(Timing(g, size), size)[6][i] == Module(TimingColor(i), true)
    ensures forall y, x :: InGrid(size, x, y) && !(x == 8 && y == size - 8) && (g[y][x].reserved || (x != 6 && y != 6)) ==>
              DarkModule(Timing(g, size), size)[y][x] == g[y][x]
  {
  }

  /** No later stage of the pattern stage touches a finder module. */
  lemma PatternStageKeepsFinders(v: Version)
    ensures forall y, x :: InGrid(Size(v), x, y) && InFinders(Size(v), x, y) ==>
              PatternStage(v)[y][x] == FinderStage(Size(v))[y][x]
  {
    var size := Size(v);
    AlignStageCells(v);
    FinderStageInvariants(size);
    TimedCells(AlignStage(v), size);
  }

  /** The pattern stage keeps the three finders as the finder stage drew them. */
  lemma PatternStageFinders(v: Version)
    ensures forall y, x :: InGrid(Size(v), x, y) && InFinder(-1, -1, x, y) ==>
              PatternStage(v)[y][x] == Module(FinderColor(-1, -1, x, y), true)
    ensures forall y, x :: InGrid(Size(v), x, y) && InFinder(-1, Size(v) - 8, x, y) ==>
              PatternStage(v)[y][x] == Module(FinderColor(-1, Size(v) - 8, x, y), true)
    ensures forall y, x :: InGrid(Size(v), x, y) && InFinder(Size(v) - 8, -1, x, y) ==>
              PatternStage(v)[y][x] == Module(FinderColor(Size(v) - 8, -1, x, y), true)
  {
    PatternStageKeepsFinders(v);
    FinderStageCells(Size(v));
  }

  /** The timing lines alternate between the finders, starting and ending black,
      the dark module is black, and every coloured module is reserved. */
  lemma PatternStageTiming(v: Version)
    ensures ColouredReserved(PatternStage(v), Size(v))
    ensures forall i :: 8 <= i < Size(v) - 8 ==>
              PatternStage(v)[i][6] == Module(TimingColor(i), true) &&
              PatternStage(v)[6][i] == Module(TimingColor(i), true)
    ensures PatternStage(v)[Size(v) - 8][8] == Module(Black, true)
  {
    AlignStageCells(v);
    TimedCells(AlignStage(v), Size(v));
  }

  /** Every module outside the patterns is still free after the pattern stage. */
  lemma PatternStageFree(v: Version)
    ensures forall y, x :: InGrid(Size(v), x, y) && OutsidePatterns(v, x, y) ==> PatternStage(v)[y][x] == Free
  {
    AlignStageCells(v);
    TimedCells(AlignStage(v), Size(v));
  }

  /** The drawn alignment patterns survive the timing loop and the dark module. */
  lemma PatternStageAlignments(v: Version, i: int, j: int)
    requires 0 <= i < |AlignmentCentres(v)| && 0 <= j < |AlignmentCentres(v)|
    requires !Corner(Size(v), AlignmentCentres(v)[i], AlignmentCentres(v)[j])
    ensures forall y, x ::
              InGrid(Size(v), x, y) && InAlignment(AlignmentCentres(v)[i] - 2, AlignmentCentres(v)[j] - 2, x, y) ==>
              PatternStage(v)[y][x] ==
              Module(AlignmentColor(AlignmentCentres(v)[i] - 2, AlignmentCentres(v)[j] - 2, x, y), true)
  {
    AlignStageDraws(v, i, j);
    AlignStageCells(v);
    FootprintClearOfFinders(v, i, j);
    TimedCells(AlignStage(v), Size(v));
  }

  /** One module of a drawn alignment pattern is reserved after the pattern
      stage. */
  lemma PatternStageAlignmentCell(v: Version, i: int, j: int, x: int, y: int)
    requires 0 <= i < |AlignmentCentres(v)| && 0 <= j < |AlignmentCentres(v)|
    requires !Corner(Size(v), AlignmentCentres(v)[i], AlignmentCentres(v)[j])
    requires InGrid(Size(v), x, y) && InAlignment(AlignmentCentres(v)[i] - 2, AlignmentCentres(v)[j] - 2, x, y)
    ensures PatternStage(v)[y][x].reserved
  {
    PatternStageAlignments(v, i, j);
  }

  /** The drawn pair whose footprint holds a module of `InDrawn`. */
  lemma DrawnPair(size: nat, outer: seq<int>, inner: seq<int>, x: int, y: int) returns (i: int, j: int)
    requires InDrawn(size, outer, inner, x, y)
    ensures 0 <= i < |outer| && 0 <= j < |inner| && !Corner(size, outer[i], inner[j])
    ensures InAlignment(outer[i] - 2, inner[j] - 2, x, y)
  {
    i :| 0 <= i < |outer| && -2 <= x - outer[i] <= 2 && NearDrawn(size, outer[i], inner, y);
    j :| 0 <= j < |inner| && !Corner(size, outer[i], inner[j]) && -2 <= y - inner[j] <= 2;
  }

  /** Every module of a drawn alignment pattern is reserved after the pattern
      stage. */
  lemma PatternStageDrawnReserved(v: Version)
    ensures var g, size, cs := PatternStage(v), Size(v), AlignmentCentres(v);
            forall y, x :: InGrid(size, x, y) && InDrawn(size, cs, cs, x, y) ==> g[y][x].reserved
  {
    var g: Grid, size, cs := PatternStage(v), Size(v), AlignmentCentres(v);
    forall y, x | InGrid(size, x, y) && InDrawn(size, cs, cs, x, y)
      ensures g[y][x].reserved
    {
      var i, j := DrawnPair(size, cs, cs, x, y);
      PatternStageAlignmentCell(v, i, j, x, y);
    }
  }

  /** All of row 6 and column 6 is reserved after the pattern stage: the timing
      modules between the finders, and finder modules at both ends. */
  lemma PatternStageLinesReserved(v: Version)
    ensures var g, size := PatternStage(v), Size(v);
            forall y, x :: InGrid(size, x, y) && (x == 6 || y == 6) ==> g[y][x].reserved
  {
    var g: Grid, size := PatternStage(v), Size(v);
    PatternStageFinders(v);
    PatternStageTiming(v);
    forall y, x | InGrid(size, x, y) && (x == 6 || y == 6)
      ensures g[y][x].reserved
    {
      if x == 6 && y < 8 {
        assert InFinder(-1, -1, x, y);
      } else if x == 6 && y >= size - 8 {
        assert InFinder(-1, size - 8, x, y);
      } else if y == 6 && x < 8 {
        assert InFinder(-1, -1, x, y);
      } else if y == 6 && x >= size - 8 {
        assert InFinder(size - 8, -1, x, y);
      }
    }
  }

  /** A module is free after the pattern stage exactly when it lies outside
      every pattern drawn. */
  lemma PatternStageFreeExactly(v: Version)
    ensures var g, size := PatternStage(v), Size(v);
            forall y, x :: InGrid(size, x, y) ==> (!g[y][x].reserved <==> OutsidePatterns(v, x, y))
  {
    PatternStageFree(v);
    PatternStageKeepsFinders(v);
    FinderStageInvariants(Size(v));
    PatternStageTiming(v);
    PatternStageDrawnReserved(v);
    PatternStageLinesReserved(v);
  }

  /** `base` only adds reservations to the pattern stage: colours stay, and a
      module is reserved exactly when it was already, or lies in a format area,
      or (from version 7) in a version area. */
  lemma BaseReserves(v: Version)
    ensures Respects(PatternStage(v), Base(v), Size(v))
    ensures forall y, x :: InGrid(Size(v), x, y) ==>
              Base(v)[y][x].color == PatternStage(v)[y][x].color &&
              Base(v)[y][x].reserved ==
                (PatternStage(v)[y][x].reserved || FormatArea(Size(v), x, y) ||
                 (v >= 7 && VersionArea(Size(v), x, y)))
  {
  }

  /** The modules `base` leaves for data: outside every pattern and every format
      and version area. */
  predicate DataModule(v: Version, x: int, y: int)
  {
    OutsidePatterns(v, x, y) && !FormatArea(Size(v), x, y) && !(v >= 7 && VersionArea(Size(v), x, y))
  }

  /** The three finders of `base` are as the finder stage drew them. */
  lemma BaseFinders(v: Version)
    ensures var g, size := Base(v), Size(v);
            (forall y, x :: InGrid(size, x, y) && InFinder(-1, -1, x, y) ==>
               g[y][x] == Module(FinderColor(-1, -1, x, y), true)) &&
            (forall y, x :: InGrid(size, x, y) && InFinder(-1, size - 8, x, y) ==>
               g[y][x] == Module(FinderColor(-1, size - 8, x, y), true)) &&
            (forall y, x :: InGrid(size, x, y) && InFinder(size - 8, -1, x, y) ==>
               g[y][x] == Module(FinderColor(size - 8, -1, x, y), true))
  {
    PatternStageFinders(v);
    BaseReserves(v);
  }

  /** Every coloured module of `base` is reserved, the timing lines alternate
      between the finders starting black, and the dark module is black. */
  lemma BaseTiming(v: Version)
    ensures var g, size := Base(v), Size(v);
            ColouredReserved(g, size) &&
            (forall i :: 8 <= i < size - 8 ==>
               g[i][6] == Module(TimingColor(i), true) && g[6][i] == Module(TimingColor(i), true)) &&
            g[size - 8][8] == Module(Black, true)
  {
    PatternStageTiming(v);
    BaseReserves(v);
  }

  /** Every pair of table centres other than the three corner pairs carries its
      alignment pattern in `base`. */
  lemma BaseAlignments(v: Version, i: int, j: int)
    requires 0 <= i < |AlignmentCentres(v)| && 0 <= j < |AlignmentCentres(v)|
    requires !Corner(Size(v), AlignmentCentres(v)[i], AlignmentCentres(v)[j])
    ensures forall y, x ::
              InGrid(Size(v), x, y) && InAlignment(AlignmentCentres(v)[i] - 2, AlignmentCentres(v)[j] - 2, x, y) ==>
              Base(v)[y][x] == Module(AlignmentColor(AlignmentCentres(v)[i] - 2, AlignmentCentres(v)[j] - 2, x, y), true)
  {
    PatternStageAlignments(v, i, j);
    BaseReserves(v);
  }
}

=== FILE: penalty.dfy ===
/** `get_penalty_score` of draw.py: the four penalty rules of section 6.8.2 of
    ISO/IEC 18004:2006 as the source scores them. Only black counts as dark;
    an unset module counts as white. */
module Penalty {
  import opened Bits
  import opened Matrix

  /** `cell.color == Color.black`. */
  predicate IsDark(c: Module)
  {
    c.color == Black
  }

  /** The number of points `(x, y)` with `0 <= x < w` and `0 <= y < h` that
      satisfy `p`; an empty range, as from `range(size - 10)` on a small grid,
      counts nothing. */
  function CountRect(w: int, h: int, p: (int, int) -> bool): (n: nat)
    ensures w <= 0 || h <= 0 ==> n == 0
    decreases if w < 0 then 0 else w
  {
    if w <= 0 then 0 else CountRect(w - 1, h, p) + CountColumn(w - 1, h, p)
  }

  /** The number of `y` with `0 <= y < h` and `p(x, y)`. */
  function CountColumn(x: int, h: int, p: (int, int) -> bool): (n: nat)
    ensures n <= if h < 0 then 0 else h
    decreases if h < 0 then 0 else h
  {
    if h <= 0 then 0 else CountColumn(x, h - 1, p) + (if p(x, h - 1) then 1 else 0)
  }

  /** The number of `x` with `0 <= x < w` and `p(x, y)`. */
  function CountRow(y: int, w: int, p: (int, int) -> bool): (n: nat)
    ensures n <= if w < 0 then 0 else w
    decreases if w < 0 then 0 else w
  {
    if w <= 0 then 0 else CountRow(y, w - 1, p) + (if p(w - 1, y) then 1 else 0)
  }

  // ---------------------------------------------------------------------------
  // Rule 1: runs of five or more modules of one colour in a row or column.

  /** Column `i` (flipped `False`) as its modules' darkness, top to bottom. */
  function ColumnLine(g: Grid, size: nat, i: nat): (line: seq<bool>)
    requires IsGrid(g, size) && i < size
    ensures |line| == size && forall j :: 0 <= j < size ==> line[j] == IsDark(g[j][i])
  {
    seq(size, j requires 0 <= j < size => IsDark(g[j][i]))
  }

  /** Row `i` (flipped `True`) as its modules' darkness, left to right. */
  function RowLine(g: Grid, size: nat, i: nat): (line: seq<bool>)
    requires IsGrid(g, size) && i < size
    ensures |line| == size && forall j :: 0 <= j < size ==> line[j] == IsDark(g[i][j])
  {
    seq(size, j requires 0 <= j < size => IsDark(g[i][j]))
  }

  /** The points one step of the scan adds, after the counters are updated. */
  function StepPoints(white: nat, black: nat): nat
  {
    if white == 5 || black == 5 then 3 else if white > 5 || black > 5 then 1 else 0
  }

  /** The inner loop of condition 1 from the given `white` and `black`
      counters: each dark module resets `white` and counts in `black`, each
      other module the reverse. */
  function ScanFrom(line: seq<bool>, white: nat, black: nat): nat
    decreases |line|
  {
    if |line| == 0 then 0
    else
      var white', black' := if line[0] then 0 else white + 1, if line[0] then black + 1 else 0;
      StepPoints(white', black') + ScanFrom(line[1..], white', black')
  }

  /** Condition 1 on one line, both counters starting at 0: every maximal run
      of `L >= 5` modules of one colour scores `3 + (L - 5)`, and nothing else
      scores. */
  function LineScan(line: seq<bool>): (r: nat)
    ensures r == RunPenalty(line)
  {
    ScanIsRunPenalty(line);
    ScanFrom(line, 0, 0)
  }

  /** The points a maximal run of `n` modules earns: 3 for the first five and 1
      for each further module. */
  function RunWeight(n: nat): (w: nat)
    ensures n < 5 ==> w == 0
    ensures n >= 5 ==> w == 3 + (n - 5)
  {
    if n >= 5 then n - 2 else 0
  }

  /** The length of the maximal run that starts the line. */
  function LeadRun(line: seq<bool>): (n: nat)
    requires |line| > 0
    ensures 1 <= n <= |line|
    ensures forall i :: 0 <= i < n ==> line[i] == line[0]
    ensures n < |line| ==> line[n] != line[0]
    decreases |line|
  {
    if |line| == 1 || line[1] != line[0] then 1 else 1 + LeadRun(line[1..])
  }

  /** The reference reading of condition 1: the line cut into maximal runs,
      each scored by its length. */
  function RunPenalty(line: seq<bool>): nat
    decreases |line|
  {
    if |line| == 0 then 0 else RunWeight(LeadRun(line)) + RunPenalty(line[LeadRun(line)..])
  }

  /** The counters after a run of `n` modules of colour `dark`. */
  function RunState(dark: bool, n: nat): (nat, nat)
  {
    if dark then (0, n) else (n, 0)
  }

  /** Scanning a run of `dark` modules that continues one of length `n` earns
      what the longer run is worth beyond the shorter one. */
  lemma {:induction false} ScanRun(line: seq<bool>, n: nat)
    requires |line| > 0
    ensures var L, st, st' := LeadRun(line), RunState(line[0], n), RunState(line[0], n + LeadRun(line));
            ScanFrom(line, st.0, st.1) == RunWeight(n + L) - RunWeight(n) + ScanFrom(line[L..], st'.0, st'.1)
    decreases |line|
  {
    var c := line[0];
    var st1 := RunState(c, n + 1);
    assert StepPoints(st1.0, st1.1) == RunWeight(n + 1) - RunWeight(n);
    if LeadRun(line) > 1 {
      assert line[1..][0] == c;
      assert LeadRun(line[1..]) == LeadRun(line) - 1;
      assert line[1..][LeadRun(line) - 1..] == line[LeadRun(line)..];
      ScanRun(line[1..], n + 1);
    }
  }

  /** A module of the other colour restarts the counters exactly as an empty
      start does. */
  lemma ScanReset(line: seq<bool>, dark: bool, n: nat)
    requires |line| > 0 && line[0] != dark
    ensures ScanFrom(line, RunState(dark, n).0, RunState(dark, n).1) == ScanFrom(line, 0, 0)
  {
  }

  /** The counter scan of condition 1 from fresh counters scores every maximal
      run of `L >= 5` modules `3 + (L - 5)` and nothing else. */
  lemma {:induction false} ScanIsRunPenalty(line: seq<bool>)
    ensures ScanFrom(line, 0, 0) == RunPenalty(line)
    decreases |line|
  {
    if |line| > 0 {
      var L := LeadRun(line);
      assert RunState(line[0], 0) == (0, 0);
      ScanRun(line, 0);
      if L < |line| {
        ScanReset(line[L..], line[0], L);
        ScanIsRunPenalty(line[L..]);
      }
    }
  }

  /** Condition 1 summed over the first `n` columns (flipped `False`) or rows. */
  function LinesScore(g: Grid, size: nat, flipped: bool, n: nat): nat
    requires IsGrid(g, size) && n <= size
  {
    if n == 0 then 0
    else LinesScore(g, size, flipped, n - 1) + LineScan(if flipped then RowLine(g, size, n - 1) else ColumnLine(g, size, n - 1))
  }

  /** Condition 1: every column, then every row. */
  function Condition1(g: Grid, size: nat): nat
    requires IsGrid(g, size)
  {
    LinesScore(g, size, false, size) + LinesScore(g, size, true, size)
  }

  // ---------------------------------------------------------------------------
  // Rule 2: 2x2 blocks of one colour.

  /** The block with top-left module `(x, y)`: every module has the darkness of
      the first. */
  predicate Block(g: Grid, size: nat, x: int, y: int)
    requires IsGrid(g, size)
  {
    0 <= x && x + 1 < size && 0 <= y && y + 1 < size &&
    var first := IsDark(g[y][x]);
    IsDark(g[y][x + 1]) == first && IsDark(g[y + 1][x]) == first && IsDark(g[y + 1][x + 1]) == first
  }

  /** Condition 2: 3 points per monochrome 2x2 block. */
  function Condition2(g: Grid, size: nat): nat
    requires IsGrid(g, size)
  {
    3 * CountRect(size - 1, size - 1, (x: int, y: int) => Block(g, size, x, y))
  }

  // ---------------------------------------------------------------------------
  // Rule 3: the finder-like 1:1:3:1:1 pattern with four light modules on one
  // side.

  /** `CONDITION_3_PATTERN`, dark modules as `true`. */
  const Finder3: seq<bool> := [false, false, false, false, true, false, true, true, true, false, true]

  /** The eleven modules down column `x` from row `y` (`flip_axis` false) or
      along row `y` from column `x` (`flip_axis` true). */
  function Window(g: Grid, size: nat, flipAxis: bool, x: int, y: int): (w: seq<bool>)
    requires IsGrid(g, size)
    requires 0 <= x && 0 <= y && (if flipAxis then x + 11 <= size && y < size else y + 11 <= size && x < size)
    ensures |w| == 11
  {
    seq(11, i requires 0 <= i < 11 => IsDark(if flipAxis then g[y][x + i] else g[y + i][x]))
  }

  /** `matched_forward or matched_backward`: every module agrees with the
      pattern read forwards, or every module with it read backwards. */
  predicate Matched(w: seq<bool>)
    requires |w| == 11
  {
    (forall i :: 0 <= i < 11 ==> w[i] == Finder3[i]) || (forall i :: 0 <= i < 11 ==> w[i] == Finder3[10 - i])
  }

  /** A window scores exactly when it is the pattern or the pattern reversed;
      the pattern is no palindrome, so a window never matches both ways. */
  lemma MatchedIsPattern(w: seq<bool>)
    requires |w| == 11
    ensures Matched(w) <==> w == Finder3 || w == Reverse(Finder3)
    ensures !(w == Finder3 && w == Reverse(Finder3))
  {
    var r := Reverse(Finder3);
    assert r[0] != Finder3[0];
    if w == r {
      assert forall i :: 0 <= i < 11 ==> w[i] == Finder3[10 - i];
    }
  }

  /** Whether the window at `(x, y)` lies inside the loops' ranges and
      scores. */
  predicate Finder3At(g: Grid, size: nat, flipAxis: bool, x: int, y: int)
    requires IsGrid(g, size)
  {
    0 <= x && 0 <= y && (if flipAxis then x + 11 <= size && y < size else y + 11 <= size && x < size) &&
    Matched(Window(g, size, flipAxis, x, y))
  }

  /** The scoring windows down the columns: `x` in `range(size)`, `y` in
      `range(size-10)`. */
  function ColumnWindows(g: Grid, size: nat): nat
    requires IsGrid(g, size)
  {
    CountRect(size, size - 10, (x: int, y: int) => Finder3At(g, size, false, x, y))
  }

  /** The scoring windows along the rows: `x` in `range(size-10)`, `y` in
      `range(size)`. */
  function RowWindows(g: Grid, size: nat): nat
    requires IsGrid(g, size)
  {
    CountRect(size - 10, size, (x: int, y: int) => Finder3At(g, size, true, x, y))
  }

  /** Condition 3: 40 points per scoring window, columns first. */
  function Condition3(g: Grid, size: nat): nat
    requires IsGrid(g, size)
  {
    40 * ColumnWindows(g, size) + 40 * RowWindows(g, size)
  }

  // ---------------------------------------------------------------------------
  // Rule 4: the proportion of dark modules.

  /** `dark_count`. */
  function DarkCount(g: Grid, size: nat): nat
    requires IsGrid(g, size)
  {
    CountRect(size, size, (x: int, y: int) => 0 <= x < size && 0 <= y < size && IsDark(g[y][x]))
  }

  /** The balance term from `dark` dark modules among `total`, with
      `floor` and `ceil` of `20 * dark / total` taken exactly: 10 points per
      whole 5% step between the dark share and 50%, rounded towards 50%, so
      at most 100, and 0 exactly when the share lies strictly between 45% and
      55%. */
  function Balance(dark: nat, total: nat): (r: nat)
    requires total > 0
    ensures r % 10 == 0
    ensures dark <= total ==> r <= 100
    ensures dark <= total ==> (r == 0 <==> 9 * total < 20 * dark < 11 * total)
  {
    var steps := HalfSteps(20 * dark, total);
    TensAreWhole(steps);
    steps * 10
  }

  lemma TensAreWhole(n: nat)
    ensures (n * 10) % 10 == 0
  {
    assert n * 10 == 0 + 10 * n;
  }

  /** The whole 5% steps between `d / t` twentieths and one half, taking the
      nearer of the floor and the ceiling of `d / t`. */
  function HalfSteps(d: nat, t: nat): (s: nat)
    requires t > 0
    ensures d <= 20 * t ==> s <= 10
    ensures d <= 20 * t ==> (s == 0 <==> 9 * t < d < 11 * t)
  {
    var f := d / t;
    var c := (d + t - 1) / t;
    RoundedSteps(d, t);
    Min(Abs(f * 5 - 50) / 5, Abs(c * 5 - 50) / 5)
  }

  /** The nearer of the floor `f` and the ceiling `c` of `d / t` is at most ten
      steps of five from 50, and none exactly when `d / t` lies strictly
      between 9 and 11. */
  lemma RoundedSteps(d: nat, t: nat)
    requires t > 0
    ensures var f, c := d / t, (d + t - 1) / t;
            && Min(Abs(f * 5 - 50) / 5, Abs(c * 5 - 50) / 5) >= 0
            && (d <= 20 * t ==> Min(Abs(f * 5 - 50) / 5, Abs(c * 5 - 50) / 5) <= 10)
            && (d <= 20 * t ==> (Min(Abs(f * 5 - 50) / 5, Abs(c * 5 - 50) / 5) == 0 <==> 9 * t < d < 11 * t))
  {
    var f, c := d / t, (d + t - 1) / t;
    FloorCeiling(d, t);
    assert 0 <= f;
    assert 0 <= c;
    assert f * t <= d < (f + 1) * t;
    assert (c - 1) * t < d <= c * t;
    NearestSteps(d, t, f, c);
  }

  lemma NearestSteps(d: nat, t: nat, f: int, c: int)
    requires t > 0 && 0 <= f && 0 <= c
    requires f * t <= d < (f + 1) * t
    requires (c - 1) * t < d <= c * t
    ensures Min(Abs(f * 5 - 50) / 5, Abs(c * 5 - 50) / 5) >= 0
    ensures d <= 20 * t ==> Min(Abs(f * 5 - 50) / 5, Abs(c * 5 - 50) / 5) <= 10
    ensures d <= 20 * t ==> (Min(Abs(f * 5 - 50) / 5, Abs(c * 5 - 50) / 5) == 0 <==> 9 * t < d < 11 * t)
  {
    StepsFromHalf(f);
    StepsFromHalf(c);
    if d <= 20 * t {
      TwentiethsRange(d, t, f, c);
    }
  }

  /** Multiplying by a positive number keeps strict order. */
  lemma MulOrder(a: int, b: int, t: int)
    requires t > 0
    ensures a < b <==> a * t < b * t
  {
    if a < b {
      assert b * t - a * t == (b - a) * t;
    } else {
      assert a * t - b * t == (a - b) * t;
    }
  }

  /** The floor `f` and ceiling `c` of `d / t` lie in `0..20` when `d` is at
      most `20 * t`, and one of them is 10 exactly when `9 * t < d < 11 * t`. */
  lemma TwentiethsRange(d: nat, t: nat, f: int, c: int)
    requires t > 0 && d <= 20 * t && 0 <= f && 0 <= c
    requires f * t <= d < (f + 1) * t
    requires (c - 1) * t < d <= c * t
    ensures f <= 20 && c <= 20
    ensures f == 10 || c == 10 <==> 9 * t < d < 11 * t
  {
    MulOrder(20, f, t);
    MulOrder(c - 1, 20, t);
    MulOrder(f, 11, t);
    MulOrder(10, f + 1, t);
    MulOrder(c - 1, 10, t);
    MulOrder(9, c, t);
  }

  /** Floor and ceiling of `d / t` by Euclidean division. */
  lemma FloorCeiling(d: nat, t: nat)
    requires t > 0
    ensures d / t * t <= d < (d / t + 1) * t
    ensures ((d + t - 1) / t - 1) * t < d <= (d + t - 1) / t * t
  {
  }

  /** One rounding of the dark share, five per cent at a time, measured from
      50%. */
  lemma StepsFromHalf(f: int)
    ensures Abs(f * 5 - 50) / 5 == Abs(f - 10)
  {
  }

  /** Condition 4 on a grid of `size * size` modules. */
  function Condition4(g: Grid, size: nat): nat
    requires IsGrid(g, size) && size > 0
  {
    Balance(DarkCount(g, size), size * size)
  }

  /** `get_penalty_score`. A grid with no modules is left out: the source
      divides by the module count. */
  function PenaltyScore(g: Grid, size: nat): nat
    requires IsGrid(g, size) && size > 0
  {
    Condition1(g, size) + Condition2(g, size) + Condition3(g, size) + Condition4(g, size)
  }

  // ---------------------------------------------------------------------------
  // The score does not depend on the symbol's orientation.

  /** The grid mirrored about its main diagonal: module `(x, y)` becomes
      module `(y, x)`. */
  function Transpose(g: Grid, size: nat): (t: Grid)
    requires IsGrid(g, size)
    ensures IsGrid(t, size)
    ensures forall y, x :: InGrid(size, x, y) ==> t[y][x] == g[x][y]
  {
    seq(size, y requires 0 <= y < size => seq(size, x requires 0 <= x < size => g[x][y]))
  }

  /** A column count read with the coordinates swapped is a row count. */
  lemma {:induction false} CountColumnRow(x: int, h: int, p: (int, int) -> bool, q: (int, int) -> bool)
    requires forall y :: 0 <= y < h ==> p(x, y) == q(y, x)
    ensures CountColumn(x, h, p) == CountRow(x, h, q)
    decreases if h < 0 then 0 else h
  {
    if h > 0 {
      CountColumnRow(x, h - 1, p, q);
    }
  }

  /** A rectangle can be counted with its last row split off. */
  lemma {:induction false} CountRectLastRow(w: int, h: int, p: (int, int) -> bool)
    requires h > 0
    ensures CountRect(w, h, p) == CountRect(w, h - 1, p) + CountRow(h - 1, w, p)
    decreases if w < 0 then 0 else w
  {
    if w > 0 {
      CountRectLastRow(w - 1, h, p);
    }
  }

  /** Counting a `w` by `h` rectangle column by column is counting the
      transposed `h` by `w` rectangle. */
  lemma {:induction false} CountRectTranspose(w: int, h: int, p: (int, int) -> bool, q: (int, int) -> bool)
    requires forall x, y :: 0 <= x < w && 0 <= y < h ==> p(x, y) == q(y, x)
    ensures CountRect(w, h, p) == CountRect(h, w, q)
    decreases if w < 0 then 0 else w
  {
    if w > 0 && h > 0 {
      CountRectTranspose(w - 1, h, p, q);
      CountColumnRow(w - 1, h, p, q);
      CountRectLastRow(h, w, q);
    }
  }

  /** Condition 1 of a transposed grid swaps its column pass with its row
      pass. */
  lemma {:induction false} LinesScoreTranspose(g: Grid, size: nat, flipped: bool, n: nat)
    requires IsGrid(g, size) && n <= size
    ensures LinesScore(Transpose(g, size), size, flipped, n) == LinesScore(g, size, !flipped, n)
  {
    if n > 0 {
      var t := Transpose(g, size);
      assert RowLine(t, size, n - 1) == ColumnLine(g, size, n - 1);
      assert ColumnLine(t, size, n - 1) == RowLine(g, size, n - 1);
      LinesScoreTranspose(g, size, flipped, n - 1);
    }
  }

  /** The 2x2 block at `(x, y)` of the transposed grid is the block at
      `(y, x)` of the grid. */
  lemma BlockTranspose(g: Grid, size: nat, x: int, y: int)
    requires IsGrid(g, size)
    ensures Block(Transpose(g, size), size, x, y) == Block(g, size, y, x)
  {
  }

  /** A column window of the transposed grid is a row window of the grid. */
  lemma ColumnWindowTranspose(g: Grid, size: nat, x: int, y: int)
    requires IsGrid(g, size)
    ensures Finder3At(Transpose(g, size), size, false, x, y) == Finder3At(g, size, true, y, x)
  {
    if 0 <= x && 0 <= y && y + 11 <= size && x < size {
      assert Window(Transpose(g, size), size, false, x, y) == Window(g, size, true, y, x);
    }
  }

  /** A row window of the transposed grid is a column window of the grid. */
  lemma RowWindowTranspose(g: Grid, size: nat, x: int, y: int)
    requires IsGrid(g, size)
    ensures Finder3At(Transpose(g, size), size, true, x, y) == Finder3At(g, size, false, y, x)
  {
    if 0 <= x && 0 <= y && x + 11 <= size && y < size {
      assert Window(Transpose(g, size), size, true, x, y) == Window(g, size, false, y, x);
    }
  }

  /** Column windows of `t` that are the row windows of `g` read across
      count the same. */
  lemma ColumnWindowsSwap(t: Grid, g: Grid, size: nat)
    requires IsGrid(t, size) && IsGrid(g, size)
    requires forall x, y :: 0 <= x < size && 0 <= y < size - 10 ==>
               Finder3At(t, size, false, x, y) == Finder3At(g, size, true, y, x)
    ensures ColumnWindows(t, size) == RowWindows(g, size)
  {
    var p := (x: int, y: int) => Finder3At(t, size, false, x, y);
    var q := (x: int, y: int) => Finder3At(g, size, true, x, y);
    calc {
      ColumnWindows(t, size);
      CountRect(size, size - 10, p);
      { CountRectTranspose(size, size - 10, p, q); }
      CountRect(size - 10, size, q);
      RowWindows(g, size);
    }
  }

  lemma RowWindowsSwap(t: Grid, g: Grid, size: nat)
    requires IsGrid(t, size) && IsGrid(g, size)
    requires forall x, y :: 0 <= x < size - 10 && 0 <= y < size ==>
               Finder3At(t, size, true, x, y) == Finder3At(g, size, false, y, x)
    ensures RowWindows(t, size) == ColumnWindows(g, size)
  {
    var p := (x: int, y: int) => Finder3At(t, size, true, x, y);
    var q := (x: int, y: int) => Finder3At(g, size, false, x, y);
    calc {
      RowWindows(t, size);
      CountRect(size - 10, size, p);
      { CountRectTranspose(size - 10, size, p, q); }
      CountRect(size, size - 10, q);
      ColumnWindows(g, size);
    }
  }

  lemma ColumnWindowsTranspose(g: Grid, size: nat)
    requires IsGrid(g, size)
    ensures ColumnWindows(Transpose(g, size), size) == RowWindows(g, size)
  {
    var t := Transpose(g, size);
    forall x, y | 0 <= x < size && 0 <= y < size - 10
      ensures Finder3At(t, size, false, x, y) == Finder3At(g, size, true, y, x)
    {
      ColumnWindowTranspose(g, size, x, y);
    }
    ColumnWindowsSwap(t, g, size);
  }

  lemma RowWindowsTranspose(g: Grid, size: nat)
    requires IsGrid(g, size)
    ensures RowWindows(Transpose(g, size), size) == ColumnWindows(g, size)
  {
    var t := Transpose(g, size);
    forall x, y | 0 <= x < size - 10 && 0 <= y < size
      ensures Finder3At(t, size, true, x, y) == Finder3At(g, size, false, y, x)
    {
      RowWindowTranspose(g, size, x, y);
    }
    RowWindowsSwap(t, g, size);
  }

  lemma Condition2Transpose(g: Grid, size: nat)
    requires IsGrid(g, size)
    ensures Condition2(Transpose(g, size), size) == Condition2(g, size)
  {
    var t := Transpose(g, size);
    forall x, y | 0 <= x < size - 1 && 0 <= y < size - 1
      ensures Block(t, size, x, y) == Block(g, size, y, x)
    {
      BlockTranspose(g, size, x, y);
    }
    CountRectTranspose(size - 1, size - 1, (x: int, y: int) => Block(t, size, x, y), (x: int, y: int) => Block(g, size, x, y));
  }

  lemma DarkCountTranspose(g: Grid, size: nat)
    requires IsGrid(g, size)
    ensures DarkCount(Transpose(g, size), size) == DarkCount(g, size)
  {
    var t := Transpose(g, size);
    CountRectTranspose(size, size, (x: int, y: int) => 0 <= x < size && 0 <= y < size && IsDark(t[y][x]),
                       (x: int, y: int) => 0 <= x < size && 0 <= y < size && IsDark(g[y][x]));
  }

  /** The penalty score of the transposed symbol is that of the symbol: no
      rule prefers rows to columns. */
  lemma PenaltyTranspose(g: Grid, size: nat)
    requires IsGrid(g, size) && size > 0
    ensures PenaltyScore(Transpose(g, size), size) == PenaltyScore(g, size)
  {
    LinesScoreTranspose(g, size, false, size);
    LinesScoreTranspose(g, size, true, size);
    Condition2Transpose(g, size);
    ColumnWindowsTranspose(g, size);
    RowWindowsTranspose(g, size);
    DarkCountTranspose(g, size);
  }
}

=== FILE: placement.dfy ===
/** `insert_data` of draw.py: the data bits written into the free modules along
    the two-column zigzag of section 6.7.3 of ISO/IEC 18004:2006. The cursor
    moves exactly as the source moves it; the closed-form path it follows is
    `Path`, and `Fill` writes a bit sequence along any path. */
module Placement {
  import opened Errors
  import opened Matrix

  /** A module position, column first. */
  type Pos = (int, int)

  /** The loop state of `insert_data`: the module about to be visited, the
      vertical direction and whether it is the right-hand module of its pair. */
  datatype Cursor = Cursor(x: int, y: int, upward: bool, first: bool)

  /** Lines 258-264 of the move: stop when the cursor has left the symbol on
      the left, and step over the vertical timing pattern. */
  function Land(x: int, y: int, upward: bool, first: bool): Option<Cursor>
  {
    if x < 0 then None else Some(Cursor(if x == 6 then 5 else x, y, upward, first))
  }

  /** One move of the cursor: left within the pair, or right and one row on;
      past the top or bottom edge, turn round into the next pair. `None` is
      the early return when no column is left. */
  function Step(size: nat, c: Cursor): (r: Option<Cursor>)
    ensures r.Some? ==> r.value.first == !c.first && 0 <= r.value.x && r.value.x != 6
    ensures 0 <= c.y < size && r.Some? ==> 0 <= r.value.y < size
    ensures c.first && 0 <= c.y < size ==>
              (r.Some? <==> c.x >= 1) && (r.Some? ==> r.value.y == c.y && r.value.upward == c.upward)
    ensures !c.first && c.upward && c.y == 0 && r.Some? ==> r.value.y == 0 && !r.value.upward
    ensures !c.first && !c.upward && c.y == size - 1 && r.Some? ==> r.value.y == size - 1 && r.value.upward
  {
    var x := if c.first then c.x - 1 else c.x + 1;
    var y := if c.first then c.y else if c.upward then c.y - 1 else c.y + 1;
    if y < 0 then Land(x - 2, 0, false, !c.first)
    else if y >= size then Land(x - 2, size - 1, true, !c.first)
    else Land(x, y, c.upward, !c.first)
  }

  // ---------------------------------------------------------------------------
  // The closed-form path.

  /** The right-hand column of the pair after the pair whose right-hand column
      is `r`; column 6 is replaced by 5. */
  function NextPair(r: int): int
  {
    if r - 2 == 6 then 5 else r - 2
  }

  /** The right-hand columns a symbol of odd side `size >= 9` visits:
      `size-1, size-3, ..., 8`, then `5, 3, 1`. */
  predicate PairColumn(size: nat, r: int)
  {
    (r % 2 == 0 && 8 <= r < size) || r == 5 || r == 3 || r == 1
  }

  /** The `2 * size` modules of one pair, right module first, bottom to top
      when `up` and top to bottom otherwise. */
  function PairPath(size: nat, r: int, up: bool): (ps: seq<Pos>)
    ensures |ps| == 2 * size
    ensures forall t :: 0 <= t < 2 * size ==> ps[t] == (r - t % 2, if up then size - 1 - t / 2 else t / 2)
  {
    seq(2 * size, t requires 0 <= t < 2 * size => (r - t % 2, if up then size - 1 - t / 2 else t / 2))
  }

  /** The pairs from right-hand column `r` leftwards, alternating direction. */
  function PathFrom(size: nat, r: int, up: bool): seq<Pos>
    decreases if r < 0 then 0 else r + 1
  {
    if r < 0 then [] else PairPath(size, r, up) + PathFrom(size, NextPair(r), !up)
  }

  /** The whole traversal: from the bottom-right module, first pair upwards. */
  function Path(size: nat): seq<Pos>
  {
    PathFrom(size, size - 1, true)
  }

  /** The cursor at step `t` of the pair with right-hand column `r`. */
  function CursorAt(size: nat, r: int, up: bool, t: int): Cursor
  {
    Cursor(r - t % 2, if up then size - 1 - t / 2 else t / 2, up, t % 2 == 0)
  }

  /** The source's cursor follows the closed-form path: within a pair it moves
      to the next module of the pair, and after the last module of a pair it
      lands on the first module of the next pair, or stops after column 0. */
  lemma StepAlongPath(size: nat, r: int, up: bool, t: int)
    requires size >= 9 && size % 2 == 1 && PairColumn(size, r) && 0 <= t < 2 * size
    ensures t + 1 < 2 * size ==> Step(size, CursorAt(size, r, up, t)) == Some(CursorAt(size, r, up, t + 1))
    ensures t + 1 == 2 * size && NextPair(r) < 0 ==> Step(size, CursorAt(size, r, up, t)) == None
    ensures t + 1 == 2 * size && NextPair(r) >= 0 ==>
              PairColumn(size, NextPair(r)) &&
              Step(size, CursorAt(size, r, up, t)) == Some(CursorAt(size, NextPair(r), !up, 0))
  {
    if t % 2 == 1 {
      assert (t + 1) / 2 == t / 2 + 1;
    }
  }

  /** A pair holds exactly its two columns, every row once. */
  lemma PairPathCells(size: nat, r: int, up: bool, x: int, y: int)
    ensures (x, y) in PairPath(size, r, up) <==> (x == r || x == r - 1) && 0 <= y < size
  {
    var ps := PairPath(size, r, up);
    if (x == r || x == r - 1) && 0 <= y < size {
      var row := if up then size - 1 - y else y;
      var t := 2 * row + (r - x);
      assert t % 2 == r - x && t / 2 == row;
      assert ps[t] == (x, y);
    }
  }

  /** The pairs from column `r` on visit every column from `r` down to 0
      except the timing column 6, every row of each. */
  lemma {:induction false} PathFromCells(size: nat, r: int, up: bool, x: int, y: int)
    requires size >= 9 && size % 2 == 1 && (r < 0 || PairColumn(size, r))
    ensures (x, y) in PathFrom(size, r, up) <==> 0 <= x <= r && x != 6 && 0 <= y < size
    decreases if r < 0 then 0 else r + 1
  {
    if r >= 0 {
      PairPathCells(size, r, up, x, y);
      PathFromCells(size, NextPair(r), !up, x, y);
    }
  }

  /** The traversal visits every module of the symbol outside column 6. */
  lemma PathCells(size: nat, x: int, y: int)
    requires size >= 9 && size % 2 == 1
    ensures (x, y) in Path(size) <==> InGrid(size, x, y) && x != 6
  {
    PathFromCells(size, size - 1, true, x, y);
  }

  predicate Distinct<T(==)>(s: seq<T>)
  {
    forall i, j :: 0 <= i < j < |s| ==> s[i] != s[j]
  }

  /** No module of a pair comes twice. */
  lemma PairPathDistinct(size: nat, r: int, up: bool)
    ensures Distinct(PairPath(size, r, up))
  {
    var ps := PairPath(size, r, up);
    forall i, j | 0 <= i < j < |ps|
      ensures ps[i] != ps[j]
    {
      if i % 2 == j % 2 {
        assert i / 2 != j / 2;
      }
    }
  }

  /** Two sequences without repeats and without a common element concatenate
      to one without repeats. */
  lemma DistinctConcat<T>(a: seq<T>, b: seq<T>)
    requires Distinct(a) && Distinct(b)
    requires forall i, j :: 0 <= i < |a| && 0 <= j < |b| ==> a[i] != b[j]
    ensures Distinct(a + b)
  {
    var c := a + b;
    forall i, j | 0 <= i < j < |c|
      ensures c[i] != c[j]
    {
      if j < |a| {
        assert c[i] == a[i] && c[j] == a[j];
      } else if i >= |a| {
        assert c[i] == b[i - |a|] && c[j] == b[j - |a|];
      } else {
        assert c[i] == a[i] && c[j] == b[j - |a|];
      }
    }
  }

  /** The pairs from column `r` on visit no column right of `r`. */
  lemma {:induction false} PathFromLeftOf(size: nat, r: int, up: bool)
    ensures forall i :: 0 <= i < |PathFrom(size, r, up)| ==> PathFrom(size, r, up)[i].0 <= r
    decreases if r < 0 then 0 else r + 1
  {
    if r >= 0 {
      PathFromLeftOf(size, NextPair(r), !up);
      var a, b := PairPath(size, r, up), PathFrom(size, NextPair(r), !up);
      var c: seq<Pos> := a + b;
      forall i | 0 <= i < |c|
        ensures c[i].0 <= r
      {
        if i >= |a| {
          assert c[i] == b[i - |a|];
        }
      }
    }
  }

  /** The traversal never visits a module twice. */
  lemma {:induction false} PathFromDistinct(size: nat, r: int, up: bool)
    ensures Distinct(PathFrom(size, r, up))
    decreases if r < 0 then 0 else r + 1
  {
    if r >= 0 {
      var a, b := PairPath(size, r, up), PathFrom(size, NextPair(r), !up);
      PairPathDistinct(size, r, up);
      PathFromDistinct(size, NextPair(r), !up);
      PathFromLeftOf(size, NextPair(r), !up);
      DistinctConcat(a, b);
    }
  }

  lemma PathDistinct(size: nat)
    ensures Distinct(Path(size))
  {
    PathFromDistinct(size, size - 1, true);
  }

  // ---------------------------------------------------------------------------
  // Writing bits along a path.

  predicate AllInGrid(size: nat, ps: seq<Pos>)
  {
    forall i :: 0 <= i < |ps| ==> InGrid(size, ps[i].0, ps[i].1)
  }

  /** `Color.black if bit else Color.white`. */
  function DataColor(bit: bool): Color
  {
    if bit then Black else White
  }

  /** `qr[y][x].color = Color.black if bit else Color.white`. */
  function Paint(g: Grid, size: nat, x: int, y: int, bit: bool): (r: Grid)
    requires IsGrid(g, size) && InGrid(size, x, y)
    ensures IsGrid(r, size)
  {
    g[y := g[y][x := g[y][x].(color := DataColor(bit))]]
  }

  /** A module inside the symbol that no pattern has reserved. */
  predicate FreeAt(g: Grid, size: nat, p: Pos)
    requires IsGrid(g, size)
  {
    InGrid(size, p.0, p.1) && !g[p.1][p.0].reserved
  }

  /** Bits written one per free module along `path`, in order; reserved
      modules, and positions off the symbol, are passed over without using a
      bit, and writing stops when the bits or the path run out. */
  function Fill(g: Grid, size: nat, path: seq<Pos>, data: seq<bool>): (r: Grid)
    requires IsGrid(g, size)
    ensures IsGrid(r, size)
    ensures forall y, x :: InGrid(size, x, y) ==> r[y][x].reserved == g[y][x].reserved
    ensures Respects(g, r, size)
    decreases |path|
  {
    if |path| == 0 || |data| == 0 then g
    else
      if !FreeAt(g, size, path[0]) then Fill(g, size, path[1..], data)
      else Fill(Paint(g, size, path[0].0, path[0].1, data[0]), size, path[1..], data[1..])
  }

  /** The number of free modules among `ps`. */
  function FreeCount(g: Grid, size: nat, ps: seq<Pos>): nat
    requires IsGrid(g, size)
  {
    if |ps| == 0 then 0 else (if FreeAt(g, size, ps[0]) then 1 else 0) + FreeCount(g, size, ps[1..])
  }

  /** A module the path does not reach keeps its value. */
  lemma {:induction false} FillOutside(g: Grid, size: nat, path: seq<Pos>, data: seq<bool>, x: int, y: int)
    requires IsGrid(g, size) && InGrid(size, x, y) && (x, y) !in path
    ensures Fill(g, size, path, data)[y][x] == g[y][x]
    decreases |path|
  {
    if |path| > 0 && |data| > 0 {
      var px, py := path[0].0, path[0].1;
      assert (x, y) != path[0];
      if !FreeAt(g, size, path[0]) {
        FillOutside(g, size, path[1..], data, x, y);
      } else {
        FillOutside(Paint(g, size, px, py, data[0]), size, path[1..], data[1..], x, y);
      }
    }
  }

  /** Along a path without repeats, the free module at step `i` gets bit `k`,
      `k` being the number of free modules before it, if there is such a bit,
      and keeps its value otherwise. */
  lemma {:induction false} FillPlaces(g: Grid, size: nat, path: seq<Pos>, data: seq<bool>, i: int)
    requires IsGrid(g, size) && Distinct(path)
    requires 0 <= i < |path| && FreeAt(g, size, path[i])
    ensures var x, y, k := path[i].0, path[i].1, FreeCount(g, size, path[..i]);
            Fill(g, size, path, data)[y][x] == if k < |data| then g[y][x].(color := DataColor(data[k])) else g[y][x]
    decreases |path|
  {
    var px, py := path[0].0, path[0].1;
    var x, y := path[i].0, path[i].1;
    if |data| == 0 {
    } else if i == 0 {
      assert FreeCount(g, size, path[..0]) == 0;
      var h := Paint(g, size, px, py, data[0]);
      assert path[0] !in path[1..] by {
        forall j | 0 <= j < |path[1..]|
          ensures path[1..][j] != path[0]
        {
          assert path[1..][j] == path[j + 1];
        }
      }
      FillOutside(h, size, path[1..], data[1..], x, y);
    } else {
      assert path[..i][0] == path[0] && path[..i][1..] == path[1..][..i - 1];
      assert path[1..][i - 1] == path[i];
      assert Distinct(path[1..]) by {
        forall a, b | 0 <= a < b < |path[1..]|
          ensures path[1..][a] != path[1..][b]
        {
          assert path[1..][a] == path[a + 1] && path[1..][b] == path[b + 1];
        }
      }
      assert path[0] != path[i];
      if !FreeAt(g, size, path[0]) {
        FillPlaces(g, size, path[1..], data, i - 1);
      } else {
        var h := Paint(g, size, px, py, data[0]);
        FreeCountSameFlags(g, h, size, path[1..][..i - 1]);
        FillPlaces(h, size, path[1..], data[1..], i - 1);
      }
    }
  }

  /** Counting free modules looks only at the reserved flags. */
  lemma {:induction false} FreeCountSameFlags(g: Grid, h: Grid, size: nat, ps: seq<Pos>)
    requires IsGrid(g, size) && IsGrid(h, size)
    requires forall y, x :: InGrid(size, x, y) ==> g[y][x].reserved == h[y][x].reserved
    ensures FreeCount(g, size, ps) == FreeCount(h, size, ps)
    decreases |ps|
  {
    if |ps| > 0 {
      FreeCountSameFlags(g, h, size, ps[1..]);
    }
  }

  /** Every module of the traversal lies in the symbol. */
  lemma PathInGrid(size: nat)
    requires size >= 9 && size % 2 == 1
    ensures AllInGrid(size, Path(size))
  {
    var ps := Path(size);
    forall i | 0 <= i < |ps|
      ensures InGrid(size, ps[i].0, ps[i].1)
    {
      PathCells(size, ps[i].0, ps[i].1);
    }
  }

  /** What remains of the traversal from step `t` of a pair: the module at
      that step first, then what remains after it. */
  lemma RestAfterStep(size: nat, r: int, up: bool, t: int)
    requires 0 <= t < 2 * size
    ensures var rest := PairPath(size, r, up)[t..] + PathFrom(size, NextPair(r), !up);
            && |rest| > 0 && rest[0] == (r - t % 2, if up then size - 1 - t / 2 else t / 2)
            && (t + 1 < 2 * size ==> rest[1..] == PairPath(size, r, up)[t + 1..] + PathFrom(size, NextPair(r), !up))
            && (t + 1 == 2 * size ==> rest[1..] == PathFrom(size, NextPair(r), !up))
  {
  }

  /** Along the traversal, the free module at step `i` gets bit `k` of the
      data, `k` being the number of free modules the traversal passed before
      it, and keeps its value when the data has fewer than `k + 1` bits. */
  lemma TraversalPlaces(g: Grid, size: nat, data: seq<bool>, i: int)
    requires IsGrid(g, size) && size >= 9 && size % 2 == 1
    requires 0 <= i < |Path(size)| && FreeAt(g, size, Path(size)[i])
    ensures var x, y, k := Path(size)[i].0, Path(size)[i].1, FreeCount(g, size, Path(size)[..i]);
            Fill(g, size, Path(size), data)[y][x] == if k < |data| then g[y][x].(color := DataColor(data[k])) else g[y][x]
  {
    PathDistinct(size);
    FillPlaces(g, size, Path(size), data, i);
  }

  /** The timing column is never written. */
  lemma TraversalSkipsTimingColumn(g: Grid, size: nat, data: seq<bool>, y: int)
    requires IsGrid(g, size) && size >= 9 && size % 2 == 1 && 0 <= y < size
    ensures Fill(g, size, Path(size), data)[y][6] == g[y][6]
  {
    PathCells(size, 6, y);
    FillOutside(g, size, Path(size), data, 6, y);
  }

  // ---------------------------------------------------------------------------
  // The loop.

  /** The cursor stands at step `t` of the pair with right-hand column
      `column`, and `rest` is the traversal from there on. */
  ghost predicate OnPath(size: nat, cursor: Cursor, column: int, t: int, rest: seq<Pos>)
  {
    size >= 9 && size % 2 == 1 && PairColumn(size, column) && 0 <= t < 2 * size &&
    cursor == CursorAt(size, column, cursor.upward, t) &&
    rest == PairPath(size, column, cursor.upward)[t..] + PathFrom(size, NextPair(column), !cursor.upward)
  }

  /** The module under the cursor is the next of the traversal and lies in the
      symbol; the cursor's move either ends the loop exactly when the
      traversal ends or keeps it on the traversal, one module on. */
  lemma Advance(size: nat, cursor: Cursor, column: int, t: int, rest: seq<Pos>) returns (column': int, t': int)
    requires OnPath(size, cursor, column, t, rest)
    ensures |rest| > 0 && rest[0] == (cursor.x, cursor.y) && InGrid(size, cursor.x, cursor.y)
    ensures Step(size, cursor).None? ==> rest[1..] == []
    ensures Step(size, cursor).Some? ==> OnPath(size, Step(size, cursor).value, column', t', rest[1..])
  {
    RestAfterStep(size, column, cursor.upward, t);
    StepAlongPath(size, column, cursor.upward, t);
    if t + 1 < 2 * size {
      column', t' := column, t + 1;
    } else {
      column', t' := NextPair(column), 0;
    }
  }

  /** `insert_data(qr, data)` on a symbol of odd side `size >= 9`, which every
      version's `base` is: the cursor loop of the source, writing the next bit
      into each free module it visits until the bits run out or the cursor
      leaves the symbol. It writes along the closed-form path. */
  method InsertData(g: Grid, size: nat, data: seq<bool>) returns (r: Grid)
    requires IsGrid(g, size) && size >= 9 && size % 2 == 1
    ensures IsGrid(r, size)
    ensures r == Fill(g, size, Path(size), data)
  {
    r := g;
    var cursor := Cursor(size - 1, size - 1, true, true);
    var bits := data;
    ghost var column, t := size - 1, 0;
    ghost var rest := Path(size);
    assert OnPath(size, cursor, column, t, rest);
    while |bits| > 0
      invariant IsGrid(r, size) && OnPath(size, cursor, column, t, rest)
      invariant Fill(r, size, rest, bits) == Fill(g, size, Path(size), data)
      decreases |rest|
    {
      ghost var column', t' := Advance(size, cursor, column, t, rest);
      if !r[cursor.y][cursor.x].reserved {
        r := Paint(r, size, cursor.x, cursor.y, bits[0]);
        bits := bits[1..];
      }
      var next := Step(size, cursor);
      rest := rest[1..];
      if next.None? {
        return;
      }
      cursor := next.value;
      column, t := column', t';
    }
  }
}

=== FILE: polynomials.dfy ===
/** Python's bitwise operators on non-negative integers, and the reading of an
    integer as a polynomial over GF(2) (bit `i` the coefficient of `x^i`) that
    draw.py relies on when it computes the BCH code of the format information:
    `^` adds two polynomials, `<< k` multiplies by `x^k`. */
module Polynomials {
  import opened Bits

  /** `a ^ b`. */
  function Xor(a: nat, b: nat): nat
    decreases a + b
  {
    if a == 0 && b == 0 then 0
    else 2 * Xor(a / 2, b / 2) + (if a % 2 != b % 2 then 1 else 0)
  }

  /** `a | b`. */
  function Or(a: nat, b: nat): nat
    decreases a + b
  {
    if a == 0 && b == 0 then 0
    else 2 * Or(a / 2, b / 2) + (if a % 2 == 1 || b % 2 == 1 then 1 else 0)
  }

  /** `a << k`. */
  function Shl(a: nat, k: nat): nat
  {
    if k == 0 then a else 2 * Shl(a, k - 1)
  }

  /** `a >> k`. */
  function Shr(a: nat, k: nat): nat
  {
    if k == 0 then a else Shr(a / 2, k - 1)
  }

  /** The product of the polynomials `q` and `g` over GF(2): the sum of `g`
      shifted under every set bit of `q`. */
  function ClMul(q: nat, g: nat): nat
  {
    if q == 0 then 0 else Xor(if q % 2 == 1 then g else 0, 2 * ClMul(q / 2, g))
  }

  /** `w` is a multiple of the polynomial `g`. */
  ghost predicate Divisible(w: nat, g: nat)
  {
    exists q: nat :: ClMul(q, g) == w
  }

  // ----------------------------------------------------------------- xor

  /** Both operands' low bits decide the low bit; the rest is the xor of the
      halves. The definition's first case is an instance of this. */
  lemma XorUnfold(a: nat, b: nat)
    ensures Xor(a, b) / 2 == Xor(a / 2, b / 2)
    ensures Xor(a, b) % 2 == (if a % 2 != b % 2 then 1 else 0)
  {
  }

  lemma {:induction false} XorZero(a: nat)
    ensures Xor(a, 0) == a && Xor(0, a) == a
  {
    if a > 0 {
      XorZero(a / 2);
    }
  }

  lemma {:induction false} XorSelf(a: nat)
    ensures Xor(a, a) == 0
  {
    if a > 0 {
      XorSelf(a / 2);
    }
  }

  lemma {:induction false} XorComm(a: nat, b: nat)
    ensures Xor(a, b) == Xor(b, a)
    decreases a + b
  {
    if a + b > 0 {
      XorComm(a / 2, b / 2);
    }
  }

  lemma {:induction false} XorAssoc(a: nat, b: nat, c: nat)
    ensures Xor(Xor(a, b), c) == Xor(a, Xor(b, c))
    decreases a + b + c
  {
    if a + b + c > 0 {
      XorUnfold(a, b);
      XorUnfold(b, c);
      XorUnfold(Xor(a, b), c);
      XorUnfold(a, Xor(b, c));
      XorAssoc(a / 2, b / 2, c / 2);
    }
  }

  /** Xor by `b` undoes itself. */
  lemma XorCancel(a: nat, b: nat)
    ensures Xor(Xor(a, b), b) == a
    ensures Xor(b, Xor(b, a)) == a
  {
    XorAssoc(a, b, b);
    XorSelf(b);
    XorZero(a);
    XorAssoc(b, b, a);
  }

  /** Regrouping four terms. */
  lemma XorSwap(a: nat, b: nat, c: nat, d: nat)
    ensures Xor(Xor(a, b), Xor(c, d)) == Xor(Xor(a, c), Xor(b, d))
  {
    XorAssoc(a, b, Xor(c, d));
    XorAssoc(b, c, d);
    XorComm(b, c);
    XorAssoc(c, b, d);
    XorAssoc(a, c, Xor(b, d));
  }

  lemma XorDouble(a: nat, b: nat)
    ensures Xor(2 * a, 2 * b) == 2 * Xor(a, b)
  {
    XorUnfold(2 * a, 2 * b);
  }

  /** Two numbers of the same length `k + 1` cancel each other's leading bit. */
  lemma {:induction false} XorTop(a: nat, b: nat, k: nat)
    requires Pow2(k) <= a < Pow2(k + 1) && Pow2(k) <= b < Pow2(k + 1)
    ensures Xor(a, b) < Pow2(k)
  {
    XorUnfold(a, b);
    if k > 0 {
      XorTop(a / 2, b / 2, k - 1);
    } else {
      assert a == 1 && b == 1;
      XorSelf(1);
    }
  }

  /** Xor never lengthens: below `2^k` stays below `2^k`. */
  lemma {:induction false} XorBelow(a: nat, b: nat, k: nat)
    requires a < Pow2(k) && b < Pow2(k)
    ensures Xor(a, b) < Pow2(k)
  {
    XorUnfold(a, b);
    if k > 0 {
      XorBelow(a / 2, b / 2, k - 1);
    } else {
      XorSelf(0);
    }
  }

  // ----------------------------------------------------------- or and shifts

  lemma {:induction false} OrZero(a: nat)
    ensures Or(a, 0) == a
  {
    if a > 0 {
      OrZero(a / 2);
    }
  }

  /** When `b` fits below the `k` zero bits of `a << k`, or-ing it in, xor-ing
      it in and adding it are the same. */
  lemma {:induction false} OrDisjoint(a: nat, b: nat, k: nat)
    requires b < Pow2(k)
    ensures Or(Shl(a, k), b) == Shl(a, k) + b
    ensures Xor(Shl(a, k), b) == Shl(a, k) + b
  {
    if k == 0 {
      OrZero(a);
      XorZero(a);
    } else {
      var s := Shl(a, k - 1);
      OrDisjoint(a, b / 2, k - 1);
      if s + b / 2 > 0 {
        assert Or(2 * s + b % 2, b) == 2 * Or(s, b / 2) + b % 2;
      }
      XorUnfold(2 * s, b);
    }
  }

  lemma {:induction false} ShlIsProduct(a: nat, k: nat)
    ensures Shl(a, k) == a * Pow2(k)
  {
    if k > 0 {
      ShlIsProduct(a, k - 1);
      assert a * Pow2(k) == 2 * (a * Pow2(k - 1));
    }
  }

  /** `(a << k) | b`, `b` below `2^k`, shifted back right by `k` is `a`. */
  lemma {:induction false} ShrShl(a: nat, b: nat, k: nat)
    requires b < Pow2(k)
    ensures Shr(Shl(a, k) + b, k) == a
  {
    if k > 0 {
      assert (Shl(a, k) + b) / 2 == Shl(a, k - 1) + b / 2;
      ShrShl(a, b / 2, k - 1);
    }
  }

  /** `(a << k) + b` has at most `j + k` bits when `a` has `j` and `b` has `k`. */
  lemma {:induction false} ShlBound(a: nat, b: nat, j: nat, k: nat)
    requires a < Pow2(j) && b < Pow2(k)
    ensures Shl(a, k) + b < Pow2(j + k)
  {
    if k > 0 {
      ShlBound(a, b / 2, j, k - 1);
    }
  }

  /** Shifting a number of length `d + 1` by `s` gives one of length `d + s + 1`. */
  lemma {:induction false} ShlLength(g: nat, d: nat, s: nat)
    requires Pow2(d) <= g < Pow2(d + 1)
    ensures Pow2(d + s) <= Shl(g, s) < Pow2(d + s + 1)
  {
    if s > 0 {
      ShlLength(g, d, s - 1);
    }
  }

  /** A positive number with `Digits(n)` binary digits has its top digit set. */
  lemma {:induction false} DigitsRange(n: nat)
    requires n >= 1
    ensures Pow2(Digits(n) - 1) <= n < Pow2(Digits(n))
  {
    if n >= 2 {
      DigitsRange(n / 2);
    }
  }

  // ------------------------------------------------------ polynomial products

  lemma ClMulUnfold(q: nat, g: nat)
    ensures ClMul(q, g) == Xor(if q % 2 == 1 then g else 0, 2 * ClMul(q / 2, g))
  {
    if q == 0 {
      XorSelf(0);
    }
  }

  /** Multiplying by `x^s` is shifting by `s`. */
  lemma {:induction false} ClMulPower(s: nat, g: nat)
    ensures ClMul(Pow2(s), g) == Shl(g, s)
  {
    if s == 0 {
      XorZero(2 * ClMul(0, g));
      XorZero(g);
    } else {
      ClMulPower(s - 1, g);
      XorZero(2 * ClMul(Pow2(s - 1), g));
    }
  }

  /** The product distributes over polynomial addition. */
  lemma {:induction false} ClMulXor(p: nat, q: nat, g: nat)
    ensures ClMul(Xor(p, q), g) == Xor(ClMul(p, g), ClMul(q, g))
    decreases p + q
  {
    if p + q == 0 {
      XorSelf(0);
    } else {
      var x := Xor(p, q);
      XorUnfold(p, q);
      ClMulXor(p / 2, q / 2, g);
      var a, b := ClMul(p / 2, g), ClMul(q / 2, g);
      var pg, qg := (if p % 2 == 1 then g else 0), (if q % 2 == 1 then g else 0);
      ClMulUnfold(x, g);
      ClMulUnfold(p, g);
      ClMulUnfold(q, g);
      XorDouble(a, b);
      assert (if x % 2 == 1 then g else 0) == Xor(pg, qg) by {
        XorZero(g);
        XorSelf(g);
        XorSelf(0);
      }
      XorSwap(pg, qg, 2 * a, 2 * b);
    }
  }

  // ------------------------------------------------------------- remainders

  /** One pass of the reduction loop: `g` of length `deg + 1` shifted under
      the leading bit of `e` clears that bit, so `e` decreases. */
  lemma ReduceStep(e: nat, g: nat, deg: nat)
    requires deg >= 1 && Digits(g) == deg + 1 && Digits(e) > deg
    ensures Xor(Shl(g, Digits(e) - deg - 1), e) < e
  {
    var d := Digits(e);
    DigitsRange(e);
    DigitsRange(g);
    ShlLength(g, deg, d - deg - 1);
    XorTop(Shl(g, d - deg - 1), e, d - 1);
  }

  /** The loop of `get_format_string` for a generator `g` of degree `deg`:
      while `e` is longer than `deg` bits, xor into it `g` shifted so that the
      leading bits line up. What is left is the remainder of `e` divided by `g`
      (see `ReduceQuotient`). */
  function Reduce(e: nat, g: nat, deg: nat): (r: nat)
    requires deg >= 1 && Digits(g) == deg + 1
    ensures r < Pow2(deg)
    decreases e
  {
    if Digits(e) > deg then
      ReduceStep(e, g, deg);
      Reduce(Xor(Shl(g, Digits(e) - deg - 1), e), g, deg)
    else
      Pow2Monotone(Digits(e), deg);
      e
  }

  /** The remainder differs from `e` by a multiple of `g`. */
  lemma {:induction false} ReduceQuotient(e: nat, g: nat, deg: nat) returns (q: nat)
    requires deg >= 1 && Digits(g) == deg + 1
    ensures ClMul(q, g) == Xor(e, Reduce(e, g, deg))
    decreases e
  {
    if Digits(e) > deg {
      var s := Digits(e) - deg - 1;
      var e' := Xor(Shl(g, s), e);
      ReduceStep(e, g, deg);
      var r := Reduce(e', g, deg);
      var q' := ReduceQuotient(e', g, deg);
      q := Xor(Pow2(s), q');
      ClMulXor(Pow2(s), q', g);
      ClMulPower(s, g);
      // e + r == S + ((S + e) + r) with S the shifted generator
      XorAssoc(Shl(g, s), e', r);
      XorCancel(e, Shl(g, s));
    } else {
      q := 0;
      XorSelf(e);
    }
  }

  /** Appending the remainder to `m` shifted by `deg` gives a multiple of `g`:
      the systematic cyclic code word of `m`. */
  lemma CodeWord(m: nat, g: nat, deg: nat)
    requires deg >= 1 && Digits(g) == deg + 1
    ensures var r := Reduce(Shl(m, deg), g, deg);
            Or(Shl(m, deg), r) == Shl(m, deg) + r && Divisible(Shl(m, deg) + r, g)
  {
    var e := Shl(m, deg);
    var r := Reduce(e, g, deg);
    OrDisjoint(m, r, deg);
    var q := ReduceQuotient(e, g, deg);
  }
}

=== FILE: prototype.dfy ===
/** qr.py, the earlier prototype of `base`: the symbol is a square of
    integers, `1` for black, `-1` for white and `0` for a module nobody has
    claimed yet, and only the three finder patterns are drawn. */
module Prototype {
  import opened Bits
  import opened Tables
  import opened Matrix
  import opened Patterns

  type Cells = seq<seq<int>>

  predicate IsCells(d: Cells, size: nat)
  {
    |d| == size && forall y :: 0 <= y < size ==> |d[y]| == size
  }

  /** The value `finder_pattern` writes: `-1` on rings 2 and 4 around the
      centre `(xs + 4, ys + 4)`, `1` everywhere else in the footprint. */
  function RingValue(xs: int, ys: int, x: int, y: int): int
  {
    var d := Chebyshev(x, y, xs + 4, ys + 4);
    if d == 2 || d == 4 then -1 else 1
  }

  /** `finder_pattern(data, xstart, ystart)`: the 9x9 footprint at
      `(xs, ys)` is written module by module, skipping every module off the
      side of the grid; the rest of the grid is left alone. */
  method FinderPattern(data: Cells, xs: int, ys: int) returns (r: Cells)
    requires IsCells(data, |data|)
    ensures IsCells(r, |data|)
    ensures forall y, x :: InGrid(|data|, x, y) ==>
              r[y][x] == if InFinder(xs, ys, x, y) then RingValue(xs, ys, x, y) else data[y][x]
  {
    var size := |data|;
    r := data;
    var x := xs;
    while x < xs + 9
      invariant xs <= x <= xs + 9
      invariant IsCells(r, size)
      invariant forall y', x' :: InGrid(size, x', y') ==>
                  r[y'][x'] == if xs <= x' < x && ys <= y' < ys + 9 then RingValue(xs, ys, x', y') else data[y'][x']
    {
      var y := ys;
      while y < ys + 9
        invariant ys <= y <= ys + 9
        invariant IsCells(r, size)
        invariant forall y', x' :: InGrid(size, x', y') ==>
                    r[y'][x'] == if (xs <= x' < x && ys <= y' < ys + 9) || (x' == x && ys <= y' < y)
                                 then RingValue(xs, ys, x', y') else data[y'][x']
      {
        if x >= 0 && y >= 0 && x < size && y < size {
          r := r[y := r[y][x := RingValue(xs, ys, x, y)]];
        }
        y := y + 1;
      }
      x := x + 1;
    }
  }

  /** `[[0 for i in range(size)] for j in range(size)]`. */
  function Zeros2(size: nat): (d: Cells)
    ensures IsCells(d, size)
    ensures forall y, x :: InGrid(size, x, y) ==> d[y][x] == 0
  {
    seq(size, _ => seq(size, _ => 0))
  }

  /** The integer a module of draw.py stands for in the prototype. */
  function CellOf(m: Module): int
  {
    match m.color
    case Black => 1
    case White => -1
    case Unset => 0
  }

  /** `base(version)` of qr.py: the grid of side `(version-1)*4+21` with the
      three finders drawn, each starting one module off the symbol. */
  method PrototypeBase(v: Version) returns (r: Cells)
    ensures IsCells(r, (v - 1) * 4 + 21)
    ensures forall y, x :: InGrid(|r|, x, y) ==> -1 <= r[y][x] <= 1
    ensures forall y, x :: InGrid(|r|, x, y) ==> (r[y][x] == 0 <==> !InFinders(|r|, x, y))
    ensures forall y, x :: InGrid(|r|, x, y) ==> r[y][x] == CellOf(FinderStage(|r|)[y][x])
    ensures forall y, x :: InGrid(|r|, x, y) && InFinder(-1, -1, x, y) ==>
              (r[y][x] == -1 <==> Chebyshev(x, y, 3, 3) in {2, 4})
    ensures forall y, x :: InGrid(|r|, x, y) && InFinder(-1, |r| - 8, x, y) ==>
              (r[y][x] == -1 <==> Chebyshev(x, y, 3, |r| - 4) in {2, 4})
    ensures forall y, x :: InGrid(|r|, x, y) && InFinder(|r| - 8, -1, x, y) ==>
              (r[y][x] == -1 <==> Chebyshev(x, y, |r| - 4, 3) in {2, 4})
  {
    var size := (v - 1) * 4 + 21;
    r := Zeros2(size);
    r := FinderPattern(r, -1, -1);
    r := FinderPattern(r, -1, size - 8);
    r := FinderPattern(r, size - 8, -1);
    PrototypeAgrees(size, r);
  }

  /** The finder value of the prototype is the finder colour of draw.py. */
  lemma RingValueColour(xs: int, ys: int, x: int, y: int)
    ensures RingValue(xs, ys, x, y) == CellOf(Module(FinderColor(xs, ys, x, y), true))
    ensures RingValue(xs, ys, x, y) == -1 <==> Chebyshev(x, y, xs + 4, ys + 4) in {2, 4}
  {
  }

  /** A grid holding the prototype's three finders agrees, module by module,
      with the finder stage of draw.py's `base`. */
  lemma PrototypeAgrees(size: nat, r: Cells)
    requires size >= 21 && IsCells(r, size)
    requires forall y, x :: InGrid(size, x, y) ==>
               r[y][x] == if InFinder(size - 8, -1, x, y) then RingValue(size - 8, -1, x, y)
                          else if InFinder(-1, size - 8, x, y) then RingValue(-1, size - 8, x, y)
                          else if InFinder(-1, -1, x, y) then RingValue(-1, -1, x, y)
                          else 0
    ensures forall y, x :: InGrid(size, x, y) ==> -1 <= r[y][x] <= 1
    ensures forall y, x :: InGrid(size, x, y) ==> (r[y][x] == 0 <==> !InFinders(size, x, y))
    ensures forall y, x :: InGrid(size, x, y) ==> r[y][x] == CellOf(FinderStage(size)[y][x])
  {
    FinderStageCells(size);
    forall y, x | InGrid(size, x, y)
      ensures -1 <= r[y][x] <= 1
      ensures r[y][x] == 0 <==> !InFinders(size, x, y)
      ensures r[y][x] == CellOf(FinderStage(size)[y][x])
    {
      if InFinder(size - 8, -1, x, y) {
        RingValueColour(size - 8, -1, x, y);
      } else if InFinder(-1, size - 8, x, y) {
        RingValueColour(-1, size - 8, x, y);
      } else if InFinder(-1, -1, x, y) {
        RingValueColour(-1, -1, x, y);
      }
    }
  }
}

=== FILE: symbol.dfy ===
/** `generate_qr` of draw.py up to the quiet zone: the data placed into `base`,
    the mask with the lowest penalty chosen and applied, and the format and
    (from version 7) version information written. */
module Symbol {
  import opened Bits
  import opened Tables
  import opened Matrix
  import opened Patterns
  import opened Masking
  import opened Penalty
  import opened Placement
  import opened FormatInfo

  // ---------------------------------------------------------- mask choice

  /** The mask loop of `generate_qr` from pattern `i` on, with the best score
      and pattern so far; a best score of `-1` means none yet. */
  function SelectFrom(scores: seq<nat>, i: nat, bestScore: int, bestMask: nat): nat
    requires i <= |scores|
    decreases |scores| - i
  {
    if i == |scores| then bestMask
    else if bestScore == -1 || scores[i] < bestScore then SelectFrom(scores, i + 1, scores[i], i)
    else SelectFrom(scores, i + 1, bestScore, bestMask)
  }

  /** `best_score = -1; best_mask = 0` and the loop over all patterns. */
  function SelectMask(scores: seq<nat>): nat
  {
    SelectFrom(scores, 0, -1, 0)
  }

  /** `k` is the lowest index of a smallest score. */
  ghost predicate FirstMinimum(scores: seq<nat>, k: nat)
  {
    k < |scores| &&
    (forall i :: 0 <= i < |scores| ==> scores[k] <= scores[i]) &&
    (forall i :: 0 <= i < k ==> scores[i] > scores[k])
  }

  /** What the loop knows after `i` patterns. */
  ghost predicate Scanned(scores: seq<nat>, i: nat, bestScore: int, bestMask: nat)
  {
    (i == 0 && bestScore == -1) ||
    (0 < i <= |scores| && bestMask < i && bestScore == scores[bestMask] &&
     (forall j :: 0 <= j < i ==> bestScore <= scores[j]) &&
     (forall j :: 0 <= j < bestMask ==> scores[j] > bestScore))
  }

  lemma {:induction false} SelectFromFirst(scores: seq<nat>, i: nat, bestScore: int, bestMask: nat)
    requires |scores| > 0 && i <= |scores| && Scanned(scores, i, bestScore, bestMask)
    ensures FirstMinimum(scores, SelectFrom(scores, i, bestScore, bestMask))
    decreases |scores| - i
  {
    if i < |scores| {
      if bestScore == -1 || scores[i] < bestScore {
        SelectFromFirst(scores, i + 1, scores[i], i);
      } else {
        SelectFromFirst(scores, i + 1, bestScore, bestMask);
      }
    }
  }

  /** The loop keeps the first pattern of lowest penalty: a later pattern
      replaces the best only with a strictly lower score. */
  lemma SelectMaskFirstMinimum(scores: seq<nat>)
    requires |scores| > 0
    ensures FirstMinimum(scores, SelectMask(scores))
  {
    SelectFromFirst(scores, 0, -1, 0);
  }

  /** There is only one first minimum, so the loop's choice is determined by
      the scores alone. */
  lemma FirstMinimumUnique(scores: seq<nat>, a: nat, b: nat)
    requires FirstMinimum(scores, a) && FirstMinimum(scores, b)
    ensures a == b
  {
    assert scores[a] <= scores[b] && scores[b] <= scores[a];
  }

  /** `get_penalty_score(apply_mask(qr, MASKS[i]))` for the eight patterns. */
  function MaskScores(g: Grid, size: nat): (s: seq<nat>)
    requires IsGrid(g, size) && size > 0
    ensures |s| == 8
  {
    seq(8, m requires 0 <= m < 8 => PenaltyScore(ApplyMask(g, size, m), size))
  }

  // ------------------------------------------------------- the final steps

  /** Masking and the function information written after it. The format is
      always that of level Q, as `generate_qr` passes the literal "Q". Only
      colours change: every module keeps its reserved flag. */
  function Finish(g: Grid, v: Version, mask: MaskId): (r: Grid)
    requires IsGrid(g, Size(v))
    ensures IsGrid(r, Size(v))
    ensures forall y, x :: InGrid(Size(v), x, y) ==> r[y][x].reserved == g[y][x].reserved
  {
    var size := Size(v);
    var f := InsertFormatString(ApplyMask(g, size, mask), size, GetFormatString(Q, mask));
    if v >= 7 then InsertVersionString(f, size, VersionString(v).value) else f
  }

  /** The format string as read back from one of its two copies: bit `k` sits
      where `insert_format_string` put bit `14 - k` of the reversed string. */
  function ReadFormatCopy(g: Grid, size: nat, second: bool): (s: Bits)
    requires IsGrid(g, size) && size >= 21
    ensures |s| == 15
  {
    seq(15, k requires 0 <= k < 15 =>
      var p := FormatCopyCell(size, 14 - k, second);
      g[p.1][p.0].color == Black)
  }

  /** Bit `k` of a read-back copy is the colour of its module. */
  lemma ReadFormatBit(g: Grid, size: nat, second: bool, k: nat)
    requires IsGrid(g, size) && size >= 21 && k < 15
    ensures var p := FormatCopyCell(size, 14 - k, second);
            ReadFormatCopy(g, size, second)[k] == (g[p.1][p.0].color == Black)
  {
  }

  /** The version string as read back from one of its two blocks. */
  function ReadVersionCopy(g: Grid, size: nat, second: bool): (s: Bits)
    requires IsGrid(g, size) && size >= 21
    ensures |s| == 18
  {
    VersionCellsIndexed(size);
    seq(18, i requires 0 <= i < 18 =>
      var (a, b) := VersionCells(size, i);
      var p := if second then b else a;
      g[p.1][p.0].color == Black)
  }

  /** The format areas and the version areas of a symbol never meet. */
  lemma AreasDisjoint(size: nat, x: int, y: int)
    requires size >= 21
    ensures !(FormatArea(size, x, y) && VersionArea(size, x, y))
  {
  }

  /** Outside the format and version areas, the finished symbol is the
      masked grid. */
  lemma FinishOutsideInformation(g: Grid, v: Version, mask: MaskId)
    requires IsGrid(g, Size(v))
    ensures forall y, x :: InGrid(Size(v), x, y) && !FormatArea(Size(v), x, y) && !(v >= 7 && VersionArea(Size(v), x, y)) ==>
              Finish(g, v, mask)[y][x] == ApplyMask(g, Size(v), mask)[y][x]
    ensures forall y, x :: InGrid(Size(v), x, y) && FormatBitAt(Size(v), x, y).None? &&
                           !(v >= 7 && VersionBitAt(Size(v), x, y).Some?) ==>
              Finish(g, v, mask)[y][x] == ApplyMask(g, Size(v), mask)[y][x]
  {
    var size := Size(v);
    var m := ApplyMask(g, size, mask);
    var fs := GetFormatString(Q, mask);
    var f := InsertFormatString(m, size, fs);
    forall y, x | InGrid(size, x, y) && FormatBitAt(size, x, y).None?
      ensures f[y][x] == m[y][x]
    {
    }
    forall y, x | InGrid(size, x, y) && !FormatArea(size, x, y)
      ensures f[y][x] == m[y][x]
    {
      FormatBitArea(size, x, y);
    }
    if v >= 7 {
      var vs := VersionString(v).value;
      forall y, x | InGrid(size, x, y) && VersionBitAt(size, x, y).None?
        ensures Finish(g, v, mask)[y][x] == f[y][x]
      {
      }
      forall y, x | InGrid(size, x, y) && !VersionArea(size, x, y)
        ensures Finish(g, v, mask)[y][x] == f[y][x]
      {
        VersionBitArea(size, x, y);
      }
    }
  }

  /** Writing the version information leaves every format module alone. */
  lemma VersionSparesFormat(f: Grid, size: nat, vs: Bits, x: int, y: int)
    requires IsGrid(f, size) && size >= 21 && |vs| >= 18 && InGrid(size, x, y) && FormatBitAt(size, x, y).Some?
    ensures InsertVersionString(f, size, vs)[y][x] == f[y][x]
  {
    FormatBitArea(size, x, y);
    VersionBitArea(size, x, y);
    AreasDisjoint(size, x, y);
  }

  /** The finished symbol keeps every format module the format pass wrote. */
  lemma FinishKeepsFormatCell(g: Grid, v: Version, mask: MaskId, x: int, y: int)
    requires IsGrid(g, Size(v)) && InGrid(Size(v), x, y) && FormatBitAt(Size(v), x, y).Some?
    ensures Finish(g, v, mask)[y][x]
            == InsertFormatString(ApplyMask(g, Size(v), mask), Size(v), GetFormatString(Q, mask))[y][x]
  {
    if v >= 7 {
      var size := Size(v);
      var f := InsertFormatString(ApplyMask(g, size, mask), size, GetFormatString(Q, mask));
      VersionSparesFormat(f, size, VersionString(v).value, x, y);
    }
  }

  /** A format module coloured with `fs[k]` reads back as that bit. */
  lemma ReadWrittenFormatBit(r: Grid, size: nat, fs: Bits, second: bool, k: nat)
    requires IsGrid(r, size) && size >= 21 && |fs| == 15 && k < 15
    requires var p := FormatCopyCell(size, 14 - k, second);
             r[p.1][p.0].color == DataColor(fs[k])
    ensures ReadFormatCopy(r, size, second)[k] == fs[k]
  {
    ReadFormatBit(r, size, second, k);
  }

  lemma SameBits(s: Bits, t: Bits)
    requires |s| == |t| && forall k :: 0 <= k < |s| ==> s[k] == t[k]
    ensures s == t
  {
  }

  /** Bit `k` of either copy of the format information. */
  lemma FinishFormatBit(g: Grid, v: Version, mask: MaskId, second: bool, k: nat)
    requires IsGrid(g, Size(v)) && k < 15
    ensures ReadFormatCopy(Finish(g, v, mask), Size(v), second)[k] == GetFormatString(Q, mask)[k]
  {
    var size := Size(v);
    var fs := GetFormatString(Q, mask);
    var p := FormatCopyCell(size, 14 - k, second);
    FormatCopyWritten(ApplyMask(g, size, mask), size, fs, 14 - k, second);
    FormatCellsIndexed(size);
    FinishKeepsFormatCell(g, v, mask, p.0, p.1);
    ReadWrittenFormatBit(Finish(g, v, mask), size, fs, second, k);
  }

  /** Both copies of the format information read back as the format string
      of level Q and the chosen mask. */
  lemma FinishFormat(g: Grid, v: Version, mask: MaskId, second: bool)
    requires IsGrid(g, Size(v))
    ensures ReadFormatCopy(Finish(g, v, mask), Size(v), second) == GetFormatString(Q, mask)
  {
    var s := ReadFormatCopy(Finish(g, v, mask), Size(v), second);
    var fs := GetFormatString(Q, mask);
    forall k | 0 <= k < 15
      ensures s[k] == fs[k]
    {
      FinishFormatBit(g, v, mask, second, k);
    }
    SameBits(s, fs);
  }

  lemma ReadVersionBit(g: Grid, size: nat, second: bool, i: nat)
    requires IsGrid(g, size) && size >= 21 && i < 18
    ensures var p := if second then VersionCells(size, i).1 else VersionCells(size, i).0;
            ReadVersionCopy(g, size, second)[i] == (g[p.1][p.0].color == Black)
  {
  }

  /** Bit `i` of either version block, from version 7. */
  lemma FinishVersionBit(g: Grid, v: Version, mask: MaskId, second: bool, i: nat)
    requires IsGrid(g, Size(v)) && v >= 7 && i < 18
    ensures ReadVersionCopy(Finish(g, v, mask), Size(v), second)[i] == VersionString(v).value[i]
  {
    var size := Size(v);
    var f := InsertFormatString(ApplyMask(g, size, mask), size, GetFormatString(Q, mask));
    var vs := VersionString(v).value;
    assert Finish(g, v, mask) == InsertVersionString(f, size, vs);
    VersionCellWritten(f, size, vs, i, second);
    ReadVersionBit(Finish(g, v, mask), size, second, i);
  }

  /** From version 7 both version blocks read back as the version string. */
  lemma FinishVersion(g: Grid, v: Version, mask: MaskId, second: bool)
    requires IsGrid(g, Size(v)) && v >= 7
    ensures ReadVersionCopy(Finish(g, v, mask), Size(v), second) == VersionString(v).value
  {
    var s := ReadVersionCopy(Finish(g, v, mask), Size(v), second);
    var vs := VersionString(v).value;
    forall i | 0 <= i < 18
      ensures s[i] == vs[i]
    {
      FinishVersionBit(g, v, mask, second, i);
    }
    SameBits(s, vs);
  }

  // -------------------------------------------------------------- generate

  /** The grid after `insert_data(base(version), input_data)`. */
  ghost function Filled(v: Version, data: Bits): (g: Grid)
    ensures IsGrid(g, Size(v))
  {
    Fill(Base(v), Size(v), Path(Size(v)), data)
  }

  /** Every function pattern module of `base` that holds no format bit and,
      from version 7, no version bit is in `r` as `base` drew it: the finders,
      the alignment patterns, the whole timing lines and the dark module. */
  ghost predicate KeepsPatterns(r: Grid, v: Version)
    requires IsGrid(r, Size(v))
  {
    Keeps(r, Base(v), Size(v), v)
  }

  /** Every reserved module of `b` that holds no information bit is in `r`. */
  ghost predicate Keeps(r: Grid, b: Grid, size: nat, v: Version)
    requires IsGrid(r, size) && IsGrid(b, size)
  {
    forall y, x :: InGrid(size, x, y) && b[y][x].reserved &&
                   FormatBitAt(size, x, y).None? && !(v >= 7 && VersionBitAt(size, x, y).Some?) ==>
      r[y][x] == b[y][x]
  }

  /** A grid that keeps the patterns keeps both timing lines whole, the two
      modules where they cross the format areas included, and the black dark
      module (draw.py:121-132). */
  lemma KeptTimingAndDark(r: Grid, v: Version)
    requires IsGrid(r, Size(v)) && KeepsPatterns(r, v)
    ensures TimingAndDark(r, Size(v))
  {
    var size, b := Size(v), Base(v);
    assert Keeps(r, b, size, v);
    assert TimingAndDark(b, size) by {
      BaseTiming(v);
    }
    KeptDrawn(r, b, size, v);
  }

  /** Both timing lines, alternating from black, and the black dark module,
      all reserved, as `base` draws them. */
  ghost predicate TimingAndDark(g: Grid, size: nat)
    requires IsGrid(g, size) && size >= 21
  {
    && (forall i :: 8 <= i < size - 8 ==>
          g[i][6] == Module(TimingColor(i), true) && g[6][i] == Module(TimingColor(i), true))
    && g[size - 8][8] == Module(Black, true)
  }

  lemma KeptDrawn(r: Grid, b: Grid, size: nat, v: Version)
    requires size >= 21 && IsGrid(r, size) && IsGrid(b, size) && Keeps(r, b, size, v) && TimingAndDark(b, size)
    ensures TimingAndDark(r, size)
  {
    forall i | 8 <= i < size - 8
      ensures r[i][6] == Module(TimingColor(i), true) && r[6][i] == Module(TimingColor(i), true)
    {
      TimingNoBit(size, i);
    }
    DarkNoBit(size);
  }

  /** The timing modules carry no format or version bit, ... */
  lemma TimingNoBit(size: nat, i: int)
    requires size >= 21 && 8 <= i < size - 8
    ensures FormatBitAt(size, 6, i).None? && VersionBitAt(size, 6, i).None?
    ensures FormatBitAt(size, i, 6).None? && VersionBitAt(size, i, 6).None?
  {
  }

  /** ... nor does the dark module. */
  lemma DarkNoBit(size: nat)
    requires size >= 21
    ensures FormatBitAt(size, 8, size - 8).None? && VersionBitAt(size, 8, size - 8).None?
  {
  }

  /** Every data module of `r` is that of the filled grid under `mask`. */
  ghost predicate DataMasked(r: Grid, v: Version, data: Bits, mask: MaskId)
    requires IsGrid(r, Size(v))
  {
    forall y, x :: InGrid(Size(v), x, y) && DataModule(v, x, y) ==>
      r[y][x] == ApplyMask(Filled(v, data), Size(v), mask)[y][x]
  }

  /** Both copies of the format information state level Q and `mask`, and
      from version 7 both version blocks state `v`. */
  ghost predicate States(r: Grid, v: Version, mask: MaskId)
    requires IsGrid(r, Size(v))
  {
    ReadFormat(ReadFormatCopy(r, Size(v), false)) == (Q, mask) &&
    ReadFormat(ReadFormatCopy(r, Size(v), true)) == (Q, mask) &&
    (v >= 7 ==> ReadVersion(ReadVersionCopy(r, Size(v), false)) == v &&
                ReadVersion(ReadVersionCopy(r, Size(v), true)) == v)
  }

  /** The final steps keep every function pattern module that holds no
      information bit. */
  lemma FinishKeepsPatterns(v: Version, data: Bits, mask: MaskId)
    ensures KeepsPatterns(Finish(Filled(v, data), v, mask), v)
  {
    var g := Filled(v, data);
    FinishOutsideInformation(g, v, mask);
    var m := ApplyMask(g, Size(v), mask);
    assert Respects(Base(v), g, Size(v));
  }

  /** The final steps leave each data module as the mask made it. */
  lemma FinishDataMasked(v: Version, data: Bits, mask: MaskId)
    ensures DataMasked(Finish(Filled(v, data), v, mask), v, data, mask)
  {
    var g := Filled(v, data);
    FinishOutsideInformation(g, v, mask);
  }

  /** The final steps write information that reads back as level Q, the
      mask, and from version 7 the version. */
  lemma FinishStates(v: Version, data: Bits, mask: MaskId)
    ensures States(Finish(Filled(v, data), v, mask), v, mask)
  {
    var g := Filled(v, data);
    FinishFormat(g, v, mask, false);
    FinishFormat(g, v, mask, true);
    FormatRoundTrip(Q, mask);
    if v >= 7 {
      FinishVersion(g, v, mask, false);
      FinishVersion(g, v, mask, true);
      VersionRoundTrip(v);
    }
  }

  /** The information in full, check bits included: both format copies carry
      `GetFormatString(Q, mask)` and, from version 7, both version blocks carry
      the version string. */
  ghost predicate Carries(r: Grid, v: Version, mask: MaskId)
    requires IsGrid(r, Size(v))
  {
    && ReadFormatCopy(r, Size(v), false) == GetFormatString(Q, mask)
    && ReadFormatCopy(r, Size(v), true) == GetFormatString(Q, mask)
    && (v >= 7 ==>
          && ReadVersionCopy(r, Size(v), false) == VersionString(v).value
          && ReadVersionCopy(r, Size(v), true) == VersionString(v).value)
  }

  /** The final steps write both format copies and both version blocks whole. */
  lemma FinishCarries(v: Version, data: Bits, mask: MaskId)
    ensures Carries(Finish(Filled(v, data), v, mask), v, mask)
  {
    var g := Filled(v, data);
    FinishFormat(g, v, mask, false);
    FinishFormat(g, v, mask, true);
    if v >= 7 {
      FinishVersion(g, v, mask, false);
      FinishVersion(g, v, mask, true);
    }
  }

  /** Every module of `r` is reserved exactly where it is in `b`. */
  ghost predicate SameReserved(r: Grid, b: Grid, size: nat)
    requires IsGrid(r, size) && IsGrid(b, size)
  {
    forall y, x :: InGrid(size, x, y) ==> r[y][x].reserved == b[y][x].reserved
  }

  /** Neither the data, the mask nor the information changes a reserved flag:
      the finished symbol has `base`'s. */
  lemma FinishReserved(v: Version, data: Bits, mask: MaskId)
    ensures SameReserved(Finish(Filled(v, data), v, mask), Base(v), Size(v))
  {
  }

  /** The mask loop of `generate_qr` over the eight penalty scores: keeps the
      first pattern of lowest score, `-1` standing for no score yet. */
  method ChooseMask(scores: seq<nat>) returns (mask: nat)
    requires |scores| > 0
    ensures FirstMinimum(scores, mask)
  {
    var bestScore: int := -1;
    mask := 0;
    var i := 0;
    while i < |scores|
      invariant i <= |scores|
      invariant Scanned(scores, i, bestScore, mask)
    {
      if bestScore == -1 || scores[i] < bestScore {
        bestScore := scores[i];
        mask := i;
      }
      i := i + 1;
    }
  }

  /** `generate_qr(version, input_data_str)` without the border and the
      display: returns the symbol and the mask it chose. */
  method GenerateQr(v: Version, input: string) returns (r: Grid, mask: MaskId)
    requires forall i :: 0 <= i < |input| ==> '0' <= input[i] <= '9'
    ensures IsGrid(r, Size(v))
    ensures FirstMinimum(MaskScores(Filled(v, BitString(input)), Size(v)), mask)
    ensures KeepsPatterns(r, v) && DataMasked(r, v, BitString(input), mask) && States(r, v, mask)
    ensures TimingAndDark(r, Size(v))
    ensures Carries(r, v, mask) && SameReserved(r, Base(v), Size(v))
  {
    var data := BitString(input);
    var g := FillBase(v, data);
    mask := PickMask(g, v);
    r := Finish(g, v, mask);
    FinishAll(v, data, mask, g, r);
    KeptTimingAndDark(r, v);
    FinishCarries(v, data, mask);
    FinishReserved(v, data, mask);
  }

  /** The mask loop of `generate_qr` over the filled grid. */
  method PickMask(g: Grid, v: Version) returns (mask: MaskId)
    requires IsGrid(g, Size(v))
    ensures FirstMinimum(MaskScores(g, Size(v)), mask)
  {
    var scores := MaskScores(g, Size(v));
    var m := ChooseMask(scores);
    mask := m;
  }

  /** `insert_data(base(version), input_data)`. */
  method FillBase(v: Version, data: Bits) returns (g: Grid)
    ensures g == Filled(v, data) && IsGrid(g, Size(v))
  {
    assert Size(v) % 2 == 1;
    g := InsertData(Base(v), Size(v), data);
  }

  /** The properties of the finished symbol together. */
  lemma FinishAll(v: Version, data: Bits, mask: MaskId, g: Grid, r: Grid)
    requires g == Filled(v, data) && r == Finish(g, v, mask)
    requires FirstMinimum(MaskScores(g, Size(v)), mask)
    ensures IsGrid(r, Size(v))
    ensures FirstMinimum(MaskScores(Filled(v, data), Size(v)), mask)
    ensures KeepsPatterns(r, v) && DataMasked(r, v, data, mask) && States(r, v, mask)
  {
    FinishKeepsPatterns(v, data, mask);
    FinishDataMasked(v, data, mask);
    FinishStates(v, data, mask);
  }
}

=== FILE: tables.dfy ===
/** The constant tables of the encoder (encoder.py): capacity per version and
    level, data codewords, error-correction codewords per block, the block layout
    and the remainder-bit counts. */
module Tables {

  /** Error-correction level. The Python code keys its tables by the strings
      'L', 'M', 'Q', 'H'; any other key raises `KeyError`, so the level is an enum. */
  datatype Level = L | M | Q | H

  /** The supported symbol versions. Every table below has exactly these keys. */
  type Version = v: int | 1 <= v <= 10 witness 1

  /** Entry `v` of a ten-entry table keyed by version. */
  function Pick<T>(v: Version, t1: T, t2: T, t3: T, t4: T, t5: T, t6: T, t7: T, t8: T, t9: T, t10: T): T
  {
    if v == 1 then t1 else if v == 2 then t2 else if v == 3 then t3
    else if v == 4 then t4 else if v == 5 then t5 else if v == 6 then t6
    else if v == 7 then t7 else if v == 8 then t8 else if v == 9 then t9 else t10
  }

  /** `ERROR_CORRECTION_DICT[v][l]`: the number of data codewords of a symbol. */
  function DataCodewords(v: Version, l: Level): nat
  {
    match l
    case L => Pick(v, 19, 34, 55, 80, 108, 136, 156, 194, 232, 274)
    case M => Pick(v, 16, 28, 44, 64, 86, 108, 124, 154, 182, 216)
    case Q => Pick(v, 13, 22, 34, 48, 62, 76, 88, 110, 132, 154)
    case H => Pick(v, 9, 16, 26, 36, 46, 60, 66, 86, 100, 122)
  }

  /** `MAX_CHAR_COUNTS[l][v - 1]`: alphanumeric character capacity of version `v`. */
  function MaxChars(l: Level, v: Version): nat
  {
    match l
    case L => Pick(v, 25, 47, 77, 114, 154, 195, 224, 279, 335, 395)
    case M => Pick(v, 20, 38, 61, 90, 122, 154, 178, 221, 262, 311)
    case Q => Pick(v, 16, 29, 47, 67, 87, 108, 125, 157, 189, 221)
    case H => Pick(v, 10, 20, 35, 50, 64, 84, 93, 122, 143, 174)
  }

  /** `ECTable[l][v]`: error-correction codewords per block. */
  function ECPerBlock(v: Version, l: Level): nat
  {
    match l
    case L => Pick(v, 7, 10, 15, 20, 26, 18, 20, 26, 30, 18)
    case M => Pick(v, 10, 16, 26, 18, 24, 16, 18, 22, 22, 26)
    case Q => Pick(v, 13, 22, 18, 26, 18, 24, 18, 22, 20, 24)
    case H => Pick(v, 17, 28, 22, 16, 22, 28, 26, 26, 24, 28)
  }

  /** `blockingDictionary[l][v]`: the data-codeword count of every block of group
      one and of group two, as the two literal lists of the source. */
  function Blocking(v: Version, l: Level): (groups: (seq<nat>, seq<nat>))
  {
    match l
    case L =>
      Pick(v, ([19], []), ([34], []), ([55], []), ([80], []), ([108], []),
        ([68, 68], []), ([78, 78], []), ([97, 97], []), ([116, 116], []),
        ([68, 68], [69, 69]))
    case M =>
      Pick(v, ([16], []), ([28], []), ([44], []), ([32, 32], []), ([43, 43], []),
        ([27, 27, 27, 27], []), ([31, 31, 31, 31], []), ([38, 38], [39, 39]),
        ([36, 36, 36], [37, 37]), ([43, 43, 43, 43], [44]))
    case Q =>
      Pick(v, ([13], []), ([22], []), ([17, 17], []), ([24, 24], []), ([15, 15], [16, 16]),
        ([19, 19, 19, 19], []), ([14, 14], [15, 15, 15, 15]), ([18, 18, 18, 18], [19, 19]),
        ([16, 16, 16, 16], [17, 17, 17, 17]), ([19, 19, 19, 19, 19, 19], [20, 20]))
    case H =>
      Pick(v, ([9], []), ([16], []), ([13, 13], []), ([9, 9, 9, 9], []), ([11, 11], [12, 12]),
        ([15, 15, 15, 15], []), ([13, 13, 13, 13], [14]), ([14, 14, 14, 14], [15, 15]),
        ([12, 12, 12, 12], [13, 13, 13, 13]), ([15, 15, 15, 15, 15, 15], [16, 16]))
  }

  /** The four numbers the block split reads off the blocking lists. */
  datatype Layout = Layout(groupOneBlocks: nat, groupOneSize: nat, groupTwoBlocks: nat, groupTwoSize: nat)

  /** Block counts from the list lengths, block sizes from the first entries; an
      empty group two has size 0. Reading only the first entry loses nothing,
      since every block of a group has that size. */
  function LayoutOf(v: Version, l: Level): (layout: Layout)
    ensures layout.groupOneBlocks == |Blocking(v, l).0| >= 1
    ensures layout.groupTwoBlocks == |Blocking(v, l).1|
    ensures forall i :: 0 <= i < |Blocking(v, l).0| ==> Blocking(v, l).0[i] == layout.groupOneSize
    ensures forall i :: 0 <= i < |Blocking(v, l).1| ==> Blocking(v, l).1[i] == layout.groupTwoSize
    ensures layout.groupTwoBlocks == 0 ==> layout.groupTwoSize == 0
  {
    BlockingShape(v, l);
    var (one, two) := Blocking(v, l);
    Layout(|one|, one[0], |two|, if |two| > 0 then two[0] else 0)
  }

  /** `remainderBits[v - 1]`: zero bits appended after the interleaved codewords. */
  function RemainderBits(v: Version): nat
  {
    Pick(v, 0, 7, 7, 7, 7, 7, 0, 0, 0, 0)
  }

  function Sum(s: seq<nat>): nat
  {
    if |s| == 0 then 0 else s[0] + Sum(s[1..])
  }

  /** Within a group every block has the same size. */
  predicate Uniform(s: seq<nat>)
  {
    forall i :: 0 <= i < |s| ==> s[i] == s[0]
  }

  lemma {:induction false} SumUniform(s: seq<nat>)
    requires |s| > 0 && Uniform(s)
    ensures Sum(s) == |s| * s[0]
  {
    if |s| > 1 {
      SumUniform(s[1..]);
    }
  }

  /** Each level's capacity grows strictly with the version, so the first
      version that fits is also the only boundary. */
  lemma MaxCharsIncreasing(l: Level, v: Version, w: Version)
    requires v < w
    ensures MaxChars(l, v) < MaxChars(l, w)
  {
  }

  /** The blocking lists are well formed: group one is never empty, a group
      holds equal blocks, a non-empty group two has blocks one codeword longer,
      and the blocks cover exactly the symbol's data codewords. */
  ghost predicate WellFormedBlocking(v: Version, l: Level)
  {
    var (one, two) := Blocking(v, l);
    && |one| > 0 && Uniform(one) && Uniform(two)
    && (|two| > 0 ==> two[0] == one[0] + 1)
    && |one| * one[0] + (if |two| > 0 then |two| * two[0] else 0) == DataCodewords(v, l)
  }

  lemma BlockingShape(v: Version, l: Level)
    ensures WellFormedBlocking(v, l)
  {
    match l
    case L => BlockingShapeL(v);
    case M => BlockingShapeM(v);
    case Q => BlockingShapeQ(v);
    case H => BlockingShapeH(v);
  }

  lemma BlockingShapeL(v: Version)
    ensures WellFormedBlocking(v, L)
  {
    if v <= 5 {
      if v == 1 { } else if v == 2 { } else if v == 3 { } else if v == 4 { } else { }
    } else {
      BlockingShapeLHigh(v);
    }
  }

  lemma BlockingShapeLHigh(v: Version)
    requires v > 5
    ensures WellFormedBlocking(v, L)
  {
    if v == 6 { } else if v == 7 { } else if v == 8 { } else if v == 9 { } else { }
  }

  lemma BlockingShapeM(v: Version)
    ensures WellFormedBlocking(v, M)
  {
    if v <= 5 {
      if v == 1 { } else if v == 2 { } else if v == 3 { } else if v == 4 { } else { }
    } else {
      BlockingShapeMHigh(v);
    }
  }

  lemma BlockingShapeMHigh(v: Version)
    requires v > 5
    ensures WellFormedBlocking(v, M)
  {
    if v == 6 { } else if v == 7 { } else if v == 8 { } else if v == 9 { } else { }
  }

  lemma BlockingShapeQ(v: Version)
    ensures WellFormedBlocking(v, Q)
  {
    if v <= 5 {
      if v == 1 { } else if v == 2 { } else if v == 3 { } else if v == 4 { } else { }
    } else {
      BlockingShapeQHigh(v);
    }
  }

  lemma BlockingShapeQHigh(v: Version)
    requires v > 5
    ensures WellFormedBlocking(v, Q)
  {
    if v == 6 { } else if v == 7 { } else if v == 8 { } else if v == 9 { } else { }
  }

  lemma BlockingShapeH(v: Version)
    ensures WellFormedBlocking(v, H)
  {
    if v <= 5 {
      if v == 1 { } else if v == 2 { } else if v == 3 { } else if v == 4 { } else { }
    } else {
      BlockingShapeHHigh(v);
    }
  }

  lemma BlockingShapeHHigh(v: Version)
    requires v > 5
    ensures WellFormedBlocking(v, H)
  {
    if v == 6 { } else if v == 7 { } else if v == 8 { } else if v == 9 { } else { }
  }

  /** The block sizes of the two groups add up to the symbol's data codewords. */
  lemma {:induction false} BlockingSumsToData(v: Version, l: Level)
    ensures Sum(Blocking(v, l).0) + Sum(Blocking(v, l).1) == DataCodewords(v, l)
  {
    BlockingShape(v, l);
    var (one, two) := Blocking(v, l);
    SumUniform(one);
    if |two| > 0 {
      SumUniform(two);
    }
  }

  /** The same fact in terms of the layout the block split reads. */
  lemma {:induction false} LayoutCoversData(v: Version, l: Level)
    ensures var layout := LayoutOf(v, l);
      && layout.groupOneBlocks * layout.groupOneSize
         + layout.groupTwoBlocks * layout.groupTwoSize == DataCodewords(v, l)
      && layout.groupOneBlocks >= 1 && layout.groupOneSize >= 1
      && (layout.groupTwoBlocks > 0 ==> layout.groupTwoSize == layout.groupOneSize + 1)
  {
    BlockingShape(v, l);
  }

  /** Modules of a version-`v` symbol left over for codewords once the finder,
      separator, timing and alignment patterns, the dark module and the format and
      version areas are taken: the count of section 6.4.10, Table 1, of
      ISO/IEC 18004:2006, written as a closed formula. */
  function RawDataModules(v: Version): nat
  {
    var aligns := v / 7 + 2;
    var all := (16 * v + 128) * v + 64;
    var alignment := if v >= 2 then 25 * aligns * aligns - 10 * aligns - 55 else 0;
    var versionInfo := if v >= 7 then 36 else 0;
    all - alignment - versionInfo
  }

  /** Codewords a version-`v` symbol holds, data and error correction together. */
  function TotalCodewords(v: Version): nat
  {
    RawDataModules(v) / 8
  }

  /** The remainder-bit table lists exactly the modules that are left over after
      the whole codewords. */
  lemma RemainderFillsSymbol(v: Version)
    ensures RemainderBits(v) == RawDataModules(v) % 8
  {
    if v == 1 { } else if v == 2 { } else if v == 3 { } else if v == 4 { }
    else if v == 5 { } else if v == 6 { } else if v == 7 { } else if v == 8 { }
    else if v == 9 { } else { }
  }

  /** Number of error-correction blocks of a symbol. */
  function BlockCount(v: Version, l: Level): nat
  {
    |Blocking(v, l).0| + |Blocking(v, l).1|
  }

  /** Data codewords plus `ecPerBlock` error-correction codewords for every block. */
  function CodewordsUsed(v: Version, l: Level, ecPerBlock: nat): nat
  {
    DataCodewords(v, l) + ecPerBlock * BlockCount(v, l)
  }

  /** As written, `ECTable['L'][8]` is 26: the two blocks of version 8-L then need
      194 + 2 * 26 = 246 codewords, four more than the 242 the symbol holds. */
  lemma ECTableOverfillsVersion8L()
    ensures CodewordsUsed(8, L, ECPerBlock(8, L)) == 246
    ensures TotalCodewords(8) == 242
  {
  }

  /** `ECTable` with the version 8-L entry set to 24, the value that makes the
      codewords fill the symbol exactly. */
  function ECPerBlockCorrected(v: Version, l: Level): nat
  {
    if v == 8 && l == L then 24 else ECPerBlock(v, l)
  }

  /** With the corrected entry, every (version, level) uses exactly the codewords
      the symbol holds; the remaining 39 entries of the source table already do. */
  lemma CorrectedECFillsSymbol(v: Version, l: Level)
    ensures CodewordsUsed(v, l, ECPerBlockCorrected(v, l)) == TotalCodewords(v)
    ensures !(v == 8 && l == L) ==> CodewordsUsed(v, l, ECPerBlock(v, l)) == TotalCodewords(v)
  {
    match l
    case L => CorrectedECFillsSymbolL(v);
    case M => CorrectedECFillsSymbolM(v);
    case Q => CorrectedECFillsSymbolQ(v);
    case H => CorrectedECFillsSymbolH(v);
  }

  lemma CorrectedECFillsSymbolL(v: Version)
    ensures CodewordsUsed(v, L, ECPerBlockCorrected(v, L)) == TotalCodewords(v)
  {
    if v == 1 { } else if v == 2 { } else if v == 3 { } else if v == 4 { }
    else if v == 5 { } else if v == 6 { } else if v == 7 { } else if v == 8 { }
    else if v == 9 { } else { }
  }

  lemma CorrectedECFillsSymbolM(v: Version)
    ensures CodewordsUsed(v, M, ECPerBlockCorrected(v, M)) == TotalCodewords(v)
  {
    if v == 1 { } else if v == 2 { } else if v == 3 { } else if v == 4 { }
    else if v == 5 { } else if v == 6 { } else if v == 7 { } else if v == 8 { }
    else if v == 9 { } else { }
  }

  lemma CorrectedECFillsSymbolQ(v: Version)
    ensures CodewordsUsed(v, Q, ECPerBlockCorrected(v, Q)) == TotalCodewords(v)
  {
    if v == 1 { } else if v == 2 { } else if v == 3 { } else if v == 4 { }
    else if v == 5 { } else if v == 6 { } else if v == 7 { } else if v == 8 { }
    else if v == 9 { } else { }
  }

  lemma CorrectedECFillsSymbolH(v: Version)
    ensures CodewordsUsed(v, H, ECPerBlockCorrected(v, H)) == TotalCodewords(v)
  {
    if v == 1 { } else if v == 2 { } else if v == 3 { } else if v == 4 { }
    else if v == 5 { } else if v == 6 { } else if v == 7 { } else if v == 8 { }
    else if v == 9 { } else { }
  }
}
